=== FILE: README.md ===
# Hotel booking: a Dafny model of the booking core

This project models the core of a hotel-booking system: a FastAPI/SQLAlchemy
backend and the pure logic of its React client.

The backend half covers the services that own the data:
- rooms: availability of a room for a stay, the admin operations on rooms, room statistics;
- bookings: create, update, cancel, confirm and delete;
- payments: create, update, process, fail, cancel, delete, and the per-booking balance;
- hotels and users: CRUD, login lookup, password change, statistics;
- the rules the HTTP routers add on top: query-string coercion for the room search, scoping of booking reads to the caller, and the empty-file skip of image uploads.

The client half covers:
- the API module: base and media URLs, the request and response interceptors, login and logout;
- the session store (`AuthProvider`);
- the validators and handlers of the rooms, bookings, profile, login and admin pages.

Modelling choices:
- Tables are sequences of immutable records, and each operation is a pure function returning `Result` (an error, or the new database and the touched row).
- Every permission check that reads "admin, or the owner" uses the one predicate `Model.AdminOrOwner`.
- Backend instants are whole seconds and calendar dates are day numbers (`Calendar`).
- Client instants are milliseconds, and an invalid JavaScript date is `None`.
- The current time, random references, password hashing and every server answer are parameters. A server answer is `Reply<T>`: the value, or the failure status.
- Money is an integer number of VND.

Where the code and its documentation disagree, the model follows the code. Four places where that matters:
- Booking reads use Python truthiness for their filters, so an id of 0 filters nothing.
- A file store failure during an upload fails the whole request.
- The client's password change posts to `/users/me/change-password` with a `current_password` field. The backend route is `/users/{user_id}/change-password` and reads `old_password`. `ProfilePage` models the page's side only.
- The payment service uses a status enumeration with a CANCELLED value and record fields that the ORM table does not have. The model follows the service.

The modules follow the program's structure.

| module | file | contents |
|---|---|---|
| `Outcome` | outcome.dfy | `Option`, `Result`, failures |
| `Tables` | tables.dfy | lookups and filters over sequences |
| `Text` | text.dfy | whitespace, trim, split and join |
| `Calendar` | calendar.dfy | days, nights, ISO dates |
| `Model` | model.dfy | the entities |
| `RoomService` | room_service.dfy | the room service |
| `BookingCodes` | booking_codes.dfy | booking references and night counts |
| `BookingService` | booking_service.dfy | the booking service |
| `PaymentService` | payment_service.dfy | the payment service |
| `HotelService` | hotel_service.dfy | the hotel service |
| `UserService` | user_service.dfy | the user service |
| `Routers` | routers.dfy | the HTTP routers' own rules |
| `ApiClient` | api_client.dfy | the client's API module |
| `Session` | session.dfy | the client's session store |
| `RoomsPage` | rooms_page.dfy | the rooms page |
| `BookingsPage` | bookings_page.dfy | the bookings page |
| `ProfilePage` | profile_page.dfy | the profile page |
| `LoginPage` | login_page.dfy | the login page |
| `AdminDashboard` | admin_dashboard.dfy | the admin dashboard |

## Model

| member | source | states |
|---|---|---|
| RoomService.ThreeClauseOverlap | backend/services/room_service.py:284-297 | for stays that end after they start, the three-clause SQL test is exactly half-open interval intersection; a stay ending on the requested check-in does not conflict |
| RoomService.ReversedStayDisagrees | backend/services/room_service.py:284-297 | a stored stay that ends before it starts makes the three clauses and interval intersection disagree, so the equivalence needs well-formed stays |
| RoomService.Blocks | backend/services/room_service.py:274-297 | only a pending or confirmed booking of the same room blocks a stay; the excluded booking never blocks; for proper stays, blocking is intersection |
| RoomService.CountConflicts | backend/services/room_service.py:274-299 | the conflict count is zero exactly when no booking blocks the stay |
| RoomService.CheckRoomAvailability | backend/services/room_service.py:248-301 | an error when check-in is not before check-out, 404 for an unknown room, `false` for a room flagged unavailable, otherwise `true` exactly when no pending or confirmed booking of the room, other than the excluded one, intersects the stay |
| RoomService.ReleasingKeepsAvailable | backend/services/room_service.py:274-277 | moving a booking to a status that does not hold its room never turns an available stay unavailable |
| RoomService.CancellingOnlyBlockerFrees | backend/services/room_service.py:274-277 | a stay whose only blocker is cancelled becomes available |
| RoomService.CreateRoom | backend/services/room_service.py:20-67 | admin only; 404 for an unknown hotel; refused with a duplicate (hotel, number); the new room has a fresh id, is available, and is appended to the table |
| RoomService.CreateRoomKeepsNumbersUnique | backend/services/room_service.py:38-49 | creating a room keeps room numbers unique within each hotel |
| RoomService.ApplyRoomPatch | backend/services/room_service.py:187-192 | each provided field (hotel, number, type, capacity, price, availability, description, amenities, area, bed type) replaces the stored one, absent fields stay, the id is kept and the update time is set |
| RoomService.UpdateRoom | backend/services/room_service.py:154-198 | as written: admin only, 404 for an unknown room; succeeds exactly when the patched room's hotel exists and the number is unchanged, empty, or free in the room's current hotel, so the number check runs only for a changed non-empty number; the patched room is written back |
| RoomService.UpdateRoomCanDuplicateNumbers | backend/services/room_service.py:171-185 | a unique database in which the as-written update leaves a hotel with two rooms of the same number |
| RoomService.UpdateRoomChecked | backend/services/room_service.py:154-198 | the corrected update: succeeds exactly when the resulting (hotel, number) pair is free in the target hotel and that hotel exists |
| RoomService.UpdateRoomCheckedKeepsNumbersUnique | backend/services/room_service.py:171-185 | the corrected update keeps room numbers unique within each hotel |
| RoomService.DeleteRoom | backend/services/room_service.py:200-235 | admin only; 404 for an unknown room; refused exactly when a pending or confirmed booking of the room checks out after the start of today; a room still named by any other booking fails at the database; otherwise the room is removed and nothing else changes |
| RoomService.DeletedRoomIsGone | backend/services/room_service.py:200-235 | after a delete, a lookup of the room's id finds nothing |
| RoomService.SetRoomMaintenance | backend/services/room_service.py:303-326 | admin only; 404 for an unknown room; availability becomes the negation of the maintenance flag, and only the modification time changes besides |
| RoomService.MaintenanceBlocksEveryStay | backend/services/room_service.py:303-326 | a room put under maintenance is reported unavailable for every stay, whatever its bookings |
| RoomService.EndOfMaintenanceFreesRoom | backend/services/room_service.py:303-326 | a room taken out of maintenance is available for any stay that no booking blocks |
| RoomService.StatsScope | backend/services/room_service.py:370-378 | a non-zero hotel id limits the statistics to exactly that hotel's rooms, each kept and none missed; no id or 0 means all rooms |
| RoomService.TypeCountsCoverAll | backend/services/room_service.py:380-389 | the four per-type counts add up to the number of rooms |
| RoomService.GetRoomStats | backend/services/room_service.py:370-390 | the total is the rooms in scope; rooms under maintenance are exactly those not available; each per-type count is the number of rooms in scope of that type, and the four partition the total |
| BookingCodes.BookingReference | backend/routers/bookings.py:19-21 | the reference is eight characters, each an upper-case letter or a digit |
| BookingCodes.EveryReferenceCanBeDrawn | backend/routers/bookings.py:19-21 | every eight-character text over that alphabet is some draw's reference, so the format is all the generator promises |
| BookingCodes.CalculateTotalNights | backend/routers/bookings.py:24-26 | the night count is the difference of the two calendar dates, independent of the time of day |
| Calendar.TimedeltaVersusCalendar | backend/services/booking_service.py:64-65 | whole elapsed days and calendar-day differences differ by at most one, and agree for midnights |
| Calendar.ClientNightsOfProperStay | frontend/src/pages/RoomsPage.tsx:119 | a stay that ends after it starts shows at least one night, and a stay of whole days shows exactly that many |
| Calendar.IsoDateRoundTrip | backend/routers/rooms.py:79-90 | formatting a valid date and parsing it back gives the date |
| Calendar.ParseIsoDate | backend/routers/rooms.py:79-90 | any date read from `YYYY-MM-DD` text is a real calendar day, leap years included |
| Calendar.IsoDateCanonical | backend/routers/rooms.py:79-90 | every text the parser accepts is the formatted text of the date it yields |
| BookingService.CreateBooking | backend/services/booking_service.py:20-88 | 404 for an unknown room; refused when check-in is not before check-out, when it falls on a day before today, when the room is not free, or when the guests exceed capacity; on success a pending booking priced at the nightly rate times the elapsed whole days is appended, carrying the requested guest count and special requests |
| BookingService.CreateBookingKeepsSound | backend/services/booking_service.py:44-61 | a created booking keeps stays well-formed, keys unique and no room double-booked |
| BookingService.ShortStayIsFree | backend/services/booking_service.py:64-65 | a stay shorter than a day is accepted with zero nights and a zero price |
| BookingService.ConfirmBooking | backend/services/booking_service.py:284-326 | admin only; 404 for an unknown booking; succeeds exactly for a pending booking whose room is still free apart from itself; the booking becomes confirmed and nothing else changes |
| BookingService.ConfirmBookingKeepsSound | backend/services/booking_service.py:284-326 | confirming keeps the no-double-booking invariant |
| BookingService.CancelGuards | backend/services/booking_service.py:245-267 | the guards before the date test pass exactly for an existing booking, not yet cancelled, whose caller is admin or owner |
| BookingService.CancelBookingAsWritten | backend/services/booking_service.py:269-274 | as written: every call that passes the guards fails with the datetime-versus-date crash |
| BookingService.CancelBooking | backend/services/booking_service.py:245-282 | corrected: succeeds exactly when the guards pass and the check-in day is after today; the booking becomes cancelled and nothing else changes |
| BookingService.CancelBookingKeepsSound | backend/services/booking_service.py:245-282 | cancelling keeps the invariant, and a cancelled booking can be neither cancelled again nor confirmed |
| BookingService.DeleteBooking | backend/services/booking_service.py:328-356 | admin only; 404 for an unknown booking; refused while any payment refers to the booking; otherwise the booking is removed |
| BookingService.DeleteBookingKeepsSound | backend/services/booking_service.py:328-356 | deleting keeps the invariant |
| BookingService.UpdateGuards | backend/services/booking_service.py:148-170 | the update's guards pass exactly for an existing booking whose caller is admin or owner, and, for a guest, that is neither confirmed nor cancelled |
| BookingService.UpdateBooking | backend/services/booking_service.py:148-243 | update with calendar-day dates: succeeds exactly when the 404/403/status guards pass, a date change is ordered, not in the past and conflict-free apart from the booking itself, and the guest count fits; a date change is repriced; every provided field, the status and special requests included, is stored |
| BookingService.UpdateBookingAsWritten | backend/services/booking_service.py:176-190 | as written: no date change ever succeeds, and without one it agrees with the update above |
| BookingService.UpdateLeavesNightsStale | backend/services/booking_service.py:221-223 | a date change reprices the booking but leaves its night count at the old stay's |
| BookingService.GuestCanSelfConfirm | backend/services/booking_service.py:233-236 | a guest can set their own pending booking to confirmed through the update |
| BookingService.UpdateCanDoubleBook | backend/services/booking_service.py:233-236 | reopening a completed booking is not checked for conflicts, so the update can double-book a room |
| BookingService.UpdateBookingCorrected | backend/services/booking_service.py:148-243 | corrected: succeeds exactly when the guards pass, a non-admin leaves the status alone, the dates are acceptable and every change that leaves the booking holding its room is conflict-free; nights are recomputed with the price; guest count and special requests are stored |
| BookingService.UpdateBookingCorrectedKeepsSound | backend/services/booking_service.py:148-243 | the corrected update keeps the no-double-booking invariant |
| PaymentService.CreatePayment | backend/services/payment_service.py:19-83 | succeeds exactly for an existing booking of the caller (or any booking for an admin) that is confirmed, with a positive amount that keeps the completed payments within its total; 404, 403, not-confirmed, non-positive and over-total refusals; on success a pending payment with a `PAY-` reference is appended |
| PaymentService.UpdatePayment | backend/services/payment_service.py:152-214 | 404 for an unknown payment; succeeds exactly for an admin or the booking's owner, on a payment neither completed nor failed, with a new amount that is positive and keeps the booking within its total; 403 otherwise for a stranger; method and notes follow the patch, status and other fields stay |
| PaymentService.ProcessPayment | backend/services/payment_service.py:216-247 | 404, then admin only; succeeds exactly for an admin on a pending payment, which becomes completed with its payment time set |
| PaymentService.FailPayment | backend/services/payment_service.py:249-279 | 404, then admin only; succeeds exactly for an admin on a pending payment, which becomes failed with the reason appended to its notes |
| PaymentService.CancelPayment | backend/services/payment_service.py:281-311 | 404, then 403 for a caller who is neither an admin nor the booking's owner; succeeds exactly for such a caller on a pending payment, which becomes cancelled |
| PaymentService.DeletePayment | backend/services/payment_service.py:313-339 | admin only; 404; succeeds exactly for an admin on a payment that is not completed, which is removed |
| PaymentService.BookingPaymentStatus | backend/services/payment_service.py:388-413 | 404 exactly for an unknown booking; the total is the booking's price, paid and pending are the sums of its completed and pending payments, the count is its number of payments; paid plus remaining equals the total; fully paid iff paid reaches the total |
| PaymentService.ProcessedPaymentShowsInReport | backend/services/payment_service.py:216-247 | after a payment is processed the booking's report moves its amount from pending to paid and lowers the remaining balance by it |
| PaymentService.CreatePaymentBalance | backend/services/payment_service.py:19-83 | a new payment adds its amount to the pending total, leaves every paid total alone, and keeps every booking paid within its total |
| PaymentService.UpdatePaymentKeepsPaid | backend/services/payment_service.py:152-214 | an update moves no paid total and keeps bookings paid within their totals |
| PaymentService.ProcessPaymentMovesAmount | backend/services/payment_service.py:216-247 | processing moves the amount from the booking's pending total to its paid total and leaves other bookings alone |
| PaymentService.SettlingUnpaidKeepsPaid | backend/services/payment_service.py:249-311 | failing or cancelling removes the amount from the pending total and pays nothing |
| PaymentService.DeletePaymentKeepsPaid | backend/services/payment_service.py:313-339 | deleting never lowers what a booking has been paid |
| PaymentService.SettledPaymentIsFinal | backend/services/payment_service.py:216-311 | once a payment has left pending, processing, failing and cancelling it are all refused |
| PaymentService.ProcessCanOverpay | backend/services/payment_service.py:216-247 | processing does not consult the booking total, so two payments that each fit can together overpay a booking |
| PaymentService.FailureNotesAppend | backend/services/payment_service.py:269-271 | the failure reason is appended after the existing notes |
| PaymentService.FailureNotesFresh | backend/services/payment_service.py:269-271 | with no notes, only the labelled reason is stored, without a leading line break |
| HotelService.CreateHotel | backend/services/hotel_service.py:21-62 | admin only; succeeds exactly when no hotel has that name in that city; the new hotel carries the request's fields and a fresh id |
| HotelService.CreateHotelKeepsNamesUnique | backend/services/hotel_service.py:21-62 | creating keeps (name, city) unique |
| HotelService.ApplyHotelPatch | backend/services/hotel_service.py:147-151 | each provided field (name, address, city, country, stars, description, phone, email, website, amenities) replaces the stored one, absent fields stay, and the id is kept |
| HotelService.UpdateHotel | backend/services/hotel_service.py:113-158 | as written: admin only, 404; succeeds exactly unless a changed non-empty name is taken in the sent city or else the stored one, so the check runs only when the name changes; the patch is applied |
| HotelService.UpdateHotelCanDuplicateNames | backend/services/hotel_service.py:130-145 | moving a hotel to a city that already has a hotel of its name breaks (name, city) uniqueness |
| HotelService.UpdateHotelChecked | backend/services/hotel_service.py:113-158 | corrected: succeeds exactly when the resulting (name, city) pair belongs to no other hotel |
| HotelService.UpdateHotelCheckedKeepsNamesUnique | backend/services/hotel_service.py:130-145 | the corrected update keeps (name, city) unique |
| HotelService.DeleteHotel | backend/services/hotel_service.py:160-189 | admin only; 404; succeeds exactly for a hotel without rooms, and removes it |
| HotelService.DeleteHotelKeepsRoomsHoused | backend/services/hotel_service.py:160-189 | deleting a hotel never leaves a room without its hotel |
| HotelService.GetHotelStats | backend/services/hotel_service.py:216-250 | 404 for an unknown non-zero id; the total is the rooms in scope; occupied rooms are exactly those not available; one hotel's report carries its id and name; the all-hotels report counts every hotel and every room |
| HotelService.HotelStatsAgreeWithRoomStats | backend/services/hotel_service.py:216-250 | the hotel report's room total and occupied count equal the room statistics' total and maintenance count for the same scope |
| UserService.NewUserRecord | backend/services/user_service.py:40-52 | the new user is active, with the given hash, role, email and username, and a fresh id |
| UserService.CreateUser | backend/services/user_service.py:18-56 | succeeds exactly when neither the email nor the username is in use, with the email message when only the email clashes |
| UserService.CreateUserKeepsIdentitiesUnique | backend/services/user_service.py:18-56 | registration keeps emails and usernames unique |
| UserService.Authenticate | backend/services/user_service.py:58-70 | a found user is in the table, has the login name as username or email, and the password verifies; an unknown name finds nobody |
| UserService.Login | backend/routers/users.py:36-54 | succeeds exactly when authentication finds an active user; every refusal is 401 |
| UserService.RegisteredUserCanLogIn | backend/routers/users.py:36-54 | a new user can log in by username unless an earlier email equals it, and by email unless an earlier username equals it |
| UserService.LoginByEmailCanFindAnotherUser | backend/services/user_service.py:58-70 | a new user whose email is an earlier user's username cannot log in with that email |
| UserService.CreateUserChecked | backend/services/user_service.py:18-56 | corrected registration also refuses an email that is a username and a username that is an email |
| UserService.CheckedRegistrationCanLogIn | backend/services/user_service.py:58-70 | after a corrected registration, both the username and the email log the new user in |
| UserService.ApplyUserPatch | backend/services/user_service.py:120-124 | each provided field (email, username, first and last name, phone, role, activity) replaces the stored one and absent fields stay; id and password hash stay |
| UserService.UpdateUser | backend/services/user_service.py:91-131 | as written: 404, then admin or owner; succeeds exactly when the patched email and username are used by no one else; a changed email already in use is the 400 email-taken refusal, and any other clash fails at commit with a 500; the patch is applied |
| UserService.GuestCanPromoteThemself | backend/services/user_service.py:120-124 | a guest can set their own role to admin |
| UserService.UpdateUserChecked | backend/services/user_service.py:91-131 | corrected: agrees with the update whenever it succeeds, never changes the role for a non-admin, and succeeds whenever the update does for an admin or without a role |
| UserService.CheckedUpdateGrantsNoAdmin | backend/services/user_service.py:91-131 | under the corrected update a non-admin changes nobody's role |
| UserService.UpdateUserKeepsIdentitiesUnique | backend/services/user_service.py:108-118 | updates keep emails and usernames unique |
| UserService.DeleteUser | backend/services/user_service.py:133-162 | admin only; 404; never an admin account; the record stays with `is_active` cleared |
| UserService.DeletedUserCannotLogIn | backend/routers/users.py:50-54 | a deactivated user can no longer log in, whatever name and password |
| UserService.ChangePassword | backend/services/user_service.py:164-194 | admin or owner; 404; the old password must verify unless the caller is an admin; only the hash changes |
| UserService.NewPasswordLogsIn | backend/services/user_service.py:164-194 | after a change, any login name that found the user logs them in with the new password |
| UserService.GetUserStats | backend/services/user_service.py:196-208 | active and inactive count the users that are and are not active; admins and guests count the users of each role; each pair sums to the total |
| UserService.CreateUserCountsInStats | backend/services/user_service.py:18-56 | a registration adds one user, one active user and one user of the requested role to the statistics |
| Routers.ParseInt | backend/routers/rooms.py:72-76 | a number is read only from text that is not blank after trimming |
| Routers.ParseFormatInt | backend/routers/rooms.py:72-76 | reading back the decimal text of any integer gives the integer |
| Routers.ParseIntIgnoresLeadingSpace | backend/routers/rooms.py:72-76 | whitespace before a number does not change what it reads as |
| Routers.CoerceInt | backend/routers/rooms.py:72-76 | absent or blank text is no filter; text that is not a number is a 500; a number is read as such |
| Routers.CoerceDate | backend/routers/rooms.py:79-90 | a date filter exists exactly when the text parses as an ISO date, and then the text is that date's written form |
| Routers.CoerceDateOfIsoText | backend/routers/rooms.py:79-90 | the written form of any valid date is read as that date |
| Routers.CoerceRoomQuery | backend/routers/rooms.py:53-108 | paging outside skip ≥ 0 and 1 ≤ limit ≤ 100 is a 422; a malformed number is a 500; otherwise the filters are built, with guests standing in for a missing or zero capacity |
| Routers.MalformedDateIsIgnored | backend/routers/rooms.py:79-90 | a malformed date never fails the search; it only drops that filter |
| Routers.ListBookings | backend/services/booking_service.py:98-135 | every listed booking is in the table and matches, and every matching booking is listed |
| Routers.ScopeFilters | backend/routers/bookings.py:47-49 | a non-admin's user filter is replaced by their own id; an admin's is kept |
| Routers.GetBookings | backend/routers/bookings.py:29-61 | a non-admin with a non-zero id sees only their own bookings, and all of those that match; an admin sees the plain listing |
| Routers.GetUserBookings | backend/services/booking_service.py:137-146 | someone's bookings are returned exactly to an admin or the owner; anyone else gets 403 |
| Routers.UserZeroListsEveryBooking | backend/routers/bookings.py:77-88 | an admin asking for user 0's bookings gets every booking |
| Routers.GetMyBookings | backend/routers/bookings.py:64-74 | the caller's own bookings, never refused |
| Routers.GetBooking | backend/routers/bookings.py:91-116 | corrected: 404 for a missing booking, then 403 unless admin or owner; otherwise the booking |
| Routers.GetBookingAsWritten | backend/routers/bookings.py:91-116 | as written: the same 404 and 403, and a 500 wherever the corrected read would succeed |
| Routers.OwnerReadOfOwnBookingFails | backend/routers/bookings.py:91-116 | an owner reading their own booking is allowed by the guards yet answered with a 500 |
| Routers.GetBookingAgreesWithListing | backend/routers/bookings.py:91-116 | a caller can read a booking through the corrected route exactly when their unfiltered listing shows it |
| Routers.PutBooking | backend/routers/bookings.py:119-131 | corrected: succeeds exactly when the service's update does, and then answers with the stored booking; a refusal stores nothing |
| Routers.PutBookingAsWritten | backend/routers/bookings.py:119-131 | as written: always a failure, but the store is what the corrected route leaves; an accepted update becomes a 500 |
| Routers.AcceptedPutIsStoredYetFails | backend/routers/bookings.py:119-131 | an update the service accepts is stored while the caller gets a 500 |
| Routers.StoreUploads | backend/routers/rooms.py:264-275 | fails exactly when some non-empty file fails to store; otherwise one link per non-empty file, including each such file's link |
| Routers.UploadRoomImages | backend/routers/rooms.py:240-276 | 403 for a non-admin, then 404 for an unknown room, then the store's outcome |
| Routers.EmptyFilesAreSkipped | backend/routers/rooms.py:267-269 | inserting an empty file anywhere changes nothing, even one whose storing would fail |
| ApiClient.RawBase | frontend/src/services/api.ts:9 | the configured address when it is set and non-empty, the default otherwise |
| ApiClient.NormalizedBase | frontend/src/services/api.ts:11 | the base with at most one trailing slash removed, shorter exactly when it ended in one |
| ApiClient.NormalizeStripsOneSlash | frontend/src/services/api.ts:11 | a base ending in two slashes keeps one |
| ApiClient.BaseUrl | frontend/src/services/api.ts:12 | the API address always ends in `/api/v1`, and is the base or the base with the suffix appended |
| ApiClient.AppendedSuffixEnds | frontend/src/services/api.ts:12 | appending the suffix doubles it exactly when the base already ended in it |
| ApiClient.SuffixNeverDoubled | frontend/src/services/api.ts:12 | the address ends in a doubled suffix exactly when the configured base did |
| ApiClient.BaseUrlIdempotent | frontend/src/services/api.ts:11-12 | normalising the API address again changes nothing |
| ApiClient.MediaBase | frontend/src/services/api.ts:15 | the media base is a prefix of the base, with a final `api/v1` and the slash before it removed |
| ApiClient.MediaAndApiShareOrigin | frontend/src/services/api.ts:12-15 | the API address is the media base followed by `/api/v1`, unless the base ends in `api/v1` without a slash |
| ApiClient.MediaBaseCanEatHostName | frontend/src/services/api.ts:15 | a host name ending in `api` followed by `/v1` loses `api` in the media base |
| ApiClient.GetMediaUrl | frontend/src/services/api.ts:16-17 | absolute links pass through; other paths are put after the media base |
| ApiClient.GetMediaUrlIdempotent | frontend/src/services/api.ts:16-17 | with an `http` media base, resolving a resolved link changes nothing |
| ApiClient.AuthHeader | frontend/src/services/api.ts:29-35 | a header is sent exactly when a non-empty token is stored, and it is `Bearer ` followed by the token |
| ApiClient.OnError | frontend/src/services/api.ts:47-55 | a 401 empties both keys and reloads onto `/login`; any other failure leaves storage alone |
| ApiClient.Through | frontend/src/services/api.ts:43-55 | answers pass through untouched; failures go through the interceptor and are rethrown |
| ApiClient.AuthLogin | frontend/src/services/api.ts:67-76 | on success both keys hold the grant; a refusal goes through the interceptor |
| ApiClient.FailedLoginWipesSession | frontend/src/services/api.ts:48-52 | a login refused with 401 empties storage and reloads the login page |
| ApiClient.AuthLoginCorrected | frontend/src/services/api.ts:67-76 | corrected: a refused login leaves storage alone and does not reload |
| ApiClient.AuthLoginCorrectedAgrees | frontend/src/services/api.ts:43-76 | the corrected call agrees with the original on everything but a 401 |
| ApiClient.AuthLogout | frontend/src/services/api.ts:79-82 | logout empties both keys |
| Session.Login | frontend/src/contexts/AuthContext.tsx:57-62 | memory and storage hold exactly the pair; authenticated iff the token is non-empty |
| Session.Logout | frontend/src/contexts/AuthContext.tsx:116-122 | everything is cleared whatever the state was, and the session is not authenticated |
| Session.InitAuth | frontend/src/contexts/AuthContext.tsx:24-54 | loading ends; without both keys nothing else changes; with them, a fetched profile is held in memory and storage, and a failure clears both |
| Session.ReloadRestoresLogin | frontend/src/contexts/AuthContext.tsx:24-62 | a page reload after a login restores the same session once the server confirms the user |
| Session.LoginWithCredentials | frontend/src/contexts/AuthContext.tsx:65-89 | on success memory and storage hold the grant; a failure is rethrown with memory unchanged and storage as the interceptor left it; a page reload follows exactly a 401 |
| Session.Register | frontend/src/contexts/AuthContext.tsx:92-113 | succeeds iff both creation and login succeed; after creation it logs in with the same username and password; a creation failure is rethrown with memory unchanged, and reloads the page exactly when it is a 401 |
| Session.UpdateProfile | frontend/src/contexts/AuthContext.tsx:125-136 | on success the answer replaces the user in memory and storage; a failure is rethrown with the user unchanged and reloads the page exactly when it is a 401 |
| Session.OperationsKeepMirror | frontend/src/contexts/AuthContext.tsx:57-136 | every operation keeps memory and storage in step, except a failure the interceptor answers with 401 |
| Session.FailedReloginSplitsMemoryFromStorage | frontend/src/contexts/AuthContext.tsx:65-89 | a signed-in user whose second login is refused stays signed in in memory while storage is emptied, but only until the reload the 401 starts, after which the page comes up signed out |
| RoomsPage.HandleBookRoom | frontend/src/pages/RoomsPage.tsx:86-94 | a visitor not signed in goes to `/login`, remembering the page, without the form; a signed-in user gets the form for the room |
| RoomsPage.SubmitBooking | frontend/src/pages/RoomsPage.tsx:96-129 | no request without a room or user; refused iff check-in is before now or check-out is not after check-in, the past check first; a sent request carries the form's fields, an empty special request as absent, and at least one night with total price times nights |
| RoomsPage.SameDayCheckInRefused | frontend/src/pages/RoomsPage.tsx:104-108 | a check-in on today's date is refused whenever the current instant is past midnight |
| RoomsPage.InvalidDatesAreSent | frontend/src/pages/RoomsPage.tsx:104-119 | invalid dates pass both checks and the request is sent with no night count |
| RoomsPage.GuestChoicesAreOneToCapacity | frontend/src/pages/RoomsPage.tsx:561-565 | a guest count is offered exactly when it is between 1 and the capacity |
| RoomsPage.RoomTypeLabel | frontend/src/pages/RoomsPage.tsx:149-157 | the label differs from the raw type exactly for single, double, suite and family; deluxe shows raw |
| BookingsPage.StatusNameInjective | frontend/src/pages/BookingsPage.tsx:48-74 | different statuses travel as different texts |
| BookingsPage.CanCancel | frontend/src/pages/BookingsPage.tsx:91-93 | cancel is offered iff the status is pending or confirmed |
| BookingsPage.CanCancelExactlyWhenHoldingRoom | frontend/src/pages/BookingsPage.tsx:91-93 | the button is offered exactly for the statuses that hold a room on the server |
| BookingsPage.StatusLabel | frontend/src/pages/BookingsPage.tsx:62-74 | any unrecognised status reads as pending |
| BookingsPage.StatusColor | frontend/src/pages/BookingsPage.tsx:48-60 | any unrecognised status is coloured as pending |
| BookingsPage.StatusesLookDifferent | frontend/src/pages/BookingsPage.tsx:48-74 | each status gets its own label and its own colour |
| BookingsPage.DisplayedNights | frontend/src/pages/BookingsPage.tsx:189 | a count is shown iff both dates are valid, and it is at least one for a proper stay |
| BookingsPage.DisplayedNightsMatchServer | frontend/src/pages/BookingsPage.tsx:189 | for midnight-to-midnight stays the page shows the server's night count |
| BookingsPage.HandleCancelBooking | frontend/src/pages/BookingsPage.tsx:31-46 | a request is sent iff the dialog is accepted; the booking is marked cancelling during the request and unmarked afterwards on every path; success refetches and shows the message; failure alerts |
| ProfilePage.CheckPasswordChange | frontend/src/pages/ProfilePage.tsx:89-106 | a mismatch is reported first, then a new password under 8 characters; otherwise the request carries only the current and new passwords |
| ProfilePage.HandleChangePassword | frontend/src/pages/ProfilePage.tsx:86-120 | a request is sent iff both checks pass; success clears all three fields and hides the form; a refusal with a text detail or none keeps the fields and shows an error; a refusal with a list detail keeps the fields and leaves the page unable to render |
| ProfilePage.BackendReply | frontend/src/services/api.ts:103-104 | the page's request is answered by a validation refusal, never a success or a text refusal, because its path and body do not fit backend/routers/users.py:157-161 |
| ProfilePage.AcceptedChangeBreaksPage | frontend/src/pages/ProfilePage.tsx:99-120 | every change that passes the page's checks is sent, refused with a list detail, and leaves the page unable to render |
| ProfilePage.HandlePasswordInput | frontend/src/pages/ProfilePage.tsx:59-66 | the field takes the value and the error is cleared |
| ProfilePage.HandleProfileInput | frontend/src/pages/ProfilePage.tsx:50-57 | the named input takes the value, other inputs stay, and the error is cleared |
| ProfilePage.RetypingClearsMismatch | frontend/src/pages/ProfilePage.tsx:56-97 | after a mismatch, retyping the confirmation to match clears the error and passes the mismatch check |
| LoginPage.ValidateForm | frontend/src/pages/LoginPage.tsx:46-58 | a username error iff the username is all whitespace; a password error iff the password is empty, untrimmed; valid iff there are no errors |
| LoginPage.HandleInputChange | frontend/src/pages/LoginPage.tsx:30-44 | the field takes the value; only that field's error is blanked; no error key appears or disappears |
| LoginPage.RedirectAfterLogin | frontend/src/pages/LoginPage.tsx:77-83 | an admin goes to `/admin`; anyone else to the page they came from, or `/` |
| LoginPage.HandleSubmit | frontend/src/pages/LoginPage.tsx:61-95 | a request iff the form is valid, with the untrimmed username; success stores the grant and redirects; a refusal shows the server's detail or the default message, and a 401 reloads the page |
| LoginPage.WrongPasswordMessageIsDiscarded | frontend/src/pages/LoginPage.tsx:85-91 | a wrong password answered with 401 empties storage and reloads the page, so the message just set is lost |
| LoginPage.HandleSubmitCorrected | frontend/src/pages/LoginPage.tsx:61-95 | over the corrected login call, a refusal keeps the session and the message on screen and never reloads |
| AdminDashboard.ShowsDashboard | frontend/src/pages/AdminDashboard.tsx:173-187 | the dashboard shows exactly for a signed-in admin |
| AdminDashboard.FileSelect | frontend/src/pages/AdminDashboard.tsx:148-157 | keeps exactly the image files with content; alerts iff some file was dropped |
| AdminDashboard.FileSelectKeepsOrder | frontend/src/pages/AdminDashboard.tsx:148-157 | selecting two batches together keeps each batch's files in order, and alerts iff either batch would |
| AdminDashboard.FileSelectKeepsAcceptable | frontend/src/pages/AdminDashboard.tsx:148-157 | a selection of image files with content is kept as is, without an alert |
| AdminDashboard.SelectedFilesAreAllStored | frontend/src/pages/AdminDashboard.tsx:148-171 | every file the page lets through is non-empty, so a successful upload returns one link per file |
| AdminDashboard.HandleImageUpload | frontend/src/pages/AdminDashboard.tsx:159-171 | nothing happens with no files; success appends the links and clears the selection; failure keeps both and alerts |
| AdminDashboard.UploadTwiceSendsOnce | frontend/src/pages/AdminDashboard.tsx:159-171 | after a successful upload a second press sends nothing |
| AdminDashboard.NormalizeAmenities | frontend/src/pages/AdminDashboard.tsx:804 | the saved text has as many comma-separated pieces as the typed one, each the typed piece trimmed |
| AdminDashboard.NormalizeAmenitiesIdempotent | frontend/src/pages/AdminDashboard.tsx:1016 | tidying a tidied list changes nothing |
| AdminDashboard.TidyAmenitiesAreKept | frontend/src/pages/AdminDashboard.tsx:804 | a list whose pieces are already trimmed is saved as typed |
| AdminDashboard.DispatchDelete | frontend/src/pages/AdminDashboard.tsx:77-86 | a request goes out exactly for the four known types, to the endpoint that deletes that type |
| AdminDashboard.DispatchRoundTrip | frontend/src/pages/AdminDashboard.tsx:79-84 | dispatching on the type an endpoint deletes gives that endpoint back |
| AdminDashboard.HandleDelete | frontend/src/pages/AdminDashboard.tsx:77-96 | success closes the modal, clears the item and refreshes that type's list; an unknown type or a failure only alerts |
| AdminDashboard.DeleteRefreshesItsTab | frontend/src/pages/AdminDashboard.tsx:36-96 | a delete from a tab refreshes that tab's own list query |
| AdminDashboard.OffersDecision | frontend/src/pages/AdminDashboard.tsx:583-598 | confirm and reject are offered iff the booking is pending |
| AdminDashboard.DecisionOfferedWhereConfirmable | frontend/src/pages/AdminDashboard.tsx:583-598 | every booking the server would confirm shows the buttons |
| AdminDashboard.HandleDecision | frontend/src/pages/AdminDashboard.tsx:61-75 | a request iff the dialog is accepted; only success refreshes the bookings list; an accepted dialog always ends in an alert |

## Left out

- Listing order and paging (`order_by`, `offset`, `limit`) are not modelled. Listings are the matching rows in table order.
- Floating-point prices and amounts are modelled as integers. The float query filters (`min_price`, `max_price`) are read with the integer parser.
- Python's `int()` also accepts underscores between digits and non-ASCII digits. Both are left out of `Routers.ParseInt`.
- `date.fromisoformat` is modelled in its `YYYY-MM-DD` form only; newer Pythons accept more formats.
- `get_booking_stats`, `get_upcoming_bookings`, `get_current_guests`, `get_payment_stats` and `get_recent_payments` are SQL aggregates or date arithmetic outside the core. `get_upcoming_bookings` and `get_recent_payments` also call `datetime.timedelta` on the imported `datetime` class, which has no such attribute.
- The listing and search variants of the services (`get_rooms`, `search_rooms`, `get_hotels`, `search_hotels`, `get_payments` and the like) are query plumbing and are not modelled.
- A patch that sets a field explicitly to `null` is treated like an absent field.
- Google Drive I/O, file names and the hotel image endpoint are not modelled. A store call is a per-file link or a failure.
- JWT tokens and bcrypt are parameters. Hashing is an input; verification is a function parameter.
- JavaScript `trim` is modelled on ASCII whitespace only. Lengths count characters, not UTF-16 code units. `JSON.stringify` and `JSON.parse` are assumed to round-trip a profile.
- Toasts, `console` output and the timed clearing of messages are left out.
- The profile page's update-profile action posts to `/users/me`, for which the backend has no route. It is left out.
- `ProfilePage` does not model the response interceptor on its calls.
- HandleChangePassword: after a list-valued refusal the page stores the list as its error (frontend/src/pages/ProfilePage.tsx:116) and renders it as a child element (lines 168-172). The model's text-valued error cannot hold a list, so it leaves the error empty and records the failed render as `renderFails`.
- Record timestamps are modelled for rooms, hotels, bookings and payments only. The `User` record has no `updated_at`, so the time `update_user` stores (backend/services/user_service.py:126) is left out.
- The login page's demo login and success banner are presentation and are left out.
- Async ordering, stale responses and cross-tab storage races are not modelled. Each call's answer is an input.
- The dashboard's statistics, edit modals and formatters are left out.
- Room image lookup is left out. `_get_room_images` (backend/services/room_service.py:237-246) calls `get_or_create_root`, which the file never imports. When `GDRIVE_PARENT_ROOMS` is unset, every `get_room_by_id` call therefore fails with a 500, and so do the room update, delete, availability and maintenance paths. The `RoomService` members assume the variable is set and succeed there.
- String comparison is exact. The default store is MySQL (backend/database.py:21), whose default collation compares case-insensitively. There, the username, email, (name, city) and room-number lookups and duplicate checks ignore case; the model's do not.
- `EmailStr` validation and normalisation of emails are left out. Emails are compared as given.
- `PUT /bookings/{booking_id}` has the same response-model mismatch as the single-booking read (see Findings). The other booking routes declare no response model and are not affected.
- The payment routes are not modelled, only the payment service. They declare `PaymentResponse` or `List[PaymentResponse]` as response model (backend/routers/payments.py:21-133) and return the same envelope, so once the service has answered (and, for an update, committed) each one fails response validation with a 500.

## Findings

| source | as written | input that shows it | evidently intended | confidence | as-written member | corrected member |
|---|---|---|---|---|---|---|
| backend/services/booking_service.py:270 | `cancel_booking` orders the stored check-in `datetime` against `date.today()`, which Python refuses with `TypeError` | any booking that passes the owner and status guards | compare the check-in's calendar day with today | high, not executed | BookingService.CancelBookingAsWritten | BookingService.CancelBooking |
| backend/services/booking_service.py:186 | `update_booking` orders the new check-in `datetime` against `date.today()` | any update carrying a check-in or check-out date | compare calendar days | high, not executed | BookingService.UpdateBookingAsWritten | BookingService.UpdateBooking |
| backend/services/booking_service.py:221-223 | a date change recomputes `total_price` but not `total_nights` | a 2-night booking moved to a 3-night stay | recompute both | high, not executed | BookingService.UpdateLeavesNightsStale | BookingService.UpdateBookingCorrected |
| backend/services/booking_service.py:233-236 | every provided field is stored, including `status`, for a guest too | a guest's update with status CONFIRMED on their pending booking; an admin reopening a completed booking that overlaps a confirmed one | reserve status changes to admins and check the resulting stay for conflicts | medium, not executed | BookingService.GuestCanSelfConfirm | BookingService.UpdateBookingCorrected |
| backend/services/booking_service.py:233-236 | reopening a booking is not checked for conflicts | a completed booking set back to pending over a confirmed stay of the same room | check conflicts whenever the booking will hold its room | medium, not executed | BookingService.UpdateCanDoubleBook | BookingService.UpdateBookingCorrectedKeepsSound |
| backend/services/room_service.py:172-185 | the duplicate-number check runs only when the number changes, and looks in the room's current hotel | moving room "101" into a hotel that already has a "101" | check the resulting (hotel, number) pair | high, not executed | RoomService.UpdateRoomCanDuplicateNumbers | RoomService.UpdateRoomCheckedKeepsNumbersUnique |
| backend/services/hotel_service.py:131-145 | the (name, city) check runs only when the name changes | moving a hotel to a city that has a hotel of the same name | check the resulting (name, city) pair | high, not executed | HotelService.UpdateHotelCanDuplicateNames | HotelService.UpdateHotelCheckedKeepsNamesUnique |
| backend/services/user_service.py:120-124 | `role` is one of the fields a user may update on their own record; registration too takes a requested role, because `UserCreate` inherits `role` from `UserBase` (default GUEST), and `CreateUser` stores it | a guest's update of themself with role ADMIN; a registration with role ADMIN | reserve role changes to admins | high, not executed | UserService.GuestCanPromoteThemself | UserService.CheckedUpdateGrantsNoAdmin |
| backend/services/user_service.py:58-70 | login looks usernames and emails up together, but registration checks them apart | user 1 has username "x@y.z"; user 2 registers with email "x@y.z" and cannot log in with it | keep the two namespaces disjoint at registration | medium, not executed | UserService.LoginByEmailCanFindAnotherUser | UserService.CheckedRegistrationCanLogIn |
| backend/routers/bookings.py:91-116 | `get_booking` declares `response_model=BookingResponse` but returns the `{code, message, data}` envelope; response validation finds none of the booking's fields at the top level and the request ends in a 500 | an owner reading their own booking | return the booking itself, or declare the envelope as the response model | high, not executed | Routers.OwnerReadOfOwnBookingFails | Routers.GetBookingAgreesWithListing |
| backend/routers/bookings.py:119-131 | `update_booking` has the same mismatch, after the service has committed the update | any update the service accepts | answer with the stored booking | high, not executed | Routers.AcceptedPutIsStoredYetFails | Routers.PutBooking |
| frontend/src/services/api.ts:48-52 | the 401 interceptor also fires on the login call, whose 401 means a wrong password: storage is wiped and the page reloads, so the login page's message is lost | a wrong password on the login page | leave the login call's own 401 to the page | medium, not executed | ApiClient.FailedLoginWipesSession | ApiClient.AuthLoginCorrectedAgrees |

=== FILE: admin_dashboard.dfy ===
/** The admin dashboard's own logic: who may see it, which files an upload
    takes, how amenity lists are tidied before they are saved, which
    endpoint a delete goes to, and which booking actions are offered. */
module AdminDashboard {
  import opened Outcome
  import opened Model
  import Tables
  import Calendar
  import Text
  import opened ApiClient
  import BookingService
  import BookingsPage
  import Routers

  // ---------------------------------------------------------------------
  // Access.

  /** The dashboard renders for an admin; everyone else, signed in or not,
      gets the access-denied view and no admin query is enabled. */
  function ShowsDashboard(user: Option<Profile>): (r: bool)
    ensures r <==> user.Some? && user.value.role == "admin"
    ensures user.None? ==> !r
  {
    !(user.None? || user.value.role != "admin")
  }

  // ---------------------------------------------------------------------
  // Choosing files.

  /** The fields of a browser `File` the page looks at. */
  datatype ClientFile = ClientFile(mimeType: string, size: nat)

  /** A file the upload keeps: an image with some content. */
  predicate Acceptable(f: ClientFile) {
    Text.StartsWith(f.mimeType, "image/") && f.size > 0
  }

  /** The selection `handleFileSelect` stores and whether it alerted. */
  datatype FileSelection = FileSelection(kept: seq<ClientFile>, alerted: bool)

  function FileSelect(files: seq<ClientFile>): (r: FileSelection)
    ensures forall i :: 0 <= i < |r.kept| ==> r.kept[i] in files && Acceptable(r.kept[i])
    ensures forall i :: 0 <= i < |files| && Acceptable(files[i]) ==> files[i] in r.kept
    ensures r.alerted <==> exists i :: 0 <= i < |files| && !Acceptable(files[i])
  {
    var kept := Tables.Filter(files, Acceptable);
    Tables.FilterKeepsAll(files, Acceptable);
    FileSelection(kept, |kept| != |files|)
  }

  /** Choosing two batches in one go keeps each batch's files in the order
      they were chosen. */
  lemma FileSelectKeepsOrder(a: seq<ClientFile>, b: seq<ClientFile>)
    ensures FileSelect(a + b).kept == FileSelect(a).kept + FileSelect(b).kept
    ensures FileSelect(a + b).alerted <==> FileSelect(a).alerted || FileSelect(b).alerted
  {
    Tables.FilterAppend(a, b, Acceptable);
    var ab := a + b;
    if FileSelect(a).alerted {
      var i :| 0 <= i < |a| && !Acceptable(a[i]);
      assert ab[i] == a[i];
    }
    if FileSelect(b).alerted {
      var i :| 0 <= i < |b| && !Acceptable(b[i]);
      assert ab[|a| + i] == b[i];
    }
  }

  /** A selection of acceptable files is kept as it is, silently. */
  lemma FileSelectKeepsAcceptable(files: seq<ClientFile>)
    requires forall i :: 0 <= i < |files| ==> Acceptable(files[i])
    ensures FileSelect(files) == FileSelection(files, false)
  {
    Tables.FilterKeepsAll(files, Acceptable);
    FilterAllIsIdentity(files, Acceptable);
  }

  lemma {:induction false} FilterAllIsIdentity<T>(s: seq<T>, p: T -> bool)
    requires forall i :: 0 <= i < |s| ==> p(s[i])
    ensures Tables.Filter(s, p) == s
  {
    if |s| > 0 {
      assert s == [s[0]] + s[1..];
      Tables.FilterAppend([s[0]], s[1..], p);
      FilterAllIsIdentity(s[1..], p);
      assert Tables.Filter([s[0]], p) == [s[0]] by {
        Tables.FilterAppend([], [s[0]], p);
      }
    }
  }

  /** Every file the page lets through is non-empty, so the server, which
      skips empty files, stores all of them and sends one link per file.
      The page sends hotel images, whose route (backend/routers/hotels.py,
      lines 201-236) runs the same loop as the room route `StoreUploads`
      models: an empty file is skipped (line 224) and a store failure is a
      500 (line 233). */
  lemma SelectedFilesAreAllStored(files: seq<ClientFile>, links: seq<Option<string>>)
    requires |links| == |FileSelect(files).kept|
    ensures var kept := FileSelect(files).kept;
            var sent := seq(|kept|, i requires 0 <= i < |kept| => Routers.Upload(kept[i].size, links[i]));
            Routers.StoreUploads(sent).Ok? ==> |Routers.StoreUploads(sent).value| == |kept|
  {
    var kept := FileSelect(files).kept;
    var sent := seq(|kept|, i requires 0 <= i < |kept| => Routers.Upload(kept[i].size, links[i]));
    var empty := (u: Routers.Upload) => !Routers.NonEmpty(u);
    Tables.CountSplit(sent, Routers.NonEmpty, empty);
    assert Tables.Count(sent, empty) == 0;
  }

  // ---------------------------------------------------------------------
  // Uploading.

  /** The state `handleImageUpload` works on. */
  datatype UploadState = UploadState(selected: seq<ClientFile>, uploaded: seq<string>, alert: Option<string>)

  const UploadedMessage: string := "Upload ảnh thành công!"
  const UploadFailedMessage: string := "Lỗi upload ảnh"

  /** One run of `handleImageUpload`: the files sent, if any, and the state
      afterwards. */
  datatype UploadRun = UploadRun(sent: Option<seq<ClientFile>>, state: UploadState)

  /** `handleImageUpload`, given the links the server answers with. */
  function HandleImageUpload(st: UploadState, reply: Reply<seq<string>>): (r: UploadRun)
    ensures |st.selected| == 0 ==> r == UploadRun(None, st)
    ensures |st.selected| > 0 ==> r.sent == Some(st.selected)
    ensures |st.selected| > 0 && reply.Answered? ==>
              r.state.uploaded == st.uploaded + reply.value && r.state.selected == []
              && r.state.alert == Some(UploadedMessage)
    ensures |st.selected| > 0 && reply.Rejected? ==>
              r.state.uploaded == st.uploaded && r.state.selected == st.selected
              && r.state.alert == Some(UploadFailedMessage)
    ensures st.uploaded <= r.state.uploaded
  {
    if |st.selected| == 0 then UploadRun(None, st)
    else match reply
      case Answered(urls) => UploadRun(Some(st.selected), st.(uploaded := st.uploaded + urls, selected := [], alert := Some(UploadedMessage)))
      case Rejected(_) => UploadRun(Some(st.selected), st.(alert := Some(UploadFailedMessage)))
  }

  /** After a successful upload a second press sends nothing. */
  lemma UploadTwiceSendsOnce(st: UploadState, first: Reply<seq<string>>, second: Reply<seq<string>>)
    requires |st.selected| > 0 && first.Answered?
    ensures HandleImageUpload(HandleImageUpload(st, first).state, second).sent.None?
    ensures HandleImageUpload(HandleImageUpload(st, first).state, second).state.uploaded
            == st.uploaded + first.value
  {
  }

  // ---------------------------------------------------------------------
  // Amenities.

  /** The amenity text saved with a hotel or room: split at commas, each
      piece trimmed, joined with commas again. */
  function NormalizeAmenities(s: string): (r: string)
    ensures |Text.Split(r, ',')| == |Text.Split(s, ',')|
    ensures forall i :: 0 <= i < |Text.Split(r, ',')| ==>
              Text.Split(r, ',')[i] == Text.Trim(Text.Split(s, ',')[i], Text.IsJsSpace)
  {
    var pieces := Text.TrimEach(Text.Split(s, ','), Text.IsJsSpace);
    PiecesHaveNoComma(s);
    Text.SplitJoin(pieces, ',');
    Text.Join(pieces, ',')
  }

  lemma PiecesHaveNoComma(s: string)
    ensures forall i :: 0 <= i < |Text.Split(s, ',')| ==> ',' !in Text.Trim(Text.Split(s, ',')[i], Text.IsJsSpace)
  {
    var ps := Text.Split(s, ',');
    forall i | 0 <= i < |ps|
      ensures ',' !in Text.Trim(ps[i], Text.IsJsSpace)
    {
      Text.TrimKeepsOut(ps[i], Text.IsJsSpace, ',');
    }
  }

  /** Saving the form twice stores the same text: tidying a tidy list
      changes nothing. */
  lemma NormalizeAmenitiesIdempotent(s: string)
    ensures NormalizeAmenities(NormalizeAmenities(s)) == NormalizeAmenities(s)
  {
    var n := NormalizeAmenities(s);
    var p := Text.TrimEach(Text.Split(s, ','), Text.IsJsSpace);
    var q := Text.TrimEach(Text.Split(n, ','), Text.IsJsSpace);
    forall i | 0 <= i < |q|
      ensures q[i] == p[i]
    {
      Text.TrimIdempotent(Text.Split(s, ',')[i], Text.IsJsSpace);
    }
    assert q == p;
  }

  /** A list that is already tidy is saved as typed. */
  lemma TidyAmenitiesAreKept(s: string)
    requires forall i :: 0 <= i < |Text.Split(s, ',')| ==> Text.Clean(Text.Split(s, ',')[i], Text.IsJsSpace)
    ensures NormalizeAmenities(s) == s
  {
    var ps := Text.Split(s, ',');
    var p := Text.TrimEach(ps, Text.IsJsSpace);
    forall i | 0 <= i < |p|
      ensures p[i] == ps[i]
    {
      Text.TrimClean(ps[i], Text.IsJsSpace);
    }
    assert p == ps;
    Text.JoinSplit(s, ',');
  }

  // ---------------------------------------------------------------------
  // Deleting.

  /** The four delete endpoints of the admin API. */
  datatype DeleteCall =
    | DeleteUser(id: int)       // DELETE /users/{id}
    | DeleteHotel(id: int)      // DELETE /hotels/{id}
    | DeleteRoom(id: int)       // DELETE /rooms/{id}
    | DeleteBooking(id: int)    // DELETE /bookings/{id}

  /** The item type each endpoint deletes, as the page names it. */
  function KindOf(c: DeleteCall): (k: string)
    ensures k in {"user", "hotel", "room", "booking"}
  {
    match c
    case DeleteUser(_) => "user"
    case DeleteHotel(_) => "hotel"
    case DeleteRoom(_) => "room"
    case DeleteBooking(_) => "booking"
  }

  /** The `switch` in the delete mutation: an unknown type throws before
      any request. */
  function DispatchDelete(kind: string, id: int): (r: Option<DeleteCall>)
    ensures r.Some? <==> kind in {"user", "hotel", "room", "booking"}
    ensures r.Some? ==> KindOf(r.value) == kind && r.value.id == id
  {
    if kind == "user" then Some(DeleteUser(id))
    else if kind == "hotel" then Some(DeleteHotel(id))
    else if kind == "room" then Some(DeleteRoom(id))
    else if kind == "booking" then Some(DeleteBooking(id))
    else None
  }

  /** Each endpoint is reached from exactly one type: dispatching on the
      type an endpoint deletes gives that endpoint back. */
  lemma DispatchRoundTrip(c: DeleteCall)
    ensures DispatchDelete(KindOf(c), c.id) == Some(c)
  {
  }

  /** The dashboard's tabs that list records, and the key of each list's
      query. */
  datatype Tab = UsersTab | HotelsTab | RoomsTab | BookingsTab

  function ListQueryKey(t: Tab): string {
    match t
    case UsersTab => "admin-users"
    case HotelsTab => "admin-hotels"
    case RoomsTab => "admin-rooms"
    case BookingsTab => "admin-bookings"
  }

  /** The type of item each tab's delete button names. */
  function TabKind(t: Tab): string {
    match t
    case UsersTab => "user"
    case HotelsTab => "hotel"
    case RoomsTab => "room"
    case BookingsTab => "booking"
  }

  /** The item `openDeleteModal` records. */
  datatype DeleteItem = DeleteItem(kind: string, id: int, name: string)

  /** The state the delete action touches. */
  datatype DeleteState = DeleteState(modalOpen: bool, item: Option<DeleteItem>, invalidated: seq<string>, alert: Option<string>)

  const DeletedMessage: string := "Xóa thành công!"
  const DeleteFailedMessage: string := "Lỗi khi xóa!"

  /** One run of the delete mutation for `item`, given the server's answer. */
  function HandleDelete(st: DeleteState, item: DeleteItem, reply: Reply<()>): (r: (Option<DeleteCall>, DeleteState))
    ensures r.0 == DispatchDelete(item.kind, item.id)
    ensures r.0.Some? && reply.Answered? ==>
              r.1 == st.(modalOpen := false, item := None, invalidated := st.invalidated + ["admin-" + item.kind + "s"],
                         alert := Some(DeletedMessage))
    ensures r.0.None? || reply.Rejected? ==>
              r.1 == st.(alert := Some(DeleteFailedMessage))
  {
    var call := DispatchDelete(item.kind, item.id);
    if call.Some? && reply.Answered? then
      (call, st.(modalOpen := false, item := None, invalidated := st.invalidated + ["admin-" + item.kind + "s"],
                 alert := Some(DeletedMessage)))
    else (call, st.(alert := Some(DeleteFailedMessage)))
  }

  /** A delete started from a tab refreshes that tab's own list. */
  lemma DeleteRefreshesItsTab(st: DeleteState, t: Tab, id: int, name: string)
    ensures var r := HandleDelete(st, DeleteItem(TabKind(t), id, name), Answered(()));
            r.0.Some? && r.1.invalidated == st.invalidated + [ListQueryKey(t)]
  {
    match t
    case UsersTab => assert "admin-" + "user" + "s" == "admin-users";
    case HotelsTab => assert "admin-" + "hotel" + "s" == "admin-hotels";
    case RoomsTab => assert "admin-" + "room" + "s" == "admin-rooms";
    case BookingsTab => assert "admin-" + "booking" + "s" == "admin-bookings";
  }

  // ---------------------------------------------------------------------
  // Confirming and rejecting bookings.

  /** The confirm and reject buttons appear on pending bookings only. */
  function OffersDecision(status: string): (r: bool)
    ensures r <==> status == "pending"
  {
    status == "pending"
  }

  /** The buttons are offered exactly for the bookings the server would
      consider confirming: any booking an admin can confirm shows them. */
  lemma DecisionOfferedWhereConfirmable(db: Db, admin: User, id: int, now: Calendar.Instant)
    requires BookingService.ConfirmBooking(db, admin, id, now).Ok?
    ensures BookingIndex(db.bookings, id).Some?
    ensures OffersDecision(BookingsPage.StatusName(db.bookings[BookingIndex(db.bookings, id).value].status))
  {
  }

  /** The requests the two buttons send. */
  datatype Decision = ConfirmRequest(bookingId: int)   // POST /bookings/{id}/confirm
                    | RejectRequest(bookingId: int)    // POST /bookings/{id}/cancel/

  const ConfirmedMessage: string := "Xác nhận booking thành công!"
  const ConfirmFailedMessage: string := "Lỗi khi xác nhận booking!"
  const RejectedMessage: string := "Từ chối booking thành công!"
  const RejectFailedMessage: string := "Lỗi khi từ chối booking!"

  /** One press of confirm or reject: the request, if the dialog was
      accepted, the query refreshed, and the alert shown. */
  datatype DecisionRun = DecisionRun(sent: Option<Decision>, invalidated: seq<string>, alert: Option<string>)

  /** `handleConfirmBooking` and `handleRejectBooking`, given the answer to
      `window.confirm` and the server's answer. */
  function HandleDecision(request: Decision, confirmed: bool, reply: Reply<()>): (r: DecisionRun)
    ensures r.sent.Some? <==> confirmed
    ensures !confirmed ==> r == DecisionRun(None, [], None)
    ensures confirmed ==> r.sent == Some(request)
    ensures r.invalidated != [] <==> confirmed && reply.Answered?
    ensures r.invalidated != [] ==> r.invalidated == [ListQueryKey(BookingsTab)]
    ensures confirmed ==> r.alert.Some?
  {
    if !confirmed then DecisionRun(None, [], None)
    else match reply
      case Answered(_) =>
        DecisionRun(Some(request), ["admin-bookings"],
                    Some(if request.ConfirmRequest? then ConfirmedMessage else RejectedMessage))
      case Rejected(_) =>
        DecisionRun(Some(request), [], Some(if request.ConfirmRequest? then ConfirmFailedMessage else RejectFailedMessage))
  }
}

=== FILE: api_client.dfy ===
/** The client's HTTP layer: where requests go, which media URLs it builds,
    what its interceptors do to the browser's storage, and the two
    authentication calls that write that storage.

    The network is not modelled: each call's answer is an input, either the
    value the server sent or the status it failed with (`None` when no
    response arrived at all). */
module ApiClient {
  import opened Outcome
  import Text

  // ---------------------------------------------------------------------
  // Base URLs.

  const DefaultBase: string := "http://localhost:8000"
  const ApiSuffix: string := "/api/v1"

  /** `process.env.REACT_APP_API_URL || 'http://localhost:8000'` */
  function RawBase(env: Option<string>): (r: string)
    ensures |r| > 0
    ensures env.Some? && |env.value| > 0 ==> r == env.value
    ensures env.None? || |env.value| == 0 ==> r == DefaultBase
  {
    if env.Some? && |env.value| > 0 then env.value else DefaultBase
  }

  /** `normalizedBase`: one trailing slash removed, if there is one. */
  function NormalizedBase(raw: string): (r: string)
    ensures r == raw || r + "/" == raw
    ensures |r| < |raw| <==> Text.EndsWith(raw, "/")
  {
    if Text.EndsWith(raw, "/") then raw[..|raw| - 1] else raw
  }

  /** Only one slash is removed: a base ending in two keeps one. */
  lemma NormalizeStripsOneSlash(raw: string)
    requires Text.EndsWith(raw, "//")
    ensures Text.EndsWith(NormalizedBase(raw), "/")
  {
    assert raw[|raw| - 2] == '/';
  }

  /** `BASE_URL`: the normalised base with `/api/v1` appended unless it is
      already there. */
  function BaseUrl(nb: string): (r: string)
    ensures Text.EndsWith(r, ApiSuffix)
    ensures r == nb || r == nb + ApiSuffix
    ensures Text.EndsWith(nb, ApiSuffix) ==> r == nb
  {
    if Text.EndsWith(nb, ApiSuffix) then nb
    else
      assert (nb + ApiSuffix)[|nb|..] == ApiSuffix;
      nb + ApiSuffix
  }

  /** The address the client sends API requests to. */
  function ApiBase(env: Option<string>): string {
    BaseUrl(NormalizedBase(RawBase(env)))
  }

  /** Appending the suffix doubles it exactly when it was there already. */
  lemma AppendedSuffixEnds(nb: string)
    ensures Text.EndsWith(nb + ApiSuffix, ApiSuffix + ApiSuffix) <==> Text.EndsWith(nb, ApiSuffix)
  {
    var s := nb + ApiSuffix;
    var d := ApiSuffix + ApiSuffix;
    if |nb| >= |ApiSuffix| {
      var tail := nb[|nb| - |ApiSuffix|..];
      assert s[|s| - |d|..] == tail + ApiSuffix;
      assert (tail + ApiSuffix)[..|ApiSuffix|] == tail;
      assert d[..|ApiSuffix|] == ApiSuffix;
    } else {
      assert |s| < |d|;
    }
  }

  /** The suffix is never doubled by normalisation: the base URL ends in
      `/api/v1/api/v1` only when the configured base already did. */
  lemma SuffixNeverDoubled(nb: string)
    ensures Text.EndsWith(BaseUrl(nb), ApiSuffix + ApiSuffix) <==> Text.EndsWith(nb, ApiSuffix + ApiSuffix)
  {
    var d := ApiSuffix + ApiSuffix;
    if Text.EndsWith(nb, d) {
      assert nb[|nb| - |ApiSuffix|..] == d[|ApiSuffix|..];
    }
    AppendedSuffixEnds(nb);
  }

  /** Normalising the base URL again changes nothing. */
  lemma BaseUrlIdempotent(raw: string)
    ensures BaseUrl(NormalizedBase(BaseUrl(NormalizedBase(raw)))) == BaseUrl(NormalizedBase(raw))
  {
    var b := BaseUrl(NormalizedBase(raw));
    assert b[|b| - 1] == '1';
    assert !Text.EndsWith(b, "/");
  }

  /** `MEDIA_BASE_URL`: the normalised base with a final `api/v1`, and the
      slash before it if any, removed (`replace(/\/?api\/v1$/, '')`). */
  function MediaBase(nb: string): (r: string)
    ensures Text.StartsWith(nb, r)
    ensures !Text.EndsWith(nb, "api/v1") ==> r == nb
    ensures Text.EndsWith(nb, ApiSuffix) ==> r + ApiSuffix == nb
  {
    if Text.EndsWith(nb, ApiSuffix) then
      assert nb == nb[..|nb| - 7] + nb[|nb| - 7..];
      nb[..|nb| - 7]
    else if Text.EndsWith(nb, "api/v1") then nb[..|nb| - 6]
    else nb
  }

  /** Media and API addresses share their origin: the API address is the
      media address followed by `/api/v1`, unless the base ends in `api/v1`
      without a slash before it. */
  lemma MediaAndApiShareOrigin(nb: string)
    requires !Text.EndsWith(nb, "api/v1") || Text.EndsWith(nb, ApiSuffix)
    ensures MediaBase(nb) + ApiSuffix == BaseUrl(nb)
  {
  }

  /** A host name ending in `api` loses it in the media address. */
  lemma MediaBaseCanEatHostName()
    ensures MediaBase("http://shopapi/v1") == "http://shop"
    ensures BaseUrl("http://shopapi/v1") == "http://shopapi/v1/api/v1"
  {
    var nb := "http://shopapi/v1";
    assert nb[|nb| - 7..] == "papi/v1";
    assert nb[|nb| - 6..] == "api/v1";
    assert nb[..|nb| - 6] == "http://shop";
  }

  /** `getMediaUrl`: absolute links pass through, relative paths are
      placed under the media base. */
  function GetMediaUrl(media: string, path: string): (r: string)
    ensures Text.StartsWith(path, "http") ==> r == path
    ensures !Text.StartsWith(path, "http") ==> Text.StartsWith(r, media) && r[|media|..] == path
  {
    if Text.StartsWith(path, "http") then path
    else
      assert (media + path)[..|media|] == media;
      media + path
  }

  /** With an `http` media base, resolving a resolved URL changes nothing. */
  lemma GetMediaUrlIdempotent(media: string, path: string)
    requires Text.StartsWith(media, "http")
    ensures GetMediaUrl(media, GetMediaUrl(media, path)) == GetMediaUrl(media, path)
  {
    var r := GetMediaUrl(media, path);
    if !Text.StartsWith(path, "http") {
      assert r[..4] == media[..4];
    }
  }

  // ---------------------------------------------------------------------
  // Browser storage and the interceptors.

  /** The user record the server returns; `JSON.stringify` and `parse` are
      taken to round-trip it. */
  datatype Profile = Profile(id: int, username: string, email: string, firstName: string, role: string)

  /** The two `localStorage` keys the client uses. */
  datatype Storage = Storage(token: Option<string>, user: Option<Profile>)

  const EmptyStorage := Storage(None, None)

  /** An answer from the server, or the status of the failure. */
  datatype Reply<T> = Answered(value: T) | Rejected(status: Option<int>)

  /** The request interceptor: the `Authorization` header it adds. */
  function AuthHeader(st: Storage): (h: Option<string>)
    ensures h.Some? <==> st.token.Some? && |st.token.value| > 0
    ensures h.Some? ==> Text.StartsWith(h.value, "Bearer ") && h.value[7..] == st.token.value
  {
    if st.token.Some? && |st.token.value| > 0 then
      assert ("Bearer " + st.token.value)[..7] == "Bearer ";
      Some("Bearer " + st.token.value)
    else None
  }

  /** The response interceptor on a failure: a 401 removes both keys and
      sends the browser to `/login`; any other failure leaves storage alone. */
  datatype ErrorEffect = ErrorEffect(storage: Storage, reloadToLogin: bool)

  function OnError(st: Storage, status: Option<int>): (e: ErrorEffect)
    ensures e.reloadToLogin <==> status == Some(401)
    ensures status == Some(401) ==> e.storage == EmptyStorage
    ensures status != Some(401) ==> e.storage == st
  {
    if status == Some(401) then ErrorEffect(EmptyStorage, true) else ErrorEffect(st, false)
  }

  /** A call's effect on storage and what the caller gets back. */
  datatype Call<T> = Call(storage: Storage, reply: Reply<T>, reloadToLogin: bool)

  /** Any API call: answers pass through, failures go through the
      response interceptor and are rethrown. */
  function Through<T>(st: Storage, reply: Reply<T>): (c: Call<T>)
    ensures c.reply == reply
    ensures reply.Answered? ==> c.storage == st && !c.reloadToLogin
    ensures reply.Rejected? ==> c.storage == OnError(st, reply.status).storage
                                && c.reloadToLogin == OnError(st, reply.status).reloadToLogin
  {
    match reply
    case Answered(_) => Call(st, reply, false)
    case Rejected(status) =>
      var e := OnError(st, status);
      Call(e.storage, reply, e.reloadToLogin)
  }

  // ---------------------------------------------------------------------
  // `authAPI.login` and `authAPI.logout`.

  /** What `/users/login` answers with: a token and the user. */
  datatype LoginGrant = LoginGrant(token: string, user: Profile)

  /** `authAPI.login`: on success both keys hold the grant. */
  function AuthLogin(st: Storage, reply: Reply<LoginGrant>): (c: Call<LoginGrant>)
    ensures c.reply == reply
    ensures reply.Answered? ==> c.storage == Storage(Some(reply.value.token), Some(reply.value.user))
    ensures reply.Rejected? ==> c == Through(st, reply)
  {
    match reply
    case Answered(g) => Call(Storage(Some(g.token), Some(g.user)), reply, false)
    case Rejected(_) => Through(st, reply)
  }

  /** A refused login (the server answers 401 for a wrong password) clears
      whatever session was stored and reloads the login page. */
  lemma FailedLoginWipesSession(st: Storage)
    ensures AuthLogin(st, Rejected(Some(401))).storage == EmptyStorage
    ensures AuthLogin(st, Rejected(Some(401))).reloadToLogin
  {
  }

  /** The intended interceptor: a 401 from the login call itself is a
      refused password, not an expired session, and is passed to the
      caller untouched. */
  function AuthLoginCorrected(st: Storage, reply: Reply<LoginGrant>): (c: Call<LoginGrant>)
    ensures c.reply == reply
    ensures reply.Answered? ==> c.storage == Storage(Some(reply.value.token), Some(reply.value.user))
    ensures reply.Rejected? ==> c.storage == st && !c.reloadToLogin
  {
    match reply
    case Answered(g) => Call(Storage(Some(g.token), Some(g.user)), reply, false)
    case Rejected(_) => Call(st, reply, false)
  }

  /** The corrected call agrees with the original on everything but the
      login call's own refusals. */
  lemma AuthLoginCorrectedAgrees(st: Storage, reply: Reply<LoginGrant>)
    requires !(reply.Rejected? && reply.status == Some(401))
    ensures AuthLoginCorrected(st, reply) == AuthLogin(st, reply)
  {
  }

  /** `authAPI.logout` */
  function AuthLogout(st: Storage): (r: Storage)
    ensures r.token.None? && r.user.None?
    ensures AuthHeader(r).None?
  {
    EmptyStorage
  }
}

=== FILE: booking_codes.dfy ===
/** The two helpers at the top of the bookings router: booking references
    and the number of nights between two dates. */
module BookingCodes {
  import opened Calendar

  /** `string.ascii_uppercase + string.digits` */
  const Alphabet: string := "ABCDEFGHIJKLMNOPQRSTUVWXYZ0123456789"

  const ReferenceLength: nat := 8

  /** A well-formed booking reference: eight characters from the alphabet. */
  predicate IsReference(s: string) {
    |s| == ReferenceLength && forall i :: 0 <= i < |s| ==> s[i] in Alphabet
  }

  /** Eight draws from `random.choices`, each an index into the alphabet. */
  predicate ValidPicks(picks: seq<int>) {
    |picks| == ReferenceLength && forall i :: 0 <= i < |picks| ==> 0 <= picks[i] < |Alphabet|
  }

  /** `generate_booking_reference`, with the random draws as a parameter. */
  function BookingReference(picks: seq<int>): (r: string)
    requires ValidPicks(picks)
    ensures IsReference(r)
    ensures forall i :: 0 <= i < |r| ==> r[i] == Alphabet[picks[i]]
  {
    seq(|picks|, i requires 0 <= i < |picks| => Alphabet[picks[i]])
  }

  /** A position of a character in the alphabet. */
  ghost function AlphabetIndex(c: char): (k: int)
    requires c in Alphabet
    ensures 0 <= k < |Alphabet| && Alphabet[k] == c
  {
    var k :| 0 <= k < |Alphabet| && Alphabet[k] == c; k
  }

  /** Every well-formed reference can be drawn, so the format is all the
      generator promises. */
  lemma EveryReferenceCanBeDrawn(s: string)
    requires IsReference(s)
    ensures exists picks :: ValidPicks(picks) && BookingReference(picks) == s
  {
    var picks := seq(|s|, i requires 0 <= i < |s| => AlphabetIndex(s[i]));
    assert ValidPicks(picks);
    assert BookingReference(picks) == s;
  }

  /** `calculate_total_nights`: the difference of the two calendar dates,
      whatever the times of day. */
  function CalculateTotalNights(checkIn: Instant, checkOut: Instant): (n: int)
    ensures StartOf(DateOf(checkIn)) + n * SecondsPerDay == StartOf(DateOf(checkOut))
    ensures checkIn % SecondsPerDay == 0 && checkOut % SecondsPerDay == 0 ==> n == TimedeltaDays(checkIn, checkOut)
  {
    TimedeltaVersusCalendar(checkIn, checkOut);
    DateOf(checkOut) - DateOf(checkIn)
  }
}

=== FILE: booking_service.dfy ===
/** The booking service: creating, updating, cancelling, confirming and
    deleting bookings.  A booking moves PENDING -> CONFIRMED on
    confirmation and from any other status to CANCELLED on cancellation. */
module BookingService {
  import opened Outcome
  import opened Calendar
  import opened Model
  import opened RoomService
  import BookingCodes
  import Tables

  // ---------------------------------------------------------------------
  // The invariant the service is meant to keep.

  /** No two pending or confirmed bookings of one room intersect. */
  predicate NoDoubleBooking(bookings: seq<Booking>) {
    forall i, j :: 0 <= i < |bookings| && 0 <= j < |bookings| && i != j
      && bookings[i].roomId == bookings[j].roomId
      && HoldsRoom(bookings[i].status) && HoldsRoom(bookings[j].status)
      ==> !(bookings[i].checkIn < bookings[j].checkOut && bookings[j].checkIn < bookings[i].checkOut)
  }

  /** Every stay is well-formed, keys are unique and no room is double-booked. */
  predicate BookingsSound(db: Db) {
    AllStaysProper(db.bookings) && NoDoubleBooking(db.bookings) && Tables.UniqueKeys(db.bookings, BookingKey)
  }

  // ---------------------------------------------------------------------
  // Creation.

  /** A booking request as the router hands it to the service. */
  datatype BookingRequest = BookingRequest(
    roomId: int,
    checkIn: Instant,
    checkOut: Instant,
    guestCount: int,
    specialRequests: Option<string>)

  /** `create_booking`: the room must exist, the stay must end after it
      starts and not start on a day before today, the room must be free for
      it and hold the guests.  The booking is pending and is charged the
      nightly rate for each whole elapsed day.  `reference` is the random
      reference the router's generator draws. */
  function CreateBooking(db: Db, caller: User, req: BookingRequest, now: Instant, reference: string): (r: Result<(Db, Booking)>)
    requires BookingCodes.IsReference(reference)
    ensures RoomIndex(db.rooms, req.roomId).None? ==> r == Err(NotFound(RoomRecord))
    ensures RoomIndex(db.rooms, req.roomId).Some? && req.checkIn >= req.checkOut ==> r == Err(Invalid(DatesOutOfOrder))
    ensures req.checkIn < req.checkOut && DateOf(req.checkIn) < DateOf(now) && RoomIndex(db.rooms, req.roomId).Some?
            ==> r == Err(Invalid(CheckInInPast))
    ensures r.Ok? <==>
      RoomIndex(db.rooms, req.roomId).Some? && req.checkIn < req.checkOut && DateOf(now) <= DateOf(req.checkIn)
      && CheckRoomAvailability(db, req.roomId, req.checkIn, req.checkOut, None) == Ok(true)
      && req.guestCount <= db.rooms[RoomIndex(db.rooms, req.roomId).value].capacity
    ensures r.Ok? ==>
      var (db', b) := r.value;
      var room := db.rooms[RoomIndex(db.rooms, req.roomId).value];
      && db' == db.(bookings := db.bookings + [b])
      && b.userId == caller.id && b.roomId == req.roomId
      && b.checkIn == req.checkIn && b.checkOut == req.checkOut
      && b.status == Pending && b.reference == reference
      && b.guestCount == req.guestCount && b.specialRequests == req.specialRequests && b.updatedAt.None?
      && b.totalNights * SecondsPerDay <= req.checkOut - req.checkIn < (b.totalNights + 1) * SecondsPerDay
      && b.totalPrice == room.pricePerNight * b.totalNights
      && forall i :: 0 <= i < |db.bookings| ==> db.bookings[i].id != b.id
  {
    match RoomIndex(db.rooms, req.roomId)
    case None => Err(NotFound(RoomRecord))
    case Some(k) =>
      var room := db.rooms[k];
      if req.checkIn >= req.checkOut then Err(Invalid(DatesOutOfOrder))
      else if DateOf(req.checkIn) < DateOf(now) then Err(Invalid(CheckInInPast))
      else if CheckRoomAvailability(db, req.roomId, req.checkIn, req.checkOut, None) != Ok(true) then
        Err(Invalid(RoomUnavailable))
      else if req.guestCount > room.capacity then Err(Invalid(OverCapacity))
      else
        var nights := TimedeltaDays(req.checkIn, req.checkOut);
        var b := Booking(Tables.NextKey(db.bookings, BookingKey), caller.id, req.roomId, req.checkIn, req.checkOut,
                         nights, room.pricePerNight * nights, Pending, req.guestCount, req.specialRequests,
                         reference, None);
        Ok((db.(bookings := db.bookings + [b]), b))
  }

  /** A new booking never double-books its room. */
  lemma CreateBookingKeepsSound(db: Db, caller: User, req: BookingRequest, now: Instant, reference: string)
    requires BookingCodes.IsReference(reference)
    requires BookingsSound(db)
    requires CreateBooking(db, caller, req, now, reference).Ok?
    ensures BookingsSound(CreateBooking(db, caller, req, now, reference).value.0)
  {
    var b := CreateBooking(db, caller, req, now, reference).value.1;
    var bs := db.bookings + [b];
    var n := |db.bookings|;
    assert forall i :: 0 <= i < n ==> bs[i] == db.bookings[i];
    assert bs[n] == b;
    forall i, j | 0 <= i < |bs| && 0 <= j < |bs| && i != j && bs[i].roomId == bs[j].roomId
                  && HoldsRoom(bs[i].status) && HoldsRoom(bs[j].status)
      ensures !(bs[i].checkIn < bs[j].checkOut && bs[j].checkIn < bs[i].checkOut)
    {
      if i == n {
        assert !Blocks(db.bookings[j], req.roomId, req.checkIn, req.checkOut, None);
      } else if j == n {
        assert !Blocks(db.bookings[i], req.roomId, req.checkIn, req.checkOut, None);
      }
    }
    forall i, j | 0 <= i < j < |bs|
      ensures BookingKey(bs[i]) != BookingKey(bs[j])
    {
      if j == n {
        assert bs[i].id != b.id;
      } else {
        assert BookingKey(db.bookings[i]) != BookingKey(db.bookings[j]);
      }
    }
  }

  /** Nights are whole elapsed days, so a stay shorter than a day, such as
      an afternoon check-in with a next-morning check-out, is charged
      nothing. */
  lemma ShortStayIsFree()
    ensures exists db: Db, caller: User, req: BookingRequest, now: Instant ::
      CreateBooking(db, caller, req, now, "ABCDEFGH").Ok?
      && CreateBooking(db, caller, req, now, "ABCDEFGH").value.1.totalPrice == 0
      && CalendarNights(req.checkIn, req.checkOut) == 1
  {
    var guest := User(1, "g@x", "g", "h", "G", "G", None, Guest, true);
    var room := Room(1, 1, "101", Single, 2, 500000, None, None, true, None, None, None);
    var db := Db([guest], [], [room], [], []);
    var req := BookingRequest(1, 14 * 3600, SecondsPerDay + 10 * 3600, 1, None);
    assert db.rooms[0].id == 1;
    assert RoomIndex(db.rooms, 1) == Some(0);
    assert CountConflicts(db.bookings, 1, req.checkIn, req.checkOut, None) == 0;
    assert BookingCodes.IsReference("ABCDEFGH");
    assert CreateBooking(db, guest, req, 0, "ABCDEFGH").Ok?;
  }

  // ---------------------------------------------------------------------
  // Confirmation and cancellation.

  /** `confirm_booking`: admin only, only a pending booking, and only while
      its room is still free for its stay apart from the booking itself. */
  function ConfirmBooking(db: Db, caller: User, id: int, now: Instant): (r: Result<(Db, Booking)>)
    ensures !IsAdmin(caller) ==> r == Err(Forbidden)
    ensures IsAdmin(caller) && BookingIndex(db.bookings, id).None? ==> r == Err(NotFound(BookingRecord))
    ensures r.Ok? <==>
      IsAdmin(caller) && BookingIndex(db.bookings, id).Some?
      && db.bookings[BookingIndex(db.bookings, id).value].status == Pending
      && var b := db.bookings[BookingIndex(db.bookings, id).value];
         CheckRoomAvailability(db, b.roomId, b.checkIn, b.checkOut, Some(id)) == Ok(true)
    ensures r.Ok? ==>
      var k := BookingIndex(db.bookings, id).value;
      && db.bookings[k].status == Pending && r.value.1.status == Confirmed
      && r.value.1 == db.bookings[k].(status := Confirmed, updatedAt := Some(now))
      && r.value.0 == db.(bookings := db.bookings[k := r.value.1])
  {
    if !IsAdmin(caller) then Err(Forbidden)
    else match BookingIndex(db.bookings, id)
      case None => Err(NotFound(BookingRecord))
      case Some(k) =>
        var b := db.bookings[k];
        if b.status != Pending then Err(Invalid(BookingNotPending))
        else match CheckRoomAvailability(db, b.roomId, b.checkIn, b.checkOut, Some(id))
          case Err(e) => Err(e)
          case Ok(free) =>
            if !free then Err(Invalid(RoomNoLongerAvailable))
            else
              var b' := b.(status := Confirmed, updatedAt := Some(now));
              Ok((db.(bookings := db.bookings[k := b']), b'))
  }

  /** Replacing one booking by a copy with the same room and stay and a
      status that holds the room exactly when the old one did keeps the
      invariant. */
  lemma SameHoldKeepsSound(db: Db, k: nat, b': Booking)
    requires BookingsSound(db) && k < |db.bookings|
    requires b'.id == db.bookings[k].id && b'.roomId == db.bookings[k].roomId
    requires b'.checkIn == db.bookings[k].checkIn && b'.checkOut == db.bookings[k].checkOut
    requires HoldsRoom(b'.status) ==> HoldsRoom(db.bookings[k].status)
    ensures BookingsSound(db.(bookings := db.bookings[k := b']))
  {
    var bs := db.bookings[k := b'];
    forall i, j | 0 <= i < |bs| && 0 <= j < |bs| && i != j && bs[i].roomId == bs[j].roomId
                  && HoldsRoom(bs[i].status) && HoldsRoom(bs[j].status)
      ensures !(bs[i].checkIn < bs[j].checkOut && bs[j].checkIn < bs[i].checkOut)
    {
      assert HoldsRoom(db.bookings[i].status) && HoldsRoom(db.bookings[j].status);
    }
    forall i, j | 0 <= i < j < |bs|
      ensures BookingKey(bs[i]) != BookingKey(bs[j])
    {
      assert BookingKey(db.bookings[i]) != BookingKey(db.bookings[j]);
    }
  }

  /** Confirming keeps the invariant: a pending booking already holds its room. */
  lemma ConfirmBookingKeepsSound(db: Db, caller: User, id: int, now: Instant)
    requires BookingsSound(db)
    requires ConfirmBooking(db, caller, id, now).Ok?
    ensures BookingsSound(ConfirmBooking(db, caller, id, now).value.0)
  {
    SameHoldKeepsSound(db, BookingIndex(db.bookings, id).value, ConfirmBooking(db, caller, id, now).value.1);
  }

  /** The guards of `cancel_booking` that precede the date test. */
  function CancelGuards(db: Db, caller: User, id: int): (r: Result<nat>)
    ensures r.Ok? ==> BookingIndex(db.bookings, id) == Some(r.value) && r.value < |db.bookings|
    ensures r.Ok? <==>
      BookingIndex(db.bookings, id).Some?
      && AdminOrOwner(caller, db.bookings[BookingIndex(db.bookings, id).value].userId)
      && db.bookings[BookingIndex(db.bookings, id).value].status != Cancelled
  {
    match BookingIndex(db.bookings, id)
    case None => Err(NotFound(BookingRecord))
    case Some(k) =>
      if !AdminOrOwner(caller, db.bookings[k].userId) then Err(Forbidden)
      else if db.bookings[k].status == Cancelled then Err(Invalid(AlreadyCancelled))
      else Ok(k)
  }

  /** `cancel_booking` as written: once the permission and status guards
      pass, the stored check-in datetime is ordered against `date.today()`,
      which Python refuses, so the call never succeeds. */
  function CancelBookingAsWritten(db: Db, caller: User, id: int, now: Instant): (r: Result<(Db, Booking)>)
    ensures r.Err?
    ensures CancelGuards(db, caller, id).Ok? ==> r == Err(Internal(DateTimeVersusDate))
  {
    match CancelGuards(db, caller, id)
    case Err(e) => Err(e)
    case Ok(_) => Err(Internal(DateTimeVersusDate))
  }

  /** `cancel_booking` with the date test it evidently means: the owner or
      an admin may cancel any booking not already cancelled whose check-in
      day is after today. */
  function CancelBooking(db: Db, caller: User, id: int, now: Instant): (r: Result<(Db, Booking)>)
    ensures BookingIndex(db.bookings, id).None? ==> r == Err(NotFound(BookingRecord))
    ensures r.Ok? <==>
      CancelGuards(db, caller, id).Ok?
      && DateOf(now) < DateOf(db.bookings[BookingIndex(db.bookings, id).value].checkIn)
    ensures CancelGuards(db, caller, id).Ok? && !r.Ok? ==> r == Err(Invalid(AlreadyStarted))
    ensures r.Ok? ==>
      var k := BookingIndex(db.bookings, id).value;
      && db.bookings[k].status != Cancelled && r.value.1.status == Cancelled
      && r.value.1 == db.bookings[k].(status := Cancelled, updatedAt := Some(now))
      && r.value.0 == db.(bookings := db.bookings[k := r.value.1])
  {
    match CancelGuards(db, caller, id)
    case Err(e) => Err(e)
    case Ok(k) =>
      var b := db.bookings[k];
      if DateOf(b.checkIn) <= DateOf(now) then Err(Invalid(AlreadyStarted))
      else
        var b' := b.(status := Cancelled, updatedAt := Some(now));
        Ok((db.(bookings := db.bookings[k := b']), b'))
  }

  /** Cancelling keeps the invariant, and a cancelled booking can be neither
      cancelled again nor confirmed. */
  lemma CancelBookingKeepsSound(db: Db, caller: User, id: int, now: Instant, admin: User)
    requires BookingsSound(db)
    requires CancelBooking(db, caller, id, now).Ok?
    ensures BookingsSound(CancelBooking(db, caller, id, now).value.0)
    ensures CancelBooking(CancelBooking(db, caller, id, now).value.0, caller, id, now) == Err(Invalid(AlreadyCancelled))
    ensures ConfirmBooking(CancelBooking(db, caller, id, now).value.0, admin, id, now).Err?
  {
    var k := BookingIndex(db.bookings, id).value;
    var b' := CancelBooking(db, caller, id, now).value.1;
    SameHoldKeepsSound(db, k, b');
    BookingIndexAfterRewrite(db.bookings, k, b');
  }

  /** A lookup finds the same row after that row is rewritten with its key kept. */
  lemma {:induction false} BookingIndexAfterRewrite(bookings: seq<Booking>, k: nat, b': Booking)
    requires k < |bookings| && BookingIndex(bookings, b'.id) == Some(k) && bookings[k].id == b'.id
    ensures BookingIndex(bookings[k := b'], b'.id) == Some(k)
  {
    var id := b'.id;
    if k > 0 {
      assert bookings[k := b'][1..] == bookings[1..][k - 1 := b'];
      assert bookings[0].id != id;
      assert BookingIndex(bookings[1..], id) == Some(k - 1);
      BookingIndexAfterRewrite(bookings[1..], k - 1, b');
    }
  }

  // ---------------------------------------------------------------------
  // Deletion.

  /** `delete_booking`: admin only, and refused while any payment refers to
      the booking. */
  function DeleteBooking(db: Db, caller: User, id: int): (r: Result<Db>)
    ensures !IsAdmin(caller) ==> r == Err(Forbidden)
    ensures IsAdmin(caller) && BookingIndex(db.bookings, id).None? ==> r == Err(NotFound(BookingRecord))
    ensures r.Ok? <==>
      IsAdmin(caller) && BookingIndex(db.bookings, id).Some?
      && forall i :: 0 <= i < |db.payments| ==> db.payments[i].bookingId != id
    ensures r.Err? && IsAdmin(caller) && BookingIndex(db.bookings, id).Some? ==> r == Err(Invalid(BookingHasPayments))
    ensures r.Ok? ==> r.value == db.(bookings := Tables.RemoveAt(db.bookings, BookingIndex(db.bookings, id).value))
  {
    if !IsAdmin(caller) then Err(Forbidden)
    else match BookingIndex(db.bookings, id)
      case None => Err(NotFound(BookingRecord))
      case Some(k) =>
        if Tables.Count(db.payments, (p: Payment) => p.bookingId == id) > 0 then Err(Invalid(BookingHasPayments))
        else Ok(db.(bookings := Tables.RemoveAt(db.bookings, k)))
  }

  /** Deleting a booking keeps the invariant. */
  lemma DeleteBookingKeepsSound(db: Db, caller: User, id: int)
    requires BookingsSound(db)
    requires DeleteBooking(db, caller, id).Ok?
    ensures BookingsSound(DeleteBooking(db, caller, id).value)
  {
    var k := BookingIndex(db.bookings, id).value;
    var bs := Tables.RemoveAt(db.bookings, k);
    forall i | 0 <= i < |bs|
      ensures bs[i] == db.bookings[if i < k then i else i + 1]
    {
    }
    forall i, j | 0 <= i < |bs| && 0 <= j < |bs| && i != j && bs[i].roomId == bs[j].roomId
                  && HoldsRoom(bs[i].status) && HoldsRoom(bs[j].status)
      ensures !(bs[i].checkIn < bs[j].checkOut && bs[j].checkIn < bs[i].checkOut)
    {
      var i0, j0 := if i < k then i else i + 1, if j < k then j else j + 1;
      assert bs[i] == db.bookings[i0] && bs[j] == db.bookings[j0] && i0 != j0;
    }
    forall i, j | 0 <= i < j < |bs|
      ensures BookingKey(bs[i]) != BookingKey(bs[j])
    {
      var i0, j0 := if i < k then i else i + 1, if j < k then j else j + 1;
      assert bs[i] == db.bookings[i0] && bs[j] == db.bookings[j0] && i0 < j0;
    }
  }

  // ---------------------------------------------------------------------
  // Updates.

  /** Fields an update may carry (`BookingUpdate`). */
  datatype BookingPatch = BookingPatch(
    checkIn: Option<Instant>,
    checkOut: Option<Instant>,
    guestCount: Option<int>,
    specialRequests: Option<string>,
    status: Option<BookingStatus>)

  predicate ChangesDates(p: BookingPatch) {
    p.checkIn.Some? || p.checkOut.Some?
  }

  /** The guards of `update_booking` that precede the date checks: the
      booking exists, the caller is its owner or an admin, and a guest may
      not touch a confirmed or cancelled booking. */
  function UpdateGuards(db: Db, caller: User, id: int): (r: Result<nat>)
    ensures r.Ok? ==> BookingIndex(db.bookings, id) == Some(r.value) && r.value < |db.bookings|
    ensures r.Ok? <==>
      BookingIndex(db.bookings, id).Some?
      && var b := db.bookings[BookingIndex(db.bookings, id).value];
         AdminOrOwner(caller, b.userId) && (IsAdmin(caller) || b.status == Pending || b.status == Completed)
  {
    match BookingIndex(db.bookings, id)
    case None => Err(NotFound(BookingRecord))
    case Some(k) =>
      var b := db.bookings[k];
      if !AdminOrOwner(caller, b.userId) then Err(Forbidden)
      else if (b.status == Confirmed || b.status == Cancelled) && !IsAdmin(caller) then Err(Invalid(BookingLocked))
      else Ok(k)
  }

  /** The checks a patch must pass once the guards have: a changed stay ends
      after it starts and does not start before today; when `mustBeFree`,
      no other booking blocks the resulting stay; a changed stay or guest
      count needs the room, and the guests must fit in it. */
  predicate PatchAcceptable(db: Db, b: Booking, id: int, p: BookingPatch, now: Instant, mustBeFree: bool) {
    var newIn, newOut := Pick(p.checkIn, b.checkIn), Pick(p.checkOut, b.checkOut);
    && (ChangesDates(p) ==> newIn < newOut && DateOf(now) <= DateOf(newIn))
    && (mustBeFree ==> forall i :: 0 <= i < |db.bookings| ==> !Blocks(db.bookings[i], b.roomId, newIn, newOut, Some(id)))
    && ((ChangesDates(p) || p.guestCount.Some?) ==> RoomIndex(db.rooms, b.roomId).Some?)
    && (p.guestCount.Some? ==>
          RoomIndex(db.rooms, b.roomId).Some? && p.guestCount.value <= db.rooms[RoomIndex(db.rooms, b.roomId).value].capacity)
  }

  /** `update_booking` with its date test read as a comparison of calendar
      days, and otherwise as written: a date change is revalidated, checked
      for conflicts excluding the booking itself and repriced, but its
      `total_nights` is not recomputed; every provided field is stored,
      including the status. */
  function UpdateBooking(db: Db, caller: User, id: int, p: BookingPatch, now: Instant): (r: Result<(Db, Booking)>)
    ensures r.Ok? ==> UpdateGuards(db, caller, id).Ok?
    ensures r.Ok? <==>
      UpdateGuards(db, caller, id).Ok?
      && PatchAcceptable(db, db.bookings[UpdateGuards(db, caller, id).value], id, p, now, ChangesDates(p))
    ensures r.Ok? ==>
      var k := BookingIndex(db.bookings, id).value;
      var b := db.bookings[k];
      var b' := r.value.1;
      && r.value.0 == db.(bookings := db.bookings[k := b'])
      && b'.id == b.id && b'.userId == b.userId && b'.roomId == b.roomId
      && b'.checkIn == Pick(p.checkIn, b.checkIn) && b'.checkOut == Pick(p.checkOut, b.checkOut)
      && b'.guestCount == Pick(p.guestCount, b.guestCount)
      && ReplacedOptional(p.specialRequests, b.specialRequests, b'.specialRequests)
      && b'.status == Pick(p.status, b.status)
      && b'.reference == b.reference && b'.updatedAt == Some(now)
      && b'.totalNights == b.totalNights
      && (!ChangesDates(p) ==> b'.totalPrice == b.totalPrice)
      && (ChangesDates(p) ==>
            b'.checkIn < b'.checkOut && DateOf(now) <= DateOf(b'.checkIn)
            && (forall i :: 0 <= i < |db.bookings| ==> !Blocks(db.bookings[i], b.roomId, b'.checkIn, b'.checkOut, Some(id)))
            && RoomIndex(db.rooms, b.roomId).Some?
            && b'.totalPrice == db.rooms[RoomIndex(db.rooms, b.roomId).value].pricePerNight * TimedeltaDays(b'.checkIn, b'.checkOut))
      && (p.guestCount.Some? ==>
            RoomIndex(db.rooms, b.roomId).Some?
            && p.guestCount.value <= db.rooms[RoomIndex(db.rooms, b.roomId).value].capacity)
  {
    match UpdateGuards(db, caller, id)
    case Err(e) => Err(e)
    case Ok(k) =>
      var b := db.bookings[k];
      var newIn, newOut := Pick(p.checkIn, b.checkIn), Pick(p.checkOut, b.checkOut);
      var room := RoomIndex(db.rooms, b.roomId);
      if ChangesDates(p) && newIn >= newOut then Err(Invalid(DatesOutOfOrder))
      else if ChangesDates(p) && DateOf(newIn) < DateOf(now) then Err(Invalid(CheckInInPast))
      else if ChangesDates(p) && CountConflicts(db.bookings, b.roomId, newIn, newOut, Some(id)) > 0 then
        Err(Invalid(RoomUnavailable))
      else if (ChangesDates(p) || p.guestCount.Some?) && room.None? then Err(Internal(MissingRoom))
      else if p.guestCount.Some? && p.guestCount.value > db.rooms[room.value].capacity then Err(Invalid(OverCapacity))
      else
        var price := if ChangesDates(p) then db.rooms[room.value].pricePerNight * TimedeltaDays(newIn, newOut)
                     else b.totalPrice;
        var b' := b.(checkIn := newIn, checkOut := newOut,
                     guestCount := Pick(p.guestCount, b.guestCount),
                     specialRequests := PickOptional(p.specialRequests, b.specialRequests),
                     status := Pick(p.status, b.status),
                     totalPrice := price,
                     updatedAt := Some(now));
        Ok((db.(bookings := db.bookings[k := b']), b'))
  }

  /** `update_booking` as written: a date change that passes the order check
      reaches `new_check_in < date.today()`, which orders a datetime against
      a date and raises, so no date change ever succeeds. */
  function UpdateBookingAsWritten(db: Db, caller: User, id: int, p: BookingPatch, now: Instant): (r: Result<(Db, Booking)>)
    ensures ChangesDates(p) ==> !r.Ok?
    ensures !ChangesDates(p) ==> r == UpdateBooking(db, caller, id, p, now)
  {
    match UpdateGuards(db, caller, id)
    case Err(e) => Err(e)
    case Ok(k) =>
      var b := db.bookings[k];
      if ChangesDates(p) && Pick(p.checkIn, b.checkIn) >= Pick(p.checkOut, b.checkOut) then Err(Invalid(DatesOutOfOrder))
      else if ChangesDates(p) then Err(Internal(DateTimeVersusDate))
      else UpdateBooking(db, caller, id, p, now)
  }

  /** A date change reprices the stay but leaves `total_nights` at the old
      stay's count. */
  lemma UpdateLeavesNightsStale()
    ensures exists db: Db, caller: User, p: BookingPatch ::
      UpdateBooking(db, caller, 1, p, 0).Ok?
      && var b' := UpdateBooking(db, caller, 1, p, 0).value.1;
         b'.totalNights != TimedeltaDays(b'.checkIn, b'.checkOut)
  {
    var guest := User(1, "g@x", "g", "h", "G", "G", None, Guest, true);
    var room := Room(1, 1, "101", Single, 2, 100, None, None, true, None, None, None);
    var b := Booking(1, 1, 1, SecondsPerDay, 2 * SecondsPerDay, 1, 100, Pending, 1, None, "ABCDEFGH", None);
    var db := Db([guest], [], [room], [b], []);
    var p := BookingPatch(None, Some(4 * SecondsPerDay), None, None, None);
    assert db.bookings[0].id == 1 && db.rooms[0].id == 1;
    assert BookingIndex(db.bookings, 1) == Some(0);
    assert RoomIndex(db.rooms, 1) == Some(0);
    assert CountConflicts(db.bookings, 1, SecondsPerDay, 4 * SecondsPerDay, Some(1)) == 0;
    assert UpdateBooking(db, guest, 1, p, 0).Ok?;
  }

  /** The status field lets a guest confirm their own pending booking,
      which `confirm_booking` reserves for admins. */
  lemma GuestCanSelfConfirm()
    ensures exists db: Db, caller: User, p: BookingPatch ::
      !IsAdmin(caller) && UpdateBooking(db, caller, 1, p, 0).Ok?
      && db.bookings[BookingIndex(db.bookings, 1).value].status == Pending
      && UpdateBooking(db, caller, 1, p, 0).value.1.status == Confirmed
  {
    var guest := User(1, "g@x", "g", "h", "G", "G", None, Guest, true);
    var b := Booking(1, 1, 1, SecondsPerDay, 2 * SecondsPerDay, 1, 100, Pending, 1, None, "ABCDEFGH", None);
    var db := Db([guest], [], [], [b], []);
    var p := BookingPatch(None, None, None, None, Some(Confirmed));
    assert db.bookings[0].id == 1;
    assert BookingIndex(db.bookings, 1) == Some(0);
    assert UpdateBooking(db, guest, 1, p, 0).Ok?;
  }

  /** Setting a completed booking back to pending is not checked for
      conflicts, so an update can double-book a room. */
  lemma UpdateCanDoubleBook()
    ensures exists db: Db, caller: User, p: BookingPatch ::
      BookingsSound(db) && UpdateBooking(db, caller, 1, p, 0).Ok?
      && !BookingsSound(UpdateBooking(db, caller, 1, p, 0).value.0)
  {
    var guest := User(1, "g@x", "g", "h", "G", "G", None, Guest, true);
    var b1 := Booking(1, 1, 1, SecondsPerDay, 2 * SecondsPerDay, 1, 100, Completed, 1, None, "ABCDEFGH", None);
    var b2 := Booking(2, 2, 1, SecondsPerDay, 2 * SecondsPerDay, 1, 100, Confirmed, 1, None, "ABCDEFGI", None);
    var db := Db([guest], [], [], [b1, b2], []);
    var p := BookingPatch(None, None, None, None, Some(Pending));
    assert db.bookings[0].id == 1;
    assert BookingIndex(db.bookings, 1) == Some(0);
    assert UpdateBooking(db, guest, 1, p, 0).Ok?;
    var bs := UpdateBooking(db, guest, 1, p, 0).value.0.bookings;
    assert bs[0].roomId == bs[1].roomId && HoldsRoom(bs[0].status) && HoldsRoom(bs[1].status);
    assert !NoDoubleBooking(bs);
  }

  /** `update_booking` as evidently intended: calendar-day date test, the
      status reserved for admins, nights recomputed with the price, and any
      change that leaves the booking holding its room checked for conflicts
      with the resulting stay. */
  function UpdateBookingCorrected(db: Db, caller: User, id: int, p: BookingPatch, now: Instant): (r: Result<(Db, Booking)>)
    ensures r.Ok? ==> UpdateGuards(db, caller, id).Ok?
    ensures p.status.Some? && !IsAdmin(caller) ==> !r.Ok?
    ensures r.Ok? <==>
      UpdateGuards(db, caller, id).Ok? && !(p.status.Some? && !IsAdmin(caller))
      && var b := db.bookings[UpdateGuards(db, caller, id).value];
         PatchAcceptable(db, b, id, p, now, HoldsRoom(Pick(p.status, b.status)) && (ChangesDates(p) || p.status.Some?))
    ensures r.Ok? ==>
      var k := BookingIndex(db.bookings, id).value;
      var b := db.bookings[k];
      var b' := r.value.1;
      && r.value.0 == db.(bookings := db.bookings[k := b'])
      && b'.id == b.id && b'.userId == b.userId && b'.roomId == b.roomId
      && b'.checkIn == Pick(p.checkIn, b.checkIn) && b'.checkOut == Pick(p.checkOut, b.checkOut)
      && b'.guestCount == Pick(p.guestCount, b.guestCount)
      && ReplacedOptional(p.specialRequests, b.specialRequests, b'.specialRequests)
      && b'.status == Pick(p.status, b.status)
      && b'.reference == b.reference && b'.updatedAt == Some(now)
      && (!ChangesDates(p) ==> b'.totalNights == b.totalNights && b'.totalPrice == b.totalPrice)
      && (ChangesDates(p) ==>
            b'.checkIn < b'.checkOut && DateOf(now) <= DateOf(b'.checkIn)
            && b'.totalNights == TimedeltaDays(b'.checkIn, b'.checkOut)
            && RoomIndex(db.rooms, b.roomId).Some?
            && b'.totalPrice == db.rooms[RoomIndex(db.rooms, b.roomId).value].pricePerNight * b'.totalNights)
      && (HoldsRoom(b'.status) && (ChangesDates(p) || p.status.Some?) ==>
            forall i :: 0 <= i < |db.bookings| ==> !Blocks(db.bookings[i], b.roomId, b'.checkIn, b'.checkOut, Some(id)))
  {
    match UpdateGuards(db, caller, id)
    case Err(e) => Err(e)
    case Ok(k) =>
      var b := db.bookings[k];
      var newIn, newOut := Pick(p.checkIn, b.checkIn), Pick(p.checkOut, b.checkOut);
      var newStatus := Pick(p.status, b.status);
      var room := RoomIndex(db.rooms, b.roomId);
      if p.status.Some? && !IsAdmin(caller) then Err(Forbidden)
      else if ChangesDates(p) && newIn >= newOut then Err(Invalid(DatesOutOfOrder))
      else if ChangesDates(p) && DateOf(newIn) < DateOf(now) then Err(Invalid(CheckInInPast))
      else if HoldsRoom(newStatus) && (ChangesDates(p) || p.status.Some?)
              && CountConflicts(db.bookings, b.roomId, newIn, newOut, Some(id)) > 0 then
        Err(Invalid(RoomUnavailable))
      else if (ChangesDates(p) || p.guestCount.Some?) && room.None? then Err(Internal(MissingRoom))
      else if p.guestCount.Some? && p.guestCount.value > db.rooms[room.value].capacity then Err(Invalid(OverCapacity))
      else
        var nights := if ChangesDates(p) then TimedeltaDays(newIn, newOut) else b.totalNights;
        var price := if ChangesDates(p) then db.rooms[room.value].pricePerNight * nights else b.totalPrice;
        var b' := b.(checkIn := newIn, checkOut := newOut,
                     guestCount := Pick(p.guestCount, b.guestCount),
                     specialRequests := PickOptional(p.specialRequests, b.specialRequests),
                     status := newStatus,
                     totalNights := nights,
                     totalPrice := price,
                     updatedAt := Some(now));
        Ok((db.(bookings := db.bookings[k := b']), b'))
  }

  /** The corrected update keeps the invariant. */
  lemma UpdateBookingCorrectedKeepsSound(db: Db, caller: User, id: int, p: BookingPatch, now: Instant)
    requires BookingsSound(db)
    requires UpdateBookingCorrected(db, caller, id, p, now).Ok?
    ensures BookingsSound(UpdateBookingCorrected(db, caller, id, p, now).value.0)
  {
    var k := BookingIndex(db.bookings, id).value;
    var b := db.bookings[k];
    var b' := UpdateBookingCorrected(db, caller, id, p, now).value.1;
    if !(HoldsRoom(b'.status) && (ChangesDates(p) || p.status.Some?)) {
      if !HoldsRoom(b'.status) {
        NoLongerHoldingKeepsSound(db, k, b');
      } else {
        SameHoldKeepsSound(db, k, b');
      }
    } else {
      var bs := db.bookings[k := b'];
      assert b'.checkIn < b'.checkOut;
      forall i, j | 0 <= i < |bs| && 0 <= j < |bs| && i != j && bs[i].roomId == bs[j].roomId
                    && HoldsRoom(bs[i].status) && HoldsRoom(bs[j].status)
        ensures !(bs[i].checkIn < bs[j].checkOut && bs[j].checkIn < bs[i].checkOut)
      {
        if i == k {
          assert BookingKey(db.bookings[j]) != BookingKey(db.bookings[k]);
          assert !Blocks(db.bookings[j], b.roomId, b'.checkIn, b'.checkOut, Some(id));
        } else if j == k {
          assert BookingKey(db.bookings[i]) != BookingKey(db.bookings[k]);
          assert !Blocks(db.bookings[i], b.roomId, b'.checkIn, b'.checkOut, Some(id));
        }
      }
      forall i, j | 0 <= i < j < |bs|
        ensures BookingKey(bs[i]) != BookingKey(bs[j])
      {
        assert BookingKey(db.bookings[i]) != BookingKey(db.bookings[j]);
      }
    }
  }

  /** A booking rewritten so that it no longer holds its room, keeping its
      key, leaves the invariant intact whatever its new stay. */
  lemma NoLongerHoldingKeepsSound(db: Db, k: nat, b': Booking)
    requires BookingsSound(db) && k < |db.bookings|
    requires b'.id == db.bookings[k].id && !HoldsRoom(b'.status) && ProperStay(b')
    ensures BookingsSound(db.(bookings := db.bookings[k := b']))
  {
    var bs := db.bookings[k := b'];
    forall i, j | 0 <= i < j < |bs|
      ensures BookingKey(bs[i]) != BookingKey(bs[j])
    {
      assert BookingKey(db.bookings[i]) != BookingKey(db.bookings[j]);
    }
  }
}

=== FILE: bookings_page.dfy ===
/** The "my bookings" page: how a booking's status is shown, when the cancel
    button is offered, the nights it displays, and the cancel action. */
module BookingsPage {
  import opened Outcome
  import opened Calendar
  import opened Model
  import RoomService
  import BookingCodes
  import opened ApiClient

  /** The text the backend sends for a booking status. */
  function StatusName(s: BookingStatus): (r: string)
    ensures |r| > 0
  {
    match s
    case Pending => "pending"
    case Confirmed => "confirmed"
    case Cancelled => "cancelled"
    case Completed => "completed"
  }

  /** Different statuses travel as different texts. */
  lemma StatusNameInjective(a: BookingStatus, b: BookingStatus)
    ensures StatusName(a) == StatusName(b) ==> a == b
  {
  }

  /** `canCancel`: only pending and confirmed bookings offer cancelling. */
  function CanCancel(status: string): (r: bool)
    ensures r <==> status == "pending" || status == "confirmed"
  {
    status == "pending" || status == "confirmed"
  }

  /** The button is offered for exactly the bookings that hold their room;
      a completed booking, whose status the server's guards do not refuse,
      is not offered. */
  lemma CanCancelExactlyWhenHoldingRoom(s: BookingStatus)
    ensures CanCancel(StatusName(s)) <==> RoomService.HoldsRoom(s)
  {
  }

  const PendingLabel: string := "⏳ Chờ xác nhận"
  const PendingColor: string := "bg-yellow-100 text-yellow-800"

  /** `getStatusLabel`: anything unrecognised reads as pending. */
  function StatusLabel(status: string): (r: string)
    ensures status !in {"confirmed", "cancelled", "completed"} ==> r == PendingLabel
  {
    if status == "confirmed" then "✅ Đã xác nhận"
    else if status == "cancelled" then "❌ Đã hủy"
    else if status == "completed" then "✅ Hoàn thành"
    else PendingLabel
  }

  /** `getStatusColor`: anything unrecognised is coloured as pending. */
  function StatusColor(status: string): (r: string)
    ensures status !in {"confirmed", "cancelled", "completed"} ==> r == PendingColor
  {
    if status == "confirmed" then "bg-green-100 text-green-800"
    else if status == "cancelled" then "bg-red-100 text-red-800"
    else if status == "completed" then "bg-blue-100 text-blue-800"
    else PendingColor
  }

  /** Each status gets its own label and its own colour. */
  lemma StatusesLookDifferent(a: BookingStatus, b: BookingStatus)
    requires a != b
    ensures StatusLabel(StatusName(a)) != StatusLabel(StatusName(b))
    ensures StatusColor(StatusName(a)) != StatusColor(StatusName(b))
  {
  }

  /** The nights shown for a booking: `Math.ceil(Δms / one day)`. */
  function DisplayedNights(checkIn: Option<int>, checkOut: Option<int>): (n: Option<int>)
    ensures n.Some? <==> checkIn.Some? && checkOut.Some?
    ensures n.Some? && checkIn.value < checkOut.value ==> n.value >= 1
  {
    var n := ClientNights(checkIn, checkOut);
    assert n.Some? && checkIn.value < checkOut.value ==> n.value >= 1 by {
      if n.Some? && checkIn.value < checkOut.value {
        ClientNightsOfProperStay(checkIn.value, checkOut.value);
      }
    }
    n
  }

  /** For stays from midnight to midnight the page shows the night count the
      server stored. */
  lemma DisplayedNightsMatchServer(checkIn: Instant, checkOut: Instant)
    requires checkIn % SecondsPerDay == 0 && checkOut % SecondsPerDay == 0
    ensures DisplayedNights(Some(checkIn * 1000), Some(checkOut * 1000))
            == Some(BookingCodes.CalculateTotalNights(checkIn, checkOut))
  {
    var k := BookingCodes.CalculateTotalNights(checkIn, checkOut);
    assert checkIn == DateOf(checkIn) * SecondsPerDay && checkOut == DateOf(checkOut) * SecondsPerDay;
    assert checkOut * 1000 - checkIn * 1000 == k * MillisPerDay;
    var q := CeilDiv(checkOut * 1000 - checkIn * 1000, MillisPerDay);
    assert (q - 1) * MillisPerDay < k * MillisPerDay <= q * MillisPerDay;
    assert q - 1 < k <= q;
  }

  // ---------------------------------------------------------------------
  // Cancelling.

  const CancelledMessage: string := "Đã hủy đặt phòng thành công"

  /** The page state the cancel action touches. */
  datatype ListState = ListState(cancellingId: Option<string>, successMessage: string, alertShown: bool)

  /** One run of `handleCancelBooking`: the request it sends, the state
      while the request is in flight, the state afterwards, and whether
      the list is fetched again. */
  datatype CancelRun = CancelRun(requested: Option<string>, during: ListState, after: ListState, refetched: bool)

  /** `handleCancelBooking`, given the user's answer to the confirmation
      dialog and the server's answer to the request. */
  function HandleCancelBooking(st: ListState, id: string, confirmed: bool, reply: Reply<()>): (r: CancelRun)
    ensures r.requested.Some? <==> confirmed
    ensures !confirmed ==> r.during == st && r.after == st && !r.refetched
    ensures confirmed ==> r.requested == Some(id) && r.during.cancellingId == Some(id) && r.after.cancellingId.None?
    ensures confirmed && reply.Answered? ==> r.refetched && r.after.successMessage == CancelledMessage
    ensures confirmed && reply.Rejected? ==> r.after.alertShown && r.after.successMessage == st.successMessage
  {
    if !confirmed then CancelRun(None, st, st, false)
    else
      var during := st.(cancellingId := Some(id));
      match reply
      case Answered(_) => CancelRun(Some(id), during, during.(cancellingId := None, successMessage := CancelledMessage), true)
      case Rejected(_) => CancelRun(Some(id), during, during.(cancellingId := None, alertShown := true), false)
  }
}

=== FILE: calendar.dfy ===
/** Time as the backend and the client see it.

    Backend timestamps (`datetime`) are whole seconds since 0001-01-01T00:00,
    naive, as Python stores them; a calendar date (`date`) is a day number,
    Python's `date.toordinal() - 1`.  Client timestamps (`Date.getTime()`) are
    milliseconds; a JavaScript `Invalid Date` is modelled as `None`. */
module Calendar {
  import opened Outcome

  const SecondsPerDay: int := 86400
  const MillisPerDay: int := 86_400_000

  /** A backend `datetime`, in seconds. */
  type Instant = int

  /** A backend `date`, as a day number. */
  type Day = int

  /** `dt.date()`: the day an instant falls on. */
  function DateOf(t: Instant): (d: Day)
    ensures d * SecondsPerDay <= t < (d + 1) * SecondsPerDay
  {
    t / SecondsPerDay
  }

  /** A date promoted to a timestamp: its midnight. */
  function StartOf(d: Day): (t: Instant)
    ensures DateOf(t) == d
  {
    d * SecondsPerDay
  }

  /** `(later - earlier).days` for two datetimes: Python's `timedelta`
      normalises so that `days` is the floor of the difference in days. */
  function TimedeltaDays(earlier: Instant, later: Instant): (n: int)
    ensures n * SecondsPerDay <= later - earlier < (n + 1) * SecondsPerDay
  {
    (later - earlier) / SecondsPerDay
  }

  /** `(later.date() - earlier.date()).days`: whole calendar days between two
      datetimes, whatever their times of day. */
  function CalendarNights(earlier: Instant, later: Instant): int {
    DateOf(later) - DateOf(earlier)
  }

  /** Elapsed whole days and calendar days differ by at most one, and
      agree whenever both instants are midnights. */
  lemma TimedeltaVersusCalendar(earlier: Instant, later: Instant)
    ensures CalendarNights(earlier, later) - 1 <= TimedeltaDays(earlier, later) <= CalendarNights(earlier, later)
    ensures earlier % SecondsPerDay == 0 && later % SecondsPerDay == 0
            ==> TimedeltaDays(earlier, later) == CalendarNights(earlier, later)
  {
    var a, b := DateOf(earlier), DateOf(later);
    var n := TimedeltaDays(earlier, later);
    assert n * SecondsPerDay <= later - earlier < (n + 1) * SecondsPerDay;
    assert (b - a - 1) * SecondsPerDay < later - earlier < (b - a + 1) * SecondsPerDay;
    if earlier % SecondsPerDay == 0 && later % SecondsPerDay == 0 {
      assert earlier == a * SecondsPerDay && later == b * SecondsPerDay;
    }
  }

  /** `Math.ceil(a / b)` for a positive divisor. */
  function CeilDiv(a: int, b: int): (q: int)
    requires b > 0
    ensures (q - 1) * b < a <= q * b
  {
    var f := (-a) / b;
    assert f * b <= -a < (f + 1) * b;
    -f
  }

  /** Nights the client displays: `Math.ceil((out - in) / one day)` in
      milliseconds, or NaN (`None`) when either date is invalid. */
  function ClientNights(checkIn: Option<int>, checkOut: Option<int>): (n: Option<int>)
    ensures n.Some? <==> checkIn.Some? && checkOut.Some?
    ensures n.Some? ==> (n.value - 1) * MillisPerDay < checkOut.value - checkIn.value <= n.value * MillisPerDay
  {
    if checkIn.Some? && checkOut.Some? then Some(CeilDiv(checkOut.value - checkIn.value, MillisPerDay))
    else None
  }

  /** A stay that ends after it starts lasts at least one displayed night,
      and a stay of whole days shows exactly that many nights. */
  lemma ClientNightsOfProperStay(checkIn: int, checkOut: int)
    requires checkIn < checkOut
    ensures ClientNights(Some(checkIn), Some(checkOut)).value >= 1
    ensures (checkOut - checkIn) % MillisPerDay == 0
            ==> ClientNights(Some(checkIn), Some(checkOut)).value == (checkOut - checkIn) / MillisPerDay
  {
    var n := ClientNights(Some(checkIn), Some(checkOut)).value;
    assert (n - 1) * MillisPerDay < checkOut - checkIn <= n * MillisPerDay;
    if (checkOut - checkIn) % MillisPerDay == 0 {
      var k := (checkOut - checkIn) / MillisPerDay;
      assert checkOut - checkIn == k * MillisPerDay;
      assert (n - 1) * MillisPerDay < k * MillisPerDay <= n * MillisPerDay;
      assert n - 1 < k <= n;
    }
  }

  // ---------------------------------------------------------------------
  // Calendar dates and the ISO text form `YYYY-MM-DD`.

  datatype CivilDate = CivilDate(year: int, month: int, day: int)

  predicate IsLeapYear(y: int) {
    y % 4 == 0 && (y % 100 != 0 || y % 400 == 0)
  }

  function DaysInMonth(y: int, m: int): int
    requires 1 <= m <= 12
  {
    if m == 2 then (if IsLeapYear(y) then 29 else 28)
    else if m == 4 || m == 6 || m == 9 || m == 11 then 30
    else 31
  }

  /** Python's `date` range: years 1 to 9999, real months and days. */
  predicate ValidDate(d: CivilDate) {
    1 <= d.year <= 9999 && 1 <= d.month <= 12 && 1 <= d.day <= DaysInMonth(d.year, d.month)
  }

  predicate IsDigit(c: char) {
    '0' <= c <= '9'
  }

  function DigitValue(c: char): (v: int)
    requires IsDigit(c)
    ensures 0 <= v <= 9
  {
    c as int - '0' as int
  }

  function DigitChar(v: int): (c: char)
    requires 0 <= v <= 9
    ensures IsDigit(c) && DigitValue(c) == v
  {
    ('0' as int + v) as char
  }

  predicate AllDigits(s: string) {
    forall i :: 0 <= i < |s| ==> IsDigit(s[i])
  }

  /** Decimal value of a run of digits. */
  function DigitsValue(s: string): (v: int)
    requires AllDigits(s)
    ensures 0 <= v
  {
    if |s| == 0 then 0 else DigitsValue(s[..|s| - 1]) * 10 + DigitValue(s[|s| - 1])
  }

  /** `n` written with exactly `width` digits, zero-padded. */
  function PadDigits(n: int, width: nat): (s: string)
    requires 0 <= n
    ensures |s| == width && AllDigits(s)
  {
    if width == 0 then [] else PadDigits(n / 10, width - 1) + [DigitChar(n % 10)]
  }

  function Power10(k: nat): (p: int)
    ensures p >= 1
  {
    if k == 0 then 1 else 10 * Power10(k - 1)
  }

  /** Reading back a padded number gives it back when it fits. */
  lemma {:induction false} PadDigitsValue(n: int, width: nat)
    requires 0 <= n < Power10(width)
    ensures DigitsValue(PadDigits(n, width)) == n
  {
    if width > 0 {
      var s := PadDigits(n, width);
      assert s[..|s| - 1] == PadDigits(n / 10, width - 1);
      PadDigitsValue(n / 10, width - 1);
    }
  }

  /** Writing a digit run back with its own width gives the same text. */
  lemma {:induction false} DigitsValuePad(s: string)
    requires AllDigits(s)
    ensures DigitsValue(s) < Power10(|s|)
    ensures PadDigits(DigitsValue(s), |s|) == s
  {
    if |s| > 0 {
      var init := s[..|s| - 1];
      DigitsValuePad(init);
      var v := DigitsValue(s);
      assert v / 10 == DigitsValue(init) && v % 10 == DigitValue(s[|s| - 1]);
      assert DigitChar(DigitValue(s[|s| - 1])) == s[|s| - 1];
    }
  }

  /** `date.isoformat()` */
  function FormatIsoDate(d: CivilDate): (s: string)
    requires ValidDate(d)
    ensures |s| == 10
  {
    PadDigits(d.year, 4) + "-" + PadDigits(d.month, 2) + "-" + PadDigits(d.day, 2)
  }

  /** `date.fromisoformat(s)`, `None` where Python raises `ValueError`. */
  function ParseIsoDate(s: string): (r: Option<CivilDate>)
    ensures r.Some? ==> ValidDate(r.value)
  {
    if |s| == 10 && s[4] == '-' && s[7] == '-'
       && AllDigits(s[..4]) && AllDigits(s[5..7]) && AllDigits(s[8..])
    then
      var d := CivilDate(DigitsValue(s[..4]), DigitsValue(s[5..7]), DigitsValue(s[8..]));
      if ValidDate(d) then Some(d) else None
    else None
  }

  /** Formatting a date and parsing it back is the identity ... */
  lemma IsoDateRoundTrip(d: CivilDate)
    requires ValidDate(d)
    ensures ParseIsoDate(FormatIsoDate(d)) == Some(d)
  {
    var s := FormatIsoDate(d);
    assert s[..4] == PadDigits(d.year, 4);
    assert s[5..7] == PadDigits(d.month, 2);
    assert s[8..] == PadDigits(d.day, 2);
    PadDigitsValue(d.year, 4);
    PadDigitsValue(d.month, 2);
    PadDigitsValue(d.day, 2);
  }

  /** ... and every text the parser accepts is the canonical form of its date. */
  lemma IsoDateCanonical(s: string)
    requires ParseIsoDate(s).Some?
    ensures FormatIsoDate(ParseIsoDate(s).value) == s
  {
    DigitsValuePad(s[..4]);
    DigitsValuePad(s[5..7]);
    DigitsValuePad(s[8..]);
    assert s == s[..4] + "-" + s[5..7] + "-" + s[8..];
  }
}

=== FILE: hotel_service.dfy ===
/** The hotel service: admin-only creation, update and deletion of hotels,
    with (name, city) kept unique, and room counts per hotel. */
module HotelService {
  import opened Outcome
  import opened Calendar
  import opened Model
  import RoomService
  import Tables

  /** Some hotel other than `self` has this name in this city. */
  predicate NameTaken(hotels: seq<Hotel>, name: string, city: string, self: Option<int>) {
    exists i :: 0 <= i < |hotels| && hotels[i].name == name && hotels[i].city == city && self != Some(hotels[i].id)
  }

  /** No two hotels share a name within a city. */
  predicate HotelNamesUnique(hotels: seq<Hotel>) {
    forall i, j :: 0 <= i < j < |hotels| ==> !(hotels[i].name == hotels[j].name && hotels[i].city == hotels[j].city)
  }

  /** Every room belongs to a hotel that exists. */
  predicate RoomsHaveHotels(db: Db) {
    forall i :: 0 <= i < |db.rooms| ==> HotelIndex(db.hotels, db.rooms[i].hotelId).Some?
  }

  /** Fields of a new hotel (`HotelCreate`). */
  datatype NewHotel = NewHotel(
    name: string,
    description: Option<string>,
    address: string,
    city: string,
    country: string,
    phone: Option<string>,
    email: Option<string>,
    website: Option<string>,
    starRating: int,
    amenities: Option<string>)

  /** `create_hotel`: admin only, and no other hotel of that name in that city. */
  function CreateHotel(db: Db, caller: User, data: NewHotel): (r: Result<(Db, Hotel)>)
    ensures !IsAdmin(caller) ==> r == Err(Forbidden)
    ensures r.Ok? <==> IsAdmin(caller) && !NameTaken(db.hotels, data.name, data.city, None)
    ensures r.Err? && IsAdmin(caller) ==> r == Err(Invalid(DuplicateHotel))
    ensures r.Ok? ==>
      var (db', h) := r.value;
      && db' == db.(hotels := db.hotels + [h])
      && h.name == data.name && h.city == data.city && h.address == data.address && h.country == data.country
      && h.description == data.description && h.phone == data.phone && h.email == data.email
      && h.website == data.website && h.starRating == data.starRating && h.amenities == data.amenities
      && h.updatedAt.None?
      && forall i :: 0 <= i < |db.hotels| ==> db.hotels[i].id != h.id
  {
    if !IsAdmin(caller) then Err(Forbidden)
    else if Tables.FirstIndex(db.hotels, (x: Hotel) => x.name == data.name && x.city == data.city).Some? then
      Err(Invalid(DuplicateHotel))
    else
      var h := Hotel(Tables.NextKey(db.hotels, HotelKey), data.name, data.description, data.address, data.city,
                     data.country, data.phone, data.email, data.website, data.starRating, data.amenities, None);
      Ok((db.(hotels := db.hotels + [h]), h))
  }

  /** Creating a hotel keeps (name, city) unique. */
  lemma CreateHotelKeepsNamesUnique(db: Db, caller: User, data: NewHotel)
    requires HotelNamesUnique(db.hotels)
    requires CreateHotel(db, caller, data).Ok?
    ensures HotelNamesUnique(CreateHotel(db, caller, data).value.0.hotels)
  {
    var hotels' := CreateHotel(db, caller, data).value.0.hotels;
    forall i, j | 0 <= i < j < |hotels'|
      ensures !(hotels'[i].name == hotels'[j].name && hotels'[i].city == hotels'[j].city)
    {
      if j == |db.hotels| {
        assert hotels'[i] == db.hotels[i];
      } else {
        assert hotels'[i] == db.hotels[i] && hotels'[j] == db.hotels[j];
      }
    }
  }

  /** Fields a hotel update may carry (`HotelUpdate`); `None` leaves the
      field alone, and any other value, an empty string included, replaces it. */
  datatype HotelPatch = HotelPatch(
    name: Option<string>,
    description: Option<string>,
    address: Option<string>,
    city: Option<string>,
    country: Option<string>,
    phone: Option<string>,
    email: Option<string>,
    website: Option<string>,
    starRating: Option<int>,
    amenities: Option<string>)

  function ApplyHotelPatch(h: Hotel, p: HotelPatch, now: Instant): (r: Hotel)
    ensures r.id == h.id && r.updatedAt == Some(now)
    ensures Replaced(p.name, h.name, r.name) && Replaced(p.city, h.city, r.city)
    ensures Replaced(p.address, h.address, r.address) && Replaced(p.country, h.country, r.country)
    ensures Replaced(p.starRating, h.starRating, r.starRating)
    ensures ReplacedOptional(p.description, h.description, r.description)
    ensures ReplacedOptional(p.phone, h.phone, r.phone) && ReplacedOptional(p.email, h.email, r.email)
    ensures ReplacedOptional(p.website, h.website, r.website)
    ensures ReplacedOptional(p.amenities, h.amenities, r.amenities)
  {
    h.(name := Pick(p.name, h.name),
       description := PickOptional(p.description, h.description),
       address := Pick(p.address, h.address),
       city := Pick(p.city, h.city),
       country := Pick(p.country, h.country),
       phone := PickOptional(p.phone, h.phone),
       email := PickOptional(p.email, h.email),
       website := PickOptional(p.website, h.website),
       starRating := Pick(p.starRating, h.starRating),
       amenities := PickOptional(p.amenities, h.amenities),
       updatedAt := Some(now))
  }

  /** `update_hotel` as written: the (name, city) check runs only when a
      non-empty name differs from the stored one, against the new city if a
      non-empty one is given and the stored city otherwise. */
  function UpdateHotel(db: Db, caller: User, hotelId: int, p: HotelPatch, now: Instant): (r: Result<(Db, Hotel)>)
    ensures !IsAdmin(caller) ==> r == Err(Forbidden)
    ensures IsAdmin(caller) && HotelIndex(db.hotels, hotelId).None? ==> r == Err(NotFound(HotelRecord))
    ensures r.Ok? <==>
      IsAdmin(caller) && HotelIndex(db.hotels, hotelId).Some?
      && var stored := db.hotels[HotelIndex(db.hotels, hotelId).value];
         var cityToCheck := if Truthy(p.city) then p.city.value else stored.city;
         !(Truthy(p.name) && p.name.value != stored.name && NameTaken(db.hotels, p.name.value, cityToCheck, Some(hotelId)))
    ensures IsAdmin(caller) && HotelIndex(db.hotels, hotelId).Some? ==>
      var stored := db.hotels[HotelIndex(db.hotels, hotelId).value];
      var cityToCheck := if Truthy(p.city) then p.city.value else stored.city;
      Truthy(p.name) && p.name.value != stored.name && NameTaken(db.hotels, p.name.value, cityToCheck, Some(hotelId))
      ==> r == Err(Invalid(DuplicateHotel))
    ensures r.Ok? ==>
      var k := HotelIndex(db.hotels, hotelId).value;
      && r.value.1 == ApplyHotelPatch(db.hotels[k], p, now)
      && r.value.0 == db.(hotels := db.hotels[k := r.value.1])
    ensures r.Ok? ==>
      var stored := db.hotels[HotelIndex(db.hotels, hotelId).value];
      var cityToCheck := if Truthy(p.city) then p.city.value else stored.city;
      Truthy(p.name) && p.name.value != stored.name ==> !NameTaken(db.hotels, p.name.value, cityToCheck, Some(hotelId))
  {
    if !IsAdmin(caller) then Err(Forbidden)
    else match HotelIndex(db.hotels, hotelId)
      case None => Err(NotFound(HotelRecord))
      case Some(k) =>
        var h := db.hotels[k];
        var cityToCheck := if Truthy(p.city) then p.city.value else h.city;
        if Truthy(p.name) && p.name.value != h.name
           && Tables.FirstIndex(db.hotels, (x: Hotel) => x.name == p.name.value && x.city == cityToCheck && x.id != hotelId).Some?
        then Err(Invalid(DuplicateHotel))
        else
          var h' := ApplyHotelPatch(h, p, now);
          Ok((db.(hotels := db.hotels[k := h']), h'))
  }

  /** Moving a hotel to a city where a hotel of the same name already is
      passes unchecked, because only a name change triggers the check. */
  lemma UpdateHotelCanDuplicateNames()
    ensures exists db: Db, caller: User, p: HotelPatch ::
      HotelNamesUnique(db.hotels) && UpdateHotel(db, caller, 2, p, 0).Ok?
      && !HotelNamesUnique(UpdateHotel(db, caller, 2, p, 0).value.0.hotels)
  {
    var admin := User(1, "a@x", "a", "h", "A", "A", None, Admin, true);
    var h1 := Hotel(1, "Sen", None, "", "Hue", "VN", None, None, None, 3, None, None);
    var h2 := Hotel(2, "Sen", None, "", "Hanoi", "VN", None, None, None, 3, None, None);
    var db := Db([admin], [h1, h2], [], [], []);
    var p := HotelPatch(None, None, None, Some("Hue"), None, None, None, None, None, None);
    assert db.hotels[0].id == 1 && db.hotels[1].id == 2;
    assert HotelIndex(db.hotels, 2) == Some(1);
    var hotels' := UpdateHotel(db, admin, 2, p, 0).value.0.hotels;
    assert hotels'[0].name == hotels'[1].name && hotels'[0].city == hotels'[1].city;
  }

  /** `update_hotel` with the check the create path implies: the resulting
      (name, city) pair must not belong to another hotel. */
  function UpdateHotelChecked(db: Db, caller: User, hotelId: int, p: HotelPatch, now: Instant): (r: Result<(Db, Hotel)>)
    ensures !IsAdmin(caller) ==> r == Err(Forbidden)
    ensures IsAdmin(caller) && HotelIndex(db.hotels, hotelId).None? ==> r == Err(NotFound(HotelRecord))
    ensures r.Ok? <==>
      IsAdmin(caller) && HotelIndex(db.hotels, hotelId).Some?
      && var h' := ApplyHotelPatch(db.hotels[HotelIndex(db.hotels, hotelId).value], p, now);
         !NameTaken(db.hotels, h'.name, h'.city, Some(hotelId))
    ensures IsAdmin(caller) && HotelIndex(db.hotels, hotelId).Some? ==>
      var h' := ApplyHotelPatch(db.hotels[HotelIndex(db.hotels, hotelId).value], p, now);
      NameTaken(db.hotels, h'.name, h'.city, Some(hotelId)) ==> r == Err(Invalid(DuplicateHotel))
    ensures r.Ok? ==>
      var k := HotelIndex(db.hotels, hotelId).value;
      && r.value.1 == ApplyHotelPatch(db.hotels[k], p, now)
      && r.value.0 == db.(hotels := db.hotels[k := r.value.1])
      && !NameTaken(db.hotels, r.value.1.name, r.value.1.city, Some(hotelId))
  {
    if !IsAdmin(caller) then Err(Forbidden)
    else match HotelIndex(db.hotels, hotelId)
      case None => Err(NotFound(HotelRecord))
      case Some(k) =>
        var h' := ApplyHotelPatch(db.hotels[k], p, now);
        if Tables.FirstIndex(db.hotels, (x: Hotel) => x.name == h'.name && x.city == h'.city && x.id != hotelId).Some?
        then Err(Invalid(DuplicateHotel))
        else Ok((db.(hotels := db.hotels[k := h']), h'))
  }

  /** The checked update keeps (name, city) unique. */
  lemma UpdateHotelCheckedKeepsNamesUnique(db: Db, caller: User, hotelId: int, p: HotelPatch, now: Instant)
    requires HotelNamesUnique(db.hotels) && Tables.UniqueKeys(db.hotels, HotelKey)
    requires UpdateHotelChecked(db, caller, hotelId, p, now).Ok?
    ensures HotelNamesUnique(UpdateHotelChecked(db, caller, hotelId, p, now).value.0.hotels)
  {
    var k := HotelIndex(db.hotels, hotelId).value;
    var h' := UpdateHotelChecked(db, caller, hotelId, p, now).value.1;
    var hotels' := db.hotels[k := h'];
    forall i, j | 0 <= i < j < |hotels'|
      ensures !(hotels'[i].name == hotels'[j].name && hotels'[i].city == hotels'[j].city)
    {
      if i == k {
        assert HotelKey(db.hotels[k]) != HotelKey(db.hotels[j]);
      } else if j == k {
        assert HotelKey(db.hotels[i]) != HotelKey(db.hotels[k]);
      } else {
        assert hotels'[i] == db.hotels[i] && hotels'[j] == db.hotels[j];
      }
    }
  }

  /** `delete_hotel`: admin only, and only a hotel without rooms. */
  function DeleteHotel(db: Db, caller: User, hotelId: int): (r: Result<Db>)
    ensures !IsAdmin(caller) ==> r == Err(Forbidden)
    ensures IsAdmin(caller) && HotelIndex(db.hotels, hotelId).None? ==> r == Err(NotFound(HotelRecord))
    ensures r.Ok? <==>
      IsAdmin(caller) && HotelIndex(db.hotels, hotelId).Some?
      && forall i :: 0 <= i < |db.rooms| ==> db.rooms[i].hotelId != hotelId
    ensures r.Ok? ==> r.value == db.(hotels := Tables.RemoveAt(db.hotels, HotelIndex(db.hotels, hotelId).value))
  {
    if !IsAdmin(caller) then Err(Forbidden)
    else match HotelIndex(db.hotels, hotelId)
      case None => Err(NotFound(HotelRecord))
      case Some(k) =>
        if Tables.Count(db.rooms, (x: Room) => x.hotelId == hotelId) > 0 then Err(Invalid(HotelHasRooms))
        else Ok(db.(hotels := Tables.RemoveAt(db.hotels, k)))
  }

  /** Deleting a hotel never leaves a room without its hotel. */
  lemma DeleteHotelKeepsRoomsHoused(db: Db, caller: User, hotelId: int)
    requires RoomsHaveHotels(db)
    requires DeleteHotel(db, caller, hotelId).Ok?
    ensures RoomsHaveHotels(DeleteHotel(db, caller, hotelId).value)
  {
    var k := HotelIndex(db.hotels, hotelId).value;
    var hotels' := Tables.RemoveAt(db.hotels, k);
    forall i | 0 <= i < |db.rooms|
      ensures HotelIndex(hotels', db.rooms[i].hotelId).Some?
    {
      var id := db.rooms[i].hotelId;
      var j := HotelIndex(db.hotels, id).value;
      assert id != hotelId;
      if j < k {
        assert hotels'[j].id == id;
      } else {
        assert j != k;
        assert hotels'[j - 1].id == id;
      }
    }
  }

  /** What `get_hotel_stats` reports: one hotel's room counts when a
      non-zero hotel id is given, the counts over all hotels otherwise. */
  datatype HotelStats =
    | OneHotel(hotelId: int, hotelName: string, totalRooms: nat, availableRooms: nat, occupiedRooms: int)
    | AllHotels(totalHotels: nat, totalRooms: nat, availableRooms: nat, occupiedRooms: int)
  {
    function Occupied(): int {
      match this
      case OneHotel(_, _, _, _, occupied) => occupied
      case AllHotels(_, _, _, occupied) => occupied
    }
  }

  /** `get_hotel_stats`: the occupied rooms are exactly the rooms in scope
      that are not available. */
  function GetHotelStats(db: Db, hotelId: Option<int>): (r: Result<HotelStats>)
    ensures hotelId.Some? && hotelId.value != 0 && HotelIndex(db.hotels, hotelId.value).None? ==> r == Err(NotFound(HotelRecord))
    ensures r.Err? ==> hotelId.Some? && hotelId.value != 0
    ensures r.Ok? ==> (r.value.AllHotels? <==> !(hotelId.Some? && hotelId.value != 0))
    ensures r.Ok? ==>
      var scope := RoomService.StatsScope(db.rooms, hotelId);
      && r.value.totalRooms == |scope|
      && r.value.occupiedRooms == r.value.totalRooms - r.value.availableRooms
      && r.value.Occupied() == Tables.Count(scope, (x: Room) => !x.isAvailable)
    ensures r.Ok? && r.value.OneHotel? ==> r.value.hotelName == db.hotels[HotelIndex(db.hotels, hotelId.value).value].name
    ensures r.Ok? && r.value.OneHotel? ==> r.value.hotelId == hotelId.value
    ensures r.Ok? && r.value.AllHotels? ==> r.value.totalHotels == |db.hotels| && r.value.totalRooms == |db.rooms|
  {
    var scope := RoomService.StatsScope(db.rooms, hotelId);
    var available := Tables.Count(scope, (x: Room) => x.isAvailable);
    Tables.CountSplit(scope, (x: Room) => x.isAvailable, (x: Room) => !x.isAvailable);
    if hotelId.Some? && hotelId.value != 0 then
      match HotelIndex(db.hotels, hotelId.value)
      case None => Err(NotFound(HotelRecord))
      case Some(k) => Ok(OneHotel(hotelId.value, db.hotels[k].name, |scope|, available, |scope| - available))
    else
      Ok(AllHotels(|db.hotels|, |scope|, available, |scope| - available))
  }

  /** The hotel report and the room report count the same rooms: the
      total, and the occupied rooms as the rooms under maintenance. */
  lemma HotelStatsAgreeWithRoomStats(db: Db, hotelId: Option<int>)
    requires GetHotelStats(db, hotelId).Ok?
    ensures GetHotelStats(db, hotelId).value.totalRooms == RoomService.GetRoomStats(db, hotelId).total
    ensures GetHotelStats(db, hotelId).value.Occupied() == RoomService.GetRoomStats(db, hotelId).maintenance
  {
  }
}

=== FILE: login_page.dfy ===
/** The login page: its field checks, how editing clears an error, the
    request it sends, and where a successful login leads. */
module LoginPage {
  import opened Outcome
  import Text
  import opened ApiClient
  import Session

  datatype LoginForm = LoginForm(username: string, password: string, rememberMe: bool)

  datatype Field = UsernameField | PasswordField | RememberMeField

  /** The input's `name`, which is also the key of its error. */
  function FieldName(f: Field): string {
    match f
    case UsernameField => "username"
    case PasswordField => "password"
    case RememberMeField => "rememberMe"
  }

  /** Errors by key; an empty message shows nothing. */
  type Errors = map<string, string>

  const UsernameRequired: string := "Tên đăng nhập là bắt buộc"
  const PasswordRequired: string := "Mật khẩu là bắt buộc"
  const LoginFailedMessage: string := "Tên đăng nhập hoặc mật khẩu không chính xác"

  datatype Validation = Validation(errors: Errors, ok: bool)

  /** `validateForm`: a blank username and an empty password are errors;
      the password is not trimmed, so spaces alone pass. */
  function ValidateForm(form: LoginForm): (r: Validation)
    ensures "username" in r.errors <==> forall i :: 0 <= i < |form.username| ==> Text.IsJsSpace(form.username[i])
    ensures "password" in r.errors <==> form.password == ""
    ensures r.errors.Keys <= {"username", "password"}
    ensures r.ok <==> r.errors == map[]
  {
    Text.TrimEmpty(form.username, Text.IsJsSpace);
    var e1: Errors := if |Text.Trim(form.username, Text.IsJsSpace)| == 0 then map["username" := UsernameRequired] else map[];
    var e2: Errors := if form.password == "" then e1["password" := PasswordRequired] else e1;
    assert "username" in e2 ==> "username" in e1;
    Validation(e2, e2 == map[])
  }

  /** `handleInputChange`: the field takes the new value, and its own error,
      if one is showing, is blanked; no other error changes. */
  function HandleInputChange(form: LoginForm, errors: Errors, field: Field, text: string, checked: bool): (r: (LoginForm, Errors))
    ensures r.1.Keys == errors.Keys
    ensures forall k :: k in errors && k != FieldName(field) ==> r.1[k] == errors[k]
    ensures FieldName(field) in errors ==> r.1[FieldName(field)] == ""
    ensures field == UsernameField ==> r.0 == form.(username := text)
    ensures field == PasswordField ==> r.0 == form.(password := text)
    ensures field == RememberMeField ==> r.0 == form.(rememberMe := checked)
  {
    var form' := match field
      case UsernameField => form.(username := text)
      case PasswordField => form.(password := text)
      case RememberMeField => form.(rememberMe := checked);
    var name := FieldName(field);
    var errors' := if name in errors && errors[name] != "" then errors[name := ""] else errors;
    (form', errors')
  }

  /** The page a successful login goes to: the admin dashboard for an
      admin, otherwise the page that sent the user here, or the home page. */
  function RedirectAfterLogin(user: Profile, from: Option<string>): (r: string)
    ensures user.role == "admin" ==> r == "/admin"
    ensures user.role != "admin" && from.Some? && from.value != "" ==> r == from.value
    ensures user.role != "admin" && (from.None? || from.value == "") ==> r == "/"
    ensures |r| > 0
  {
    if user.role == "admin" then "/admin"
    else if from.Some? && from.value != "" then from.value
    else "/"
  }

  /** One run of `handleSubmit`: the credentials sent, if any, the session
      and errors afterwards, where the page navigates, and whether the
      response interceptor reloads the browser onto `/login`, discarding
      the page's state. */
  datatype SubmitRun = SubmitRun(
    requested: Option<Session.Credentials>,
    session: Session.Session,
    errors: Errors,
    navigateTo: Option<string>,
    reloadToLogin: bool)

  /** The error shown for a refused login: the server's detail if it sent one. */
  function RefusalMessage(detail: Option<string>): (m: string)
    ensures |m| > 0
  {
    if detail.Some? && |detail.value| > 0 then detail.value else LoginFailedMessage
  }

  /** `handleSubmit`, given the answer to `authAPI.login` and the detail of a
      refusal. */
  function HandleSubmit(s: Session.Session, form: LoginForm, reply: Reply<LoginGrant>,
                        detail: Option<string>, from: Option<string>): (r: SubmitRun)
    ensures r.requested.Some? <==> ValidateForm(form).ok
    ensures !ValidateForm(form).ok ==> r.session == s && r.errors == ValidateForm(form).errors && r.navigateTo.None?
    ensures r.requested.Some? ==> r.requested.value == Session.Credentials(form.username, form.password)
    ensures r.requested.Some? && reply.Answered? ==>
              r.session.user == Some(reply.value.user) && r.session.token == Some(reply.value.token)
              && Session.Mirrored(r.session)
              && r.navigateTo == Some(RedirectAfterLogin(reply.value.user, from)) && r.errors == map[]
    ensures r.requested.Some? && reply.Rejected? ==>
              r.errors == map["general" := RefusalMessage(detail)] && r.navigateTo.None?
              && r.reloadToLogin == (reply.status == Some(401))
  {
    var v := ValidateForm(form);
    if !v.ok then SubmitRun(None, s, v.errors, None, false)
    else
      var creds := Session.Credentials(form.username, form.password);
      var call := AuthLogin(s.storage, reply);
      match reply
      case Answered(g) =>
        var s' := Session.Login(s.(storage := call.storage), g.user, g.token);
        SubmitRun(Some(creds), s', map[], Some(RedirectAfterLogin(g.user, from)), false)
      case Rejected(_) =>
        SubmitRun(Some(creds), s.(storage := call.storage), map["general" := RefusalMessage(detail)], None,
                  call.reloadToLogin)
  }

  /** A wrong password is answered with 401, so the interceptor reloads the
      page and the error message the page has just set is never kept. */
  lemma WrongPasswordMessageIsDiscarded(s: Session.Session, form: LoginForm, detail: Option<string>, from: Option<string>)
    requires ValidateForm(form).ok
    ensures HandleSubmit(s, form, Rejected(Some(401)), detail, from).reloadToLogin
    ensures HandleSubmit(s, form, Rejected(Some(401)), detail, from).session.storage == EmptyStorage
  {
  }

  /** `handleSubmit` over the corrected login call, which leaves a refused
      login to the page. */
  function HandleSubmitCorrected(s: Session.Session, form: LoginForm, reply: Reply<LoginGrant>,
                                 detail: Option<string>, from: Option<string>): (r: SubmitRun)
    ensures r.requested.Some? <==> ValidateForm(form).ok
    ensures !r.reloadToLogin
    ensures reply.Rejected? ==> r.session == s
    ensures r.requested.Some? && reply.Rejected? ==> r.errors == map["general" := RefusalMessage(detail)]
    ensures reply.Answered? ==> r == HandleSubmit(s, form, reply, detail, from)
  {
    var v := ValidateForm(form);
    if !v.ok then SubmitRun(None, s, v.errors, None, false)
    else
      var creds := Session.Credentials(form.username, form.password);
      var call := AuthLoginCorrected(s.storage, reply);
      match reply
      case Answered(g) =>
        var s' := Session.Login(s.(storage := call.storage), g.user, g.token);
        SubmitRun(Some(creds), s', map[], Some(RedirectAfterLogin(g.user, from)), false)
      case Rejected(_) =>
        SubmitRun(Some(creds), s.(storage := call.storage), map["general" := RefusalMessage(detail)], None,
                  call.reloadToLogin)
  }
}

=== FILE: model.dfy ===
/** The booking backend's records and its database.

    Each table is a sequence of rows in insertion order; a row's `id` is its
    primary key.  Prices and amounts are whole VND; timestamps are
    `Calendar.Instant`s.  The payment status enumeration is the one the
    payment service works with, which has a `Cancelled` value. */
module Model {
  import opened Outcome
  import opened Calendar
  import Tables

  type Money = int

  datatype Role = Guest | Admin

  datatype RoomType = Single | Double | Suite | Deluxe

  datatype BookingStatus = Pending | Confirmed | Cancelled | Completed

  datatype PaymentStatus =
    | PaymentPending
    | PaymentCompleted
    | PaymentFailed
    | PaymentCancelled
    | PaymentRefunded

  datatype PaymentMethod = CreditCard | BankTransfer | Cash | PayPal | MoMo

  datatype User = User(
    id: int,
    email: string,
    username: string,
    hashedPassword: string,
    firstName: string,
    lastName: string,
    phone: Option<string>,
    role: Role,
    isActive: bool)

  datatype Hotel = Hotel(
    id: int,
    name: string,
    description: Option<string>,
    address: string,
    city: string,
    country: string,
    phone: Option<string>,
    email: Option<string>,
    website: Option<string>,
    starRating: int,
    amenities: Option<string>,
    updatedAt: Option<Instant>)

  datatype Room = Room(
    id: int,
    hotelId: int,
    number: string,
    roomType: RoomType,
    capacity: int,
    pricePerNight: Money,
    description: Option<string>,
    amenities: Option<string>,
    isAvailable: bool,
    areaSqm: Option<int>,
    bedType: Option<string>,
    updatedAt: Option<Instant>)

  datatype Booking = Booking(
    id: int,
    userId: int,
    roomId: int,
    checkIn: Instant,
    checkOut: Instant,
    totalNights: int,
    totalPrice: Money,
    status: BookingStatus,
    guestCount: int,
    specialRequests: Option<string>,
    reference: string,
    updatedAt: Option<Instant>)

  datatype Payment = Payment(
    id: int,
    bookingId: int,
    amount: Money,
    payMethod: PaymentMethod,
    status: PaymentStatus,
    reference: string,
    notes: Option<string>,
    paidAt: Option<Instant>,
    updatedAt: Option<Instant>)

  datatype Db = Db(
    users: seq<User>,
    hotels: seq<Hotel>,
    rooms: seq<Room>,
    bookings: seq<Booking>,
    payments: seq<Payment>)

  predicate IsAdmin(u: User) {
    u.role == Admin
  }

  /** The permission shape most services share: the caller is an admin or
      owns the record. */
  predicate AdminOrOwner(caller: User, ownerId: int) {
    IsAdmin(caller) || caller.id == ownerId
  }

  // ---------------------------------------------------------------------
  // Lookups by primary key: `query(T).filter(T.id == id).first()`.

  function UserIndex(users: seq<User>, id: int): (r: Option<nat>)
    ensures r.Some? ==> r.value < |users| && users[r.value].id == id
    ensures r.None? <==> forall i :: 0 <= i < |users| ==> users[i].id != id
  {
    Tables.FirstIndex(users, (u: User) => u.id == id)
  }

  function HotelIndex(hotels: seq<Hotel>, id: int): (r: Option<nat>)
    ensures r.Some? ==> r.value < |hotels| && hotels[r.value].id == id
    ensures r.None? <==> forall i :: 0 <= i < |hotels| ==> hotels[i].id != id
  {
    Tables.FirstIndex(hotels, (h: Hotel) => h.id == id)
  }

  function RoomIndex(rooms: seq<Room>, id: int): (r: Option<nat>)
    ensures r.Some? ==> r.value < |rooms| && rooms[r.value].id == id
    ensures r.None? <==> forall i :: 0 <= i < |rooms| ==> rooms[i].id != id
  {
    Tables.FirstIndex(rooms, (r: Room) => r.id == id)
  }

  function BookingIndex(bookings: seq<Booking>, id: int): (r: Option<nat>)
    ensures r.Some? ==> r.value < |bookings| && bookings[r.value].id == id
    ensures r.None? <==> forall i :: 0 <= i < |bookings| ==> bookings[i].id != id
  {
    Tables.FirstIndex(bookings, (b: Booking) => b.id == id)
  }

  function PaymentIndex(payments: seq<Payment>, id: int): (r: Option<nat>)
    ensures r.Some? ==> r.value < |payments| && payments[r.value].id == id
    ensures r.None? <==> forall i :: 0 <= i < |payments| ==> payments[i].id != id
  {
    Tables.FirstIndex(payments, (p: Payment) => p.id == id)
  }

  // ---------------------------------------------------------------------
  // Keys the database hands out.

  function UserKey(u: User): int { u.id }
  function HotelKey(h: Hotel): int { h.id }
  function RoomKey(r: Room): int { r.id }
  function BookingKey(b: Booking): int { b.id }
  function PaymentKey(p: Payment): int { p.id }

  /** Primary keys are unique in every table. */
  predicate KeysUnique(db: Db) {
    Tables.UniqueKeys(db.users, UserKey)
    && Tables.UniqueKeys(db.hotels, HotelKey)
    && Tables.UniqueKeys(db.rooms, RoomKey)
    && Tables.UniqueKeys(db.bookings, BookingKey)
    && Tables.UniqueKeys(db.payments, PaymentKey)
  }

  // ---------------------------------------------------------------------
  // Partial updates: a field given as `None` is left alone.

  /** The patched value of a required field. */
  function Pick<T>(patch: Option<T>, current: T): T {
    if patch.Some? then patch.value else current
  }

  /** A patched field: the patch's value when one is given, the stored
      value otherwise. */
  predicate Replaced<T(==)>(patch: Option<T>, before: T, after: T) {
    (patch.Some? ==> after == patch.value) && (patch.None? ==> after == before)
  }

  /** A patched optional field: the patch when one is given, the stored
      value otherwise. */
  predicate ReplacedOptional<T(==)>(patch: Option<T>, before: Option<T>, after: Option<T>) {
    (patch.Some? ==> after == patch) && (patch.None? ==> after == before)
  }

  /** The patched value of an optional field. */
  function PickOptional<T>(patch: Option<T>, current: Option<T>): Option<T> {
    if patch.Some? then patch else current
  }

  /** Python truthiness of an optional string: present and not empty. */
  predicate Truthy(s: Option<string>) {
    s.Some? && |s.value| > 0
  }
}

=== FILE: outcome.dfy ===
/** Success and failure values shared by every service of the booking backend
    and by the client.  The backend signals failure by raising an HTTP
    exception; here each exception is a `Failure` value whose constructor
    fixes the status code and whose argument says which guard fired. */
module Outcome {

  datatype Option<+T> = None | Some(value: T)

  /** The record kinds a 404 can be about. */
  datatype Entity = UserRecord | HotelRecord | RoomRecord | BookingRecord | PaymentRecord

  /** Why a request was refused with 400 Bad Request. */
  datatype Reason =
    | DatesOutOfOrder          // check-in is not before check-out
    | CheckInInPast            // check-in day is before today
    | RoomUnavailable          // a create or an update finds a conflicting stay
    | RoomNoLongerAvailable    // a confirmation finds a conflicting stay
    | OverCapacity             // more guests than the room holds
    | BookingLocked            // a guest edits a confirmed or cancelled booking
    | AlreadyCancelled
    | AlreadyStarted           // cancelling on or after the check-in day
    | BookingNotPending        // confirming anything but a pending booking
    | BookingHasPayments
    | DuplicateRoomNumber
    | RoomHasActiveBookings
    | BookingNotConfirmed      // paying for a booking that is not confirmed
    | NonPositiveAmount
    | ExceedsBookingTotal
    | PaymentLocked            // editing a completed or failed payment
    | PaymentNotPending
    | PaymentAlreadyCompleted  // deleting a completed payment
    | DuplicateHotel
    | HotelHasRooms
    | EmailTaken
    | UsernameTaken
    | AdminNotDeletable
    | WrongOldPassword

  /** Failures that the source does not raise on purpose: an exception from
      the language or the database surfaces as a 500. */
  datatype Crash =
    | DateTimeVersusDate       // Python refuses to order a datetime against a date
    | MissingRoom              // a booking whose room row is gone
    | MissingBooking           // a payment whose booking row is gone
    | NotANumber               // int() of a malformed query string
    | DanglingForeignKey       // a row would point at a missing parent row
    | StillReferenced          // a deleted row is still referenced by child rows
    | UniqueViolation          // a row would repeat a value of a unique column
    | DriveUploadFailed        // the file store raised while saving an upload
    | ResponseShape            // the returned body does not fit the route's declared response model

  datatype Failure =
    | Unauthorized
    | Forbidden
    | NotFound(entity: Entity)
    | Invalid(reason: Reason)
    | Unprocessable
    | Internal(crash: Crash)
  {
    /** The HTTP status code the client sees. */
    function Status(): int {
      match this
      case Unauthorized => 401
      case Forbidden => 403
      case NotFound(_) => 404
      case Invalid(_) => 400
      case Unprocessable => 422
      case Internal(_) => 500
    }
  }

  datatype Result<+T> = Ok(value: T) | Err(failure: Failure) {
    predicate IsFailure() {
      Err?
    }

    function PropagateFailure<U>(): Result<U>
      requires Err?
    {
      Err(failure)
    }

    function Extract(): T
      requires Ok?
    {
      value
    }
  }
}

=== FILE: payment_service.dfy ===
/** The payment service: payments against a confirmed booking, checked
    against the booking's total, moved from PENDING to COMPLETED, FAILED or
    CANCELLED, and summed into a balance report.

    The service works with a payment record of its own (a `status`, a
    reference, a `paid_at`) and a status enumeration with a CANCELLED value;
    the ORM table it would be stored in is not reconciled with it. */
module PaymentService {
  import opened Outcome
  import opened Calendar
  import opened Model
  import Tables
  import Text

  // ---------------------------------------------------------------------
  // References and totals.

  const HexDigits: string := "0123456789ABCDEF"

  /** `f"PAY-{uuid.uuid4().hex[:8].upper()}"`: "PAY-" and eight upper-case
      hexadecimal digits. */
  predicate IsPaymentReference(s: string) {
    |s| == 12 && s[..4] == "PAY-" && forall i :: 4 <= i < |s| ==> s[i] in HexDigits
  }

  /** The payments of one booking that are in one status. */
  function InStatus(bookingId: int, st: PaymentStatus): Payment -> bool {
    (p: Payment) => p.bookingId == bookingId && p.status == st
  }

  /** The booking's completed payments other than `paymentId`. */
  function OtherCompleted(bookingId: int, paymentId: int): Payment -> bool {
    (p: Payment) => p.bookingId == bookingId && p.status == PaymentCompleted && p.id != paymentId
  }

  function AmountOf(p: Payment): Money {
    p.amount
  }

  /** The payments of one booking, whatever their status. */
  function OfBooking(bookingId: int): Payment -> bool {
    (p: Payment) => p.bookingId == bookingId
  }

  /** Sum of the booking's completed payments. */
  function PaidTotal(payments: seq<Payment>, bookingId: int): Money {
    Tables.SumWhere(payments, InStatus(bookingId, PaymentCompleted), AmountOf)
  }

  /** Sum of the booking's pending payments. */
  function PendingTotal(payments: seq<Payment>, bookingId: int): Money {
    Tables.SumWhere(payments, InStatus(bookingId, PaymentPending), AmountOf)
  }

  /** Sum of the booking's completed payments, leaving one out. */
  function PaidByOthers(payments: seq<Payment>, bookingId: int, paymentId: int): Money {
    Tables.SumWhere(payments, OtherCompleted(bookingId, paymentId), AmountOf)
  }

  /** No booking has been paid more than its total. */
  predicate PaidWithinTotal(db: Db) {
    forall i :: 0 <= i < |db.bookings| ==> PaidTotal(db.payments, db.bookings[i].id) <= db.bookings[i].totalPrice
  }

  // ---------------------------------------------------------------------
  // The lifecycle.

  /** The steps a payment's status may take: out of PENDING, and only once. */
  predicate PaymentStep(from: PaymentStatus, to: PaymentStatus) {
    from == PaymentPending && (to == PaymentCompleted || to == PaymentFailed || to == PaymentCancelled)
  }

  datatype PaymentRequest = PaymentRequest(
    bookingId: int,
    amount: Money,
    payMethod: PaymentMethod,
    notes: Option<string>)

  /** `create_payment`, with the generated reference as a parameter. */
  function CreatePayment(db: Db, caller: User, req: PaymentRequest, reference: string): (r: Result<(Db, Payment)>)
    requires IsPaymentReference(reference)
    ensures BookingIndex(db.bookings, req.bookingId).None? ==> r == Err(NotFound(BookingRecord))
    ensures r.Ok? ==>
      var b := db.bookings[BookingIndex(db.bookings, req.bookingId).value];
      var p := r.value.1;
      && AdminOrOwner(caller, b.userId)
      && b.status == Confirmed
      && p.status == PaymentPending && p.bookingId == req.bookingId && p.amount == req.amount
      && 0 < p.amount && PaidTotal(db.payments, req.bookingId) + p.amount <= b.totalPrice
      && IsPaymentReference(p.reference) && p.paidAt.None?
      && (forall i :: 0 <= i < |db.payments| ==> db.payments[i].id != p.id)
      && r.value.0 == db.(payments := db.payments + [p])
    ensures r.Ok? <==>
      BookingIndex(db.bookings, req.bookingId).Some?
      && var b := db.bookings[BookingIndex(db.bookings, req.bookingId).value];
         AdminOrOwner(caller, b.userId) && b.status == Confirmed
         && 0 < req.amount && PaidTotal(db.payments, req.bookingId) + req.amount <= b.totalPrice
    ensures BookingIndex(db.bookings, req.bookingId).Some?
            && !AdminOrOwner(caller, db.bookings[BookingIndex(db.bookings, req.bookingId).value].userId)
            ==> r == Err(Forbidden)
    ensures BookingIndex(db.bookings, req.bookingId).Some? && AdminOrOwner(caller, db.bookings[BookingIndex(db.bookings, req.bookingId).value].userId)
            && db.bookings[BookingIndex(db.bookings, req.bookingId).value].status != Confirmed
            ==> r == Err(Invalid(BookingNotConfirmed))
    ensures BookingIndex(db.bookings, req.bookingId).Some? ==>
      var b := db.bookings[BookingIndex(db.bookings, req.bookingId).value];
      && (AdminOrOwner(caller, b.userId) && b.status == Confirmed && req.amount <= 0 ==> r == Err(Invalid(NonPositiveAmount)))
      && ((AdminOrOwner(caller, b.userId) && b.status == Confirmed && 0 < req.amount
           && PaidTotal(db.payments, req.bookingId) + req.amount > b.totalPrice) ==> r == Err(Invalid(ExceedsBookingTotal)))
  {
    match BookingIndex(db.bookings, req.bookingId)
    case None => Err(NotFound(BookingRecord))
    case Some(bi) =>
      var b := db.bookings[bi];
      if !AdminOrOwner(caller, b.userId) then Err(Forbidden)
      else if b.status != Confirmed then Err(Invalid(BookingNotConfirmed))
      else if req.amount <= 0 then Err(Invalid(NonPositiveAmount))
      else if PaidTotal(db.payments, req.bookingId) + req.amount > b.totalPrice then Err(Invalid(ExceedsBookingTotal))
      else
        var p := Payment(Tables.NextKey(db.payments, PaymentKey), req.bookingId, req.amount, req.payMethod,
                         PaymentPending, reference, req.notes, None, None);
        Ok((db.(payments := db.payments + [p]), p))
  }

  /** The fields an update can change.  The update request's status,
      transaction id, payment date and currency are not attributes of the
      service's payment record, so they are never applied. */
  datatype PaymentPatch = PaymentPatch(
    amount: Option<Money>,
    payMethod: Option<PaymentMethod>,
    notes: Option<string>)

  /** `update_payment`.  An admin's permission check does not look at the
      booking; anyone else's does, and so does an amount check. */
  function UpdatePayment(db: Db, caller: User, paymentId: int, patch: PaymentPatch, now: Instant): (r: Result<(Db, Payment)>)
    ensures PaymentIndex(db.payments, paymentId).None? ==> r == Err(NotFound(PaymentRecord))
    ensures r.Ok? <==>
      PaymentIndex(db.payments, paymentId).Some?
      && var p := db.payments[PaymentIndex(db.payments, paymentId).value];
         var owner := BookingIndex(db.bookings, p.bookingId);
         && (IsAdmin(caller) || (owner.Some? && caller.id == db.bookings[owner.value].userId))
         && p.status != PaymentCompleted && p.status != PaymentFailed
         && (patch.amount.Some? ==>
               0 < patch.amount.value && owner.Some?
               && PaidByOthers(db.payments, p.bookingId, paymentId) + patch.amount.value <= db.bookings[owner.value].totalPrice)
    ensures PaymentIndex(db.payments, paymentId).Some? && !IsAdmin(caller)
            && (var owner := BookingIndex(db.bookings, db.payments[PaymentIndex(db.payments, paymentId).value].bookingId);
                owner.Some? && caller.id != db.bookings[owner.value].userId)
            ==> r == Err(Forbidden)
    ensures r.Ok? ==>
      var k := PaymentIndex(db.payments, paymentId).value;
      var p := db.payments[k];
      var q := r.value.1;
      && p.status != PaymentCompleted && p.status != PaymentFailed
      && q == p.(amount := q.amount, payMethod := q.payMethod, notes := q.notes, updatedAt := Some(now))
      && (patch.amount.Some? ==>
            && 0 < q.amount == patch.amount.value
            && BookingIndex(db.bookings, p.bookingId).Some?
            && PaidByOthers(db.payments, p.bookingId, paymentId) + q.amount
               <= db.bookings[BookingIndex(db.bookings, p.bookingId).value].totalPrice)
      && (patch.amount.None? ==> q.amount == p.amount)
      && Replaced(patch.payMethod, p.payMethod, q.payMethod)
      && ReplacedOptional(patch.notes, p.notes, q.notes)
      && r.value.0 == db.(payments := db.payments[k := q])
  {
    match PaymentIndex(db.payments, paymentId)
    case None => Err(NotFound(PaymentRecord))
    case Some(k) =>
      var p := db.payments[k];
      var owner := BookingIndex(db.bookings, p.bookingId);
      if !IsAdmin(caller) && owner.None? then Err(Internal(MissingBooking))
      else if !IsAdmin(caller) && caller.id != db.bookings[owner.value].userId then Err(Forbidden)
      else if p.status == PaymentCompleted || p.status == PaymentFailed then Err(Invalid(PaymentLocked))
      else if patch.amount.Some? && patch.amount.value <= 0 then Err(Invalid(NonPositiveAmount))
      else if patch.amount.Some? && owner.None? then Err(Internal(MissingBooking))
      else if patch.amount.Some? && PaidByOthers(db.payments, p.bookingId, paymentId) + patch.amount.value
                                    > db.bookings[owner.value].totalPrice then
        Err(Invalid(ExceedsBookingTotal))
      else
        var q := p.(amount := Pick(patch.amount, p.amount),
                    payMethod := Pick(patch.payMethod, p.payMethod),
                    notes := PickOptional(patch.notes, p.notes),
                    updatedAt := Some(now));
        Ok((db.(payments := db.payments[k := q]), q))
  }

  /** `process_payment`: an admin marks a pending payment completed.  The
      booking total is not consulted. */
  function ProcessPayment(db: Db, caller: User, paymentId: int, now: Instant): (r: Result<(Db, Payment)>)
    ensures PaymentIndex(db.payments, paymentId).None? ==> r == Err(NotFound(PaymentRecord))
    ensures PaymentIndex(db.payments, paymentId).Some? && !IsAdmin(caller) ==> r == Err(Forbidden)
    ensures r.Ok? <==> PaymentIndex(db.payments, paymentId).Some? && IsAdmin(caller)
                       && db.payments[PaymentIndex(db.payments, paymentId).value].status == PaymentPending
    ensures PaymentIndex(db.payments, paymentId).Some? && IsAdmin(caller)
            && db.payments[PaymentIndex(db.payments, paymentId).value].status != PaymentPending
            ==> r == Err(Invalid(PaymentNotPending))
    ensures r.Ok? ==>
      var k := PaymentIndex(db.payments, paymentId).value;
      var p := db.payments[k];
      && PaymentStep(p.status, r.value.1.status)
      && r.value.1 == p.(status := PaymentCompleted, paidAt := Some(now), updatedAt := Some(now))
      && r.value.0 == db.(payments := db.payments[k := r.value.1])
  {
    match PaymentIndex(db.payments, paymentId)
    case None => Err(NotFound(PaymentRecord))
    case Some(k) =>
      var p := db.payments[k];
      if !IsAdmin(caller) then Err(Forbidden)
      else if p.status != PaymentPending then Err(Invalid(PaymentNotPending))
      else
        var q := p.(status := PaymentCompleted, paidAt := Some(now), updatedAt := Some(now));
        Ok((db.(payments := db.payments[k := q]), q))
  }

  /** The line `fail_payment` appends to the notes, before the reason. */
  const FailureLabel: string := "\nLý do thất bại: "

  /** `f"{notes or ''}\nLý do thất bại: {reason}".strip()` */
  function FailureNotes(notes: Option<string>, reason: string): string {
    Text.Trim((if notes.Some? then notes.value else "") + FailureLabel + reason, Text.IsPySpace)
  }

  /** `fail_payment`: an admin marks a pending payment failed and records why. */
  function FailPayment(db: Db, caller: User, paymentId: int, reason: string, now: Instant): (r: Result<(Db, Payment)>)
    ensures PaymentIndex(db.payments, paymentId).None? ==> r == Err(NotFound(PaymentRecord))
    ensures PaymentIndex(db.payments, paymentId).Some? && !IsAdmin(caller) ==> r == Err(Forbidden)
    ensures r.Ok? <==> PaymentIndex(db.payments, paymentId).Some? && IsAdmin(caller)
                       && db.payments[PaymentIndex(db.payments, paymentId).value].status == PaymentPending
    ensures PaymentIndex(db.payments, paymentId).Some? && IsAdmin(caller)
            && db.payments[PaymentIndex(db.payments, paymentId).value].status != PaymentPending
            ==> r == Err(Invalid(PaymentNotPending))
    ensures r.Ok? ==>
      var k := PaymentIndex(db.payments, paymentId).value;
      var p := db.payments[k];
      && PaymentStep(p.status, r.value.1.status)
      && r.value.1 == p.(status := PaymentFailed, notes := Some(FailureNotes(p.notes, reason)), updatedAt := Some(now))
      && r.value.0 == db.(payments := db.payments[k := r.value.1])
  {
    match PaymentIndex(db.payments, paymentId)
    case None => Err(NotFound(PaymentRecord))
    case Some(k) =>
      var p := db.payments[k];
      if !IsAdmin(caller) then Err(Forbidden)
      else if p.status != PaymentPending then Err(Invalid(PaymentNotPending))
      else
        var q := p.(status := PaymentFailed, notes := Some(FailureNotes(p.notes, reason)), updatedAt := Some(now));
        Ok((db.(payments := db.payments[k := q]), q))
  }

  /** `cancel_payment`: the booking's owner or an admin cancels a pending
      payment. */
  function CancelPayment(db: Db, caller: User, paymentId: int, now: Instant): (r: Result<(Db, Payment)>)
    ensures PaymentIndex(db.payments, paymentId).None? ==> r == Err(NotFound(PaymentRecord))
    ensures r.Ok? <==>
      PaymentIndex(db.payments, paymentId).Some?
      && var p := db.payments[PaymentIndex(db.payments, paymentId).value];
         var owner := BookingIndex(db.bookings, p.bookingId);
         && (IsAdmin(caller) || (owner.Some? && caller.id == db.bookings[owner.value].userId))
         && p.status == PaymentPending
    ensures PaymentIndex(db.payments, paymentId).Some? && !IsAdmin(caller)
            && (var owner := BookingIndex(db.bookings, db.payments[PaymentIndex(db.payments, paymentId).value].bookingId);
                owner.Some? && caller.id != db.bookings[owner.value].userId)
            ==> r == Err(Forbidden)
    ensures r.Ok? ==>
      var k := PaymentIndex(db.payments, paymentId).value;
      var p := db.payments[k];
      && (IsAdmin(caller) || exists j :: 0 <= j < |db.bookings| && db.bookings[j].id == p.bookingId && db.bookings[j].userId == caller.id)
      && PaymentStep(p.status, r.value.1.status)
      && r.value.1 == p.(status := PaymentCancelled, updatedAt := Some(now))
      && r.value.0 == db.(payments := db.payments[k := r.value.1])
  {
    match PaymentIndex(db.payments, paymentId)
    case None => Err(NotFound(PaymentRecord))
    case Some(k) =>
      var p := db.payments[k];
      var owner := BookingIndex(db.bookings, p.bookingId);
      if !IsAdmin(caller) && owner.None? then Err(Internal(MissingBooking))
      else if !IsAdmin(caller) && caller.id != db.bookings[owner.value].userId then Err(Forbidden)
      else if p.status != PaymentPending then Err(Invalid(PaymentNotPending))
      else
        var q := p.(status := PaymentCancelled, updatedAt := Some(now));
        Ok((db.(payments := db.payments[k := q]), q))
  }

  /** `delete_payment`: admin-only, and a completed payment stays. */
  function DeletePayment(db: Db, caller: User, paymentId: int): (r: Result<Db>)
    ensures !IsAdmin(caller) ==> r == Err(Forbidden)
    ensures IsAdmin(caller) && PaymentIndex(db.payments, paymentId).None? ==> r == Err(NotFound(PaymentRecord))
    ensures r.Ok? <==> IsAdmin(caller) && PaymentIndex(db.payments, paymentId).Some?
                       && db.payments[PaymentIndex(db.payments, paymentId).value].status != PaymentCompleted
    ensures r.Ok? ==>
      var k := PaymentIndex(db.payments, paymentId).value;
      && db.payments[k].status != PaymentCompleted
      && r.value == db.(payments := Tables.RemoveAt(db.payments, k))
  {
    if !IsAdmin(caller) then Err(Forbidden)
    else
      match PaymentIndex(db.payments, paymentId)
      case None => Err(NotFound(PaymentRecord))
      case Some(k) =>
        if db.payments[k].status == PaymentCompleted then Err(Invalid(PaymentAlreadyCompleted))
        else Ok(db.(payments := Tables.RemoveAt(db.payments, k)))
  }

  // ---------------------------------------------------------------------
  // The balance report.

  datatype PaymentReport = PaymentReport(
    bookingId: int,
    totalAmount: Money,
    totalPaid: Money,
    totalPending: Money,
    remainingBalance: Money,
    isFullyPaid: bool,
    paymentCount: nat)

  /** `get_booking_payment_status` */
  function BookingPaymentStatus(db: Db, bookingId: int): (r: Result<PaymentReport>)
    ensures r.Err? <==> BookingIndex(db.bookings, bookingId).None?
    ensures r.Err? ==> r == Err(NotFound(BookingRecord))
    ensures r.Ok? ==>
      && r.value.bookingId == bookingId
      && r.value.totalAmount == db.bookings[BookingIndex(db.bookings, bookingId).value].totalPrice
      && r.value.totalPaid == PaidTotal(db.payments, bookingId)
      && r.value.totalPending == PendingTotal(db.payments, bookingId)
      && r.value.paymentCount == Tables.Count(db.payments, OfBooking(bookingId))
      && r.value.totalPaid + r.value.remainingBalance == r.value.totalAmount
      && (r.value.isFullyPaid <==> r.value.totalPaid >= r.value.totalAmount)
      && (r.value.paymentCount == 0 <==> forall i :: 0 <= i < |db.payments| ==> db.payments[i].bookingId != bookingId)
  {
    match BookingIndex(db.bookings, bookingId)
    case None => Err(NotFound(BookingRecord))
    case Some(bi) =>
      var total := db.bookings[bi].totalPrice;
      var paid := PaidTotal(db.payments, bookingId);
      Ok(PaymentReport(bookingId, total, paid, PendingTotal(db.payments, bookingId), total - paid,
                       total - paid <= 0, Tables.Count(db.payments, OfBooking(bookingId))))
  }

  // ---------------------------------------------------------------------
  // What the operations do to the totals.

  /** Rewriting a payment in place keeps it where a lookup finds it. */
  lemma {:induction false} PaymentIndexAfterRewrite(payments: seq<Payment>, k: nat, q: Payment)
    requires k < |payments| && PaymentIndex(payments, q.id) == Some(k)
    ensures PaymentIndex(payments[k := q], q.id) == Some(k)
  {
    if k > 0 {
      assert payments[k := q][1..] == payments[1..][k - 1 := q];
      assert PaymentIndex(payments[1..], q.id) == Some(k - 1);
      PaymentIndexAfterRewrite(payments[1..], k - 1, q);
    }
  }

  /** A new payment is pending: it adds its amount to its booking's pending
      total and leaves every paid total, and so the paid-within-total
      invariant, as it was. */
  lemma CreatePaymentBalance(db: Db, caller: User, req: PaymentRequest, reference: string)
    requires IsPaymentReference(reference)
    requires CreatePayment(db, caller, req, reference).Ok?
    ensures var db' := CreatePayment(db, caller, req, reference).value.0;
      && (forall bid :: PaidTotal(db'.payments, bid) == PaidTotal(db.payments, bid))
      && PendingTotal(db'.payments, req.bookingId) == PendingTotal(db.payments, req.bookingId) + req.amount
      && (PaidWithinTotal(db) ==> PaidWithinTotal(db'))
  {
    var (db', p) := CreatePayment(db, caller, req, reference).value;
    forall bid
      ensures PaidTotal(db'.payments, bid) == PaidTotal(db.payments, bid)
    {
      Tables.SumWhereAppend(db.payments, p, InStatus(bid, PaymentCompleted), AmountOf);
    }
    Tables.SumWhereAppend(db.payments, p, InStatus(req.bookingId, PaymentPending), AmountOf);
  }

  /** An update touches only a payment that is not completed and keeps its
      status, so no paid total moves. */
  lemma UpdatePaymentKeepsPaid(db: Db, caller: User, paymentId: int, patch: PaymentPatch, now: Instant)
    requires UpdatePayment(db, caller, paymentId, patch, now).Ok?
    ensures var db' := UpdatePayment(db, caller, paymentId, patch, now).value.0;
      && (forall bid :: PaidTotal(db'.payments, bid) == PaidTotal(db.payments, bid))
      && (PaidWithinTotal(db) ==> PaidWithinTotal(db'))
  {
    var (db', q) := UpdatePayment(db, caller, paymentId, patch, now).value;
    var k := PaymentIndex(db.payments, paymentId).value;
    forall bid
      ensures PaidTotal(db'.payments, bid) == PaidTotal(db.payments, bid)
    {
      Tables.SumWhereUpdate(db.payments, k, q, InStatus(bid, PaymentCompleted), AmountOf);
    }
  }

  /** Processing moves the payment's amount from its booking's pending
      total to its paid total and leaves other bookings alone. */
  lemma ProcessPaymentMovesAmount(db: Db, caller: User, paymentId: int, now: Instant)
    requires ProcessPayment(db, caller, paymentId, now).Ok?
    ensures var (db', q) := ProcessPayment(db, caller, paymentId, now).value;
      && PaidTotal(db'.payments, q.bookingId) == PaidTotal(db.payments, q.bookingId) + q.amount
      && PendingTotal(db'.payments, q.bookingId) == PendingTotal(db.payments, q.bookingId) - q.amount
      && (forall bid :: bid != q.bookingId ==> PaidTotal(db'.payments, bid) == PaidTotal(db.payments, bid))
  {
    var (db', q) := ProcessPayment(db, caller, paymentId, now).value;
    var k := PaymentIndex(db.payments, paymentId).value;
    forall bid
      ensures PaidTotal(db'.payments, bid) == PaidTotal(db.payments, bid) + (if bid == q.bookingId then q.amount else 0)
    {
      Tables.SumWhereUpdate(db.payments, k, q, InStatus(bid, PaymentCompleted), AmountOf);
    }
    Tables.SumWhereUpdate(db.payments, k, q, InStatus(q.bookingId, PaymentPending), AmountOf);
  }

  /** Processing a payment shows in its booking's balance report: the paid
      total rises, and the pending total and the remaining balance fall, by
      the payment's amount; the amount due stays. */
  lemma ProcessedPaymentShowsInReport(db: Db, caller: User, paymentId: int, now: Instant)
    requires ProcessPayment(db, caller, paymentId, now).Ok?
    requires BookingIndex(db.bookings, ProcessPayment(db, caller, paymentId, now).value.1.bookingId).Some?
    ensures var (db', q) := ProcessPayment(db, caller, paymentId, now).value;
      && BookingPaymentStatus(db', q.bookingId).Ok?
      && var before := BookingPaymentStatus(db, q.bookingId).value;
         var after := BookingPaymentStatus(db', q.bookingId).value;
         && after.totalAmount == before.totalAmount
         && after.totalPaid == before.totalPaid + q.amount
         && after.totalPending == before.totalPending - q.amount
         && after.remainingBalance == before.remainingBalance - q.amount
  {
    ProcessPaymentMovesAmount(db, caller, paymentId, now);
  }

  /** Failing or cancelling a payment takes it out of the pending total and
      pays nothing. */
  lemma SettlingUnpaidKeepsPaid(db: Db, caller: User, paymentId: int, reason: string, now: Instant, failIt: bool)
    requires failIt ==> FailPayment(db, caller, paymentId, reason, now).Ok?
    requires !failIt ==> CancelPayment(db, caller, paymentId, now).Ok?
    ensures var (db', q) := if failIt then FailPayment(db, caller, paymentId, reason, now).value
                            else CancelPayment(db, caller, paymentId, now).value;
      && (forall bid :: PaidTotal(db'.payments, bid) == PaidTotal(db.payments, bid))
      && PendingTotal(db'.payments, q.bookingId) == PendingTotal(db.payments, q.bookingId) - q.amount
      && (PaidWithinTotal(db) ==> PaidWithinTotal(db'))
  {
    var (db', q) := if failIt then FailPayment(db, caller, paymentId, reason, now).value
                    else CancelPayment(db, caller, paymentId, now).value;
    var k := PaymentIndex(db.payments, paymentId).value;
    forall bid
      ensures PaidTotal(db'.payments, bid) == PaidTotal(db.payments, bid)
    {
      Tables.SumWhereUpdate(db.payments, k, q, InStatus(bid, PaymentCompleted), AmountOf);
    }
    Tables.SumWhereUpdate(db.payments, k, q, InStatus(q.bookingId, PaymentPending), AmountOf);
  }

  /** Deleting a payment never lowers what a booking has been paid: only
      payments that are not completed can go. */
  lemma DeletePaymentKeepsPaid(db: Db, caller: User, paymentId: int)
    requires DeletePayment(db, caller, paymentId).Ok?
    ensures var db' := DeletePayment(db, caller, paymentId).value;
      && (forall bid :: PaidTotal(db'.payments, bid) == PaidTotal(db.payments, bid))
      && |db'.payments| == |db.payments| - 1
  {
    var db' := DeletePayment(db, caller, paymentId).value;
    var k := PaymentIndex(db.payments, paymentId).value;
    forall bid
      ensures PaidTotal(db'.payments, bid) == PaidTotal(db.payments, bid)
    {
      Tables.SumWhereRemove(db.payments, k, InStatus(bid, PaymentCompleted), AmountOf);
    }
  }

  /** In `db`, processing, failing and cancelling payment `paymentId` are
      all refused. */
  predicate RefusesSettling(db: Db, caller: User, paymentId: int, reason: string, now: Instant) {
    && ProcessPayment(db, caller, paymentId, now) == (if IsAdmin(caller) then Err(Invalid(PaymentNotPending)) else Err(Forbidden))
    && FailPayment(db, caller, paymentId, reason, now).Err?
    && CancelPayment(db, caller, paymentId, now).Err?
  }

  /** Once a payment has left PENDING, processing, failing and cancelling it
      are all refused, whichever of the three moved it. */
  lemma SettledPaymentIsFinal(db: Db, caller: User, paymentId: int, reason: string, now: Instant,
                              caller': User, reason': string, now': Instant)
    ensures ProcessPayment(db, caller, paymentId, now).Ok? ==>
              RefusesSettling(ProcessPayment(db, caller, paymentId, now).value.0, caller', paymentId, reason', now')
    ensures FailPayment(db, caller, paymentId, reason, now).Ok? ==>
              RefusesSettling(FailPayment(db, caller, paymentId, reason, now).value.0, caller', paymentId, reason', now')
    ensures CancelPayment(db, caller, paymentId, now).Ok? ==>
              RefusesSettling(CancelPayment(db, caller, paymentId, now).value.0, caller', paymentId, reason', now')
  {
    if ProcessPayment(db, caller, paymentId, now).Ok? {
      var (db', q) := ProcessPayment(db, caller, paymentId, now).value;
      var k := PaymentIndex(db.payments, paymentId).value;
      PaymentIndexAfterRewrite(db.payments, k, q);
      assert db'.payments[k].status != PaymentPending;
    }
    if FailPayment(db, caller, paymentId, reason, now).Ok? {
      var (db', q) := FailPayment(db, caller, paymentId, reason, now).value;
      var k := PaymentIndex(db.payments, paymentId).value;
      PaymentIndexAfterRewrite(db.payments, k, q);
      assert db'.payments[k].status != PaymentPending;
    }
    if CancelPayment(db, caller, paymentId, now).Ok? {
      var (db', q) := CancelPayment(db, caller, paymentId, now).value;
      var k := PaymentIndex(db.payments, paymentId).value;
      PaymentIndexAfterRewrite(db.payments, k, q);
      assert db'.payments[k].status != PaymentPending;
    }
  }

  /** Processing does not look at the booking total, so two pending payments
      that each fit can together pay a booking more than it costs: the
      paid-within-total invariant is kept by every payment operation but
      this one. */
  lemma ProcessCanOverpay()
    ensures exists db: Db, admin: User, paymentId: int, now: Instant ::
      && PaidWithinTotal(db)
      && ProcessPayment(db, admin, paymentId, now).Ok?
      && !PaidWithinTotal(ProcessPayment(db, admin, paymentId, now).value.0)
  {
    var admin := User(1, "a@x", "a", "h", "A", "B", None, Admin, true);
    var b := Booking(1, 2, 1, 0, 86400, 1, 100, Confirmed, 1, None, "ABCDEFGH", None);
    var p1 := Payment(1, 1, 60, Cash, PaymentCompleted, "PAY-00000000", None, Some(0), None);
    var p2 := Payment(2, 1, 60, Cash, PaymentPending, "PAY-00000001", None, None, None);
    var db := Db([admin], [], [], [b], [p1, p2]);
    var paid := InStatus(1, PaymentCompleted);
    assert paid(p1) && !paid(p2);
    assert db.payments[1..] == [p2] && db.payments[1..][1..] == [];
    assert Tables.SumWhere([p2], paid, AmountOf) == 0;
    assert PaidTotal(db.payments, 1) == 60;
    assert PaidWithinTotal(db);
    assert db.payments[0].id == 1 && db.payments[1].id == 2;
    assert PaymentIndex(db.payments, 2) == Some(1);
    var q := p2.(status := PaymentCompleted, paidAt := Some(0), updatedAt := Some(0));
    var db' := ProcessPayment(db, admin, 2, 0).value.0;
    assert db'.payments == [p1, q];
    assert db'.payments[1..] == [q] && db'.payments[1..][1..] == [];
    assert paid(q);
    assert Tables.SumWhere([q], paid, AmountOf) == 60;
    assert PaidTotal(db'.payments, 1) == 120;
    assert db'.bookings[0] == b;
    assert !PaidWithinTotal(db');
    assert PaidWithinTotal(db) && ProcessPayment(db, admin, 2, 0).Ok?;
  }

  /** The failure reason lands at the end of the notes, after whatever notes
      there were. */
  lemma FailureNotesAppend(notes: string, reason: string)
    requires |notes| > 0 && !Text.IsPySpace(notes[0])
    requires |reason| > 0 && !Text.IsPySpace(reason[|reason| - 1])
    ensures FailureNotes(Some(notes), reason) == notes + FailureLabel + reason
  {
    var s := notes + FailureLabel + reason;
    assert s[0] == notes[0] && s[|s| - 1] == reason[|reason| - 1];
    Text.TrimClean(s, Text.IsPySpace);
  }

  /** Absent or empty notes leave just the labelled reason, without the
      line break before it. */
  lemma FailureNotesFresh(notes: Option<string>, reason: string)
    requires !Truthy(notes)
    requires |reason| > 0 && !Text.IsPySpace(reason[|reason| - 1])
    ensures FailureNotes(notes, reason) == FailureLabel[1..] + reason
  {
    var lab := FailureLabel;
    var s := lab + reason;
    assert (if notes.Some? then notes.value else "") + lab + reason == s;
    assert s[0] == '\n' && s[1] == 'L' && s[|s| - 1] == reason[|reason| - 1];
    Text.TrimOneLeadingSpace(s, Text.IsPySpace);
    assert s[1..] == lab[1..] + reason;
  }
}

=== FILE: profile_page.dfy ===
/** The profile page's password change: the two checks made before any
    request, the request itself, and what the form looks like afterwards. */
module ProfilePage {
  import opened Outcome

  datatype PasswordForm = PasswordForm(current: string, newPassword: string, confirm: string)

  const EmptyPasswords := PasswordForm("", "", "")

  datatype PasswordField = CurrentField | NewField | ConfirmField

  /** The body the page sends: the confirmation stays on the page. */
  datatype PasswordRequest = PasswordRequest(currentPassword: string, newPassword: string)

  /** The parts of the page state the password change touches.  The profile
      form is a map from input name to value, as `handleInputChange`
      stores it. */
  datatype ProfileState = ProfileState(
    profileForm: map<string, string>,
    passwords: PasswordForm,
    showPasswordChange: bool,
    error: string,
    message: string,
    loading: bool)

  const MinPasswordLength: nat := 8
  const MismatchMessage: string := "Mật khẩu xác nhận không khớp"
  const TooShortMessage: string := "Mật khẩu mới phải có ít nhất 8 ký tự"
  const ChangedMessage: string := "Đổi mật khẩu thành công!"
  const ChangeFailedMessage: string := "Có lỗi xảy ra khi đổi mật khẩu"

  datatype PasswordCheck = Mismatch | TooShort | Accept(request: PasswordRequest)

  /** The checks at the top of `handleChangePassword`, the mismatch first. */
  function CheckPasswordChange(f: PasswordForm): (r: PasswordCheck)
    ensures r.Mismatch? <==> f.newPassword != f.confirm
    ensures r.TooShort? <==> f.newPassword == f.confirm && |f.newPassword| < MinPasswordLength
    ensures r.Accept? ==> r.request == PasswordRequest(f.current, f.newPassword)
                          && |r.request.newPassword| >= MinPasswordLength
                          && f.confirm == f.newPassword
  {
    if f.newPassword != f.confirm then Mismatch
    else if |f.newPassword| < MinPasswordLength then TooShort
    else Accept(PasswordRequest(f.current, f.newPassword))
  }

  /** The server's answer to the change: success, a refusal whose `detail`
      is text or absent, or a refusal whose `detail` is a list of error
      objects, as request validation (status 422) sends it. */
  datatype ChangeReply = Changed | Refused(detail: Option<string>) | RefusedWithErrorList

  /** What the backend answers the page's request with.  The page posts to
      `/users/me/change-password` with a `current_password` field, but the
      only matching route takes an integer user id in that place and reads
      `old_password`, so a signed-in caller's request fails validation. */
  function BackendReply(): (r: ChangeReply)
    ensures !r.Changed? && !r.Refused?
  {
    RefusedWithErrorList
  }

  /** One run of `handleChangePassword`: the request sent, if any, the
      state afterwards, and whether the page can no longer render.  A list
      detail is stored as the error and rendered as a child element, which
      React refuses; the string-valued `error` field cannot hold the list,
      so the model leaves it empty and records the failed render instead. */
  datatype PasswordRun = PasswordRun(requested: Option<PasswordRequest>, state: ProfileState, renderFails: bool)

  function HandleChangePassword(st: ProfileState, reply: ChangeReply): (r: PasswordRun)
    ensures r.requested.Some? <==> CheckPasswordChange(st.passwords).Accept?
    ensures r.requested.Some? ==> r.requested.value == CheckPasswordChange(st.passwords).request
    ensures CheckPasswordChange(st.passwords).Mismatch? ==> r.state == st.(error := MismatchMessage)
    ensures CheckPasswordChange(st.passwords).TooShort? ==> r.state == st.(error := TooShortMessage)
    ensures r.requested.Some? && reply.Changed? ==>
              r.state.passwords == EmptyPasswords && !r.state.showPasswordChange
              && r.state.message == ChangedMessage && r.state.error == ""
    ensures r.requested.Some? && reply.Refused? ==>
              r.state.passwords == st.passwords && r.state.error != ""
    ensures r.requested.Some? && reply.RefusedWithErrorList? ==> r.state.passwords == st.passwords
    ensures r.renderFails <==> r.requested.Some? && reply.RefusedWithErrorList?
    ensures r.requested.Some? ==> !r.state.loading
  {
    match CheckPasswordChange(st.passwords)
    case Mismatch => PasswordRun(None, st.(error := MismatchMessage), false)
    case TooShort => PasswordRun(None, st.(error := TooShortMessage), false)
    case Accept(request) =>
      var sending := st.(loading := true, error := "");
      match reply
      case Changed =>
        PasswordRun(Some(request), sending.(message := ChangedMessage, showPasswordChange := false,
                                            passwords := EmptyPasswords, loading := false), false)
      case Refused(detail) =>
        var shown := if detail.Some? && |detail.value| > 0 then detail.value else ChangeFailedMessage;
        PasswordRun(Some(request), sending.(error := shown, loading := false), false)
      case RefusedWithErrorList =>
        PasswordRun(Some(request), sending.(loading := false), true)
  }

  /** Every change that passes the page's own checks is refused by the
      backend with a list detail, so the page never shows a message for it
      and fails to render instead. */
  lemma AcceptedChangeBreaksPage(st: ProfileState)
    requires CheckPasswordChange(st.passwords).Accept?
    ensures HandleChangePassword(st, BackendReply()).requested.Some?
    ensures HandleChangePassword(st, BackendReply()).renderFails
    ensures HandleChangePassword(st, BackendReply()).state.message == st.message
  {
  }

  /** `handlePasswordChange`: one field takes the typed value and the error
      is cleared. */
  function HandlePasswordInput(st: ProfileState, field: PasswordField, value: string): (r: ProfileState)
    ensures r.error == ""
    ensures r.profileForm == st.profileForm && r.message == st.message
    ensures field == CurrentField ==> r.passwords == st.passwords.(current := value)
    ensures field == NewField ==> r.passwords == st.passwords.(newPassword := value)
    ensures field == ConfirmField ==> r.passwords == st.passwords.(confirm := value)
  {
    var p := st.passwords;
    var p' := match field
      case CurrentField => p.(current := value)
      case NewField => p.(newPassword := value)
      case ConfirmField => p.(confirm := value);
    st.(passwords := p', error := "")
  }

  /** `handleInputChange` on the profile form: the named input takes the
      value, the error is cleared. */
  function HandleProfileInput(st: ProfileState, name: string, value: string): (r: ProfileState)
    ensures r.error == ""
    ensures name in r.profileForm && r.profileForm[name] == value
    ensures forall k :: k != name ==> (k in r.profileForm <==> k in st.profileForm)
    ensures forall k :: k != name && k in st.profileForm ==> r.profileForm[k] == st.profileForm[k]
    ensures r.passwords == st.passwords
  {
    st.(profileForm := st.profileForm[name := value], error := "")
  }

  /** Fixing the fields after a refused check needs no extra step: the
      error is gone as soon as the confirmation is retyped to match. */
  lemma RetypingClearsMismatch(st: ProfileState, reply: ChangeReply)
    requires CheckPasswordChange(st.passwords).Mismatch?
    ensures HandlePasswordInput(HandleChangePassword(st, reply).state, ConfirmField, st.passwords.newPassword).error == ""
    ensures !CheckPasswordChange(HandlePasswordInput(HandleChangePassword(st, reply).state, ConfirmField,
                                                     st.passwords.newPassword).passwords).Mismatch?
  {
  }
}

=== FILE: room_service.dfy ===
/** The room service: availability of a room for a stay, and the admin
    operations on rooms (create, update, delete, maintenance, statistics). */
module RoomService {
  import opened Outcome
  import opened Calendar
  import opened Model
  import Tables

  // ---------------------------------------------------------------------
  // Stays and their overlap.

  /** The overlap test the availability query runs: an existing stay
      [bIn, bOut) conflicts with the requested [in, out) when it covers the
      requested check-in, covers the requested check-out, or lies inside the
      request.  For well-formed stays this is exactly half-open interval
      intersection, so a stay that ends on the requested check-in does not
      conflict. */
  function ThreeClauseOverlap(bIn: Instant, bOut: Instant, checkIn: Instant, checkOut: Instant): (r: bool)
    ensures bIn < bOut && checkIn < checkOut ==> (r <==> bIn < checkOut && checkIn < bOut)
    ensures bIn < bOut && checkIn < checkOut && (bOut == checkIn || checkOut == bIn) ==> !r
  {
    (bIn <= checkIn && bOut > checkIn)
    || (bIn < checkOut && bOut >= checkOut)
    || (bIn >= checkIn && bOut <= checkOut)
  }

  /** For a stored stay that ends before it starts the three clauses and
      interval intersection disagree, which is why the equivalence above
      needs well-formed stays. */
  lemma ReversedStayDisagrees()
    ensures exists bIn, bOut, checkIn, checkOut ::
              checkIn < checkOut && bOut < bIn
              && ThreeClauseOverlap(bIn, bOut, checkIn, checkOut) && !(bIn < checkOut && checkIn < bOut)
  {
    assert ThreeClauseOverlap(12, -1, 0, 10);
  }

  /** A stay ends after it starts. */
  predicate ProperStay(b: Booking) {
    b.checkIn < b.checkOut
  }

  predicate AllStaysProper(bookings: seq<Booking>) {
    forall i :: 0 <= i < |bookings| ==> ProperStay(bookings[i])
  }

  /** Only pending and confirmed bookings hold a room. */
  predicate HoldsRoom(s: BookingStatus) {
    s == Pending || s == Confirmed
  }

  /** The booking `b` stands in the way of a stay [in, out) in room `roomId`,
      leaving aside the booking `exclude` if one is given. */
  function Blocks(b: Booking, roomId: int, checkIn: Instant, checkOut: Instant, exclude: Option<int>): (r: bool)
    ensures r ==> b.roomId == roomId && HoldsRoom(b.status)
    ensures exclude == Some(b.id) ==> !r
    ensures ProperStay(b) && checkIn < checkOut
            ==> (r <==> b.roomId == roomId && HoldsRoom(b.status) && exclude != Some(b.id)
                        && b.checkIn < checkOut && checkIn < b.checkOut)
  {
    b.roomId == roomId
    && HoldsRoom(b.status)
    && (exclude.None? || b.id != exclude.value)
    && ThreeClauseOverlap(b.checkIn, b.checkOut, checkIn, checkOut)
  }

  /** Number of bookings standing in the way of the stay. */
  function CountConflicts(bookings: seq<Booking>, roomId: int, checkIn: Instant, checkOut: Instant, exclude: Option<int>): (n: nat)
    ensures n == 0 <==> forall i :: 0 <= i < |bookings| ==> !Blocks(bookings[i], roomId, checkIn, checkOut, exclude)
  {
    Tables.Count(bookings, (b: Booking) => Blocks(b, roomId, checkIn, checkOut, exclude))
  }

  /** `check_room_availability`: an error for a stay that does not end after
      it starts or for an unknown room; `Ok(false)` for a room under
      maintenance; otherwise `Ok(true)` exactly when no pending or confirmed
      booking of the room, other than the excluded one, intersects the stay. */
  function CheckRoomAvailability(db: Db, roomId: int, checkIn: Instant, checkOut: Instant, exclude: Option<int>): (r: Result<bool>)
    ensures checkIn >= checkOut <==> r == Err(Invalid(DatesOutOfOrder))
    ensures checkIn < checkOut && RoomIndex(db.rooms, roomId).None? <==> r == Err(NotFound(RoomRecord))
    ensures r.Ok? ==> checkIn < checkOut && RoomIndex(db.rooms, roomId).Some?
    ensures r.Ok? && !db.rooms[RoomIndex(db.rooms, roomId).value].isAvailable ==> r == Ok(false)
    ensures AllStaysProper(db.bookings) ==>
      (r == Ok(true) <==>
        checkIn < checkOut && RoomIndex(db.rooms, roomId).Some?
        && db.rooms[RoomIndex(db.rooms, roomId).value].isAvailable
        && forall i :: 0 <= i < |db.bookings| ==>
             !(db.bookings[i].roomId == roomId && HoldsRoom(db.bookings[i].status)
               && exclude != Some(db.bookings[i].id)
               && db.bookings[i].checkIn < checkOut && checkIn < db.bookings[i].checkOut))
  {
    if checkIn >= checkOut then Err(Invalid(DatesOutOfOrder))
    else
      match RoomIndex(db.rooms, roomId)
      case None => Err(NotFound(RoomRecord))
      case Some(k) =>
        if !db.rooms[k].isAvailable then Ok(false)
        else Ok(CountConflicts(db.bookings, roomId, checkIn, checkOut, exclude) == 0)
  }

  /** Cancelling or completing a booking never takes a room away from anyone:
      a stay that was available stays available. */
  lemma ReleasingKeepsAvailable(db: Db, i: nat, s: BookingStatus, roomId: int, checkIn: Instant, checkOut: Instant, exclude: Option<int>)
    requires i < |db.bookings| && !HoldsRoom(s)
    requires CheckRoomAvailability(db, roomId, checkIn, checkOut, exclude) == Ok(true)
    ensures CheckRoomAvailability(db.(bookings := db.bookings[i := db.bookings[i].(status := s)]), roomId, checkIn, checkOut, exclude) == Ok(true)
  {
    var bs := db.bookings[i := db.bookings[i].(status := s)];
    assert forall j :: 0 <= j < |db.bookings| ==> !Blocks(db.bookings[j], roomId, checkIn, checkOut, exclude);
    assert forall j :: 0 <= j < |bs| ==> !Blocks(bs[j], roomId, checkIn, checkOut, exclude) by {
      forall j | 0 <= j < |bs|
        ensures !Blocks(bs[j], roomId, checkIn, checkOut, exclude)
      {
        if j != i {
          assert bs[j] == db.bookings[j];
        }
      }
    }
  }

  /** A stay is available once its only blocker is cancelled. */
  lemma CancellingOnlyBlockerFrees(db: Db, i: nat, roomId: int, checkIn: Instant, checkOut: Instant)
    requires i < |db.bookings|
    requires checkIn < checkOut
    requires RoomIndex(db.rooms, roomId).Some? && db.rooms[RoomIndex(db.rooms, roomId).value].isAvailable
    requires forall j :: 0 <= j < |db.bookings| && j != i ==> !Blocks(db.bookings[j], roomId, checkIn, checkOut, None)
    ensures CheckRoomAvailability(db.(bookings := db.bookings[i := db.bookings[i].(status := Cancelled)]), roomId, checkIn, checkOut, None) == Ok(true)
  {
    var bs := db.bookings[i := db.bookings[i].(status := Cancelled)];
    forall j | 0 <= j < |bs|
      ensures !Blocks(bs[j], roomId, checkIn, checkOut, None)
    {
      if j != i {
        assert bs[j] == db.bookings[j];
      }
    }
  }

  // ---------------------------------------------------------------------
  // Room numbers.

  /** Some room of hotel `hotelId`, other than `self`, has number `number`. */
  predicate NumberTaken(rooms: seq<Room>, hotelId: int, number: string, self: Option<int>) {
    exists i :: 0 <= i < |rooms| && rooms[i].hotelId == hotelId && rooms[i].number == number
                && self != Some(rooms[i].id)
  }

  /** No hotel has two rooms with the same number. */
  predicate RoomNumbersUnique(rooms: seq<Room>) {
    forall i, j :: 0 <= i < j < |rooms| ==> !(rooms[i].hotelId == rooms[j].hotelId && rooms[i].number == rooms[j].number)
  }

  /** Fields of a new room (`RoomCreate`). */
  datatype NewRoom = NewRoom(
    hotelId: int,
    number: string,
    roomType: RoomType,
    capacity: int,
    pricePerNight: Money,
    description: Option<string>,
    amenities: Option<string>,
    isAvailable: bool,
    areaSqm: Option<int>,
    bedType: Option<string>)

  /** `create_room`: admin only, for an existing hotel, with a number not
      used in that hotel.  The new room is available whatever the request
      says, and area and bed type are not copied. */
  function CreateRoom(db: Db, caller: User, data: NewRoom): (r: Result<(Db, Room)>)
    ensures !IsAdmin(caller) ==> r == Err(Forbidden)
    ensures IsAdmin(caller) && HotelIndex(db.hotels, data.hotelId).None? ==> r == Err(NotFound(HotelRecord))
    ensures r.Ok? <==> IsAdmin(caller) && HotelIndex(db.hotels, data.hotelId).Some?
                       && !NumberTaken(db.rooms, data.hotelId, data.number, None)
    ensures r.Err? && IsAdmin(caller) && HotelIndex(db.hotels, data.hotelId).Some? ==> r == Err(Invalid(DuplicateRoomNumber))
    ensures r.Ok? ==>
      var (db', room) := r.value;
      && db' == db.(rooms := db.rooms + [room])
      && room.isAvailable
      && room.hotelId == data.hotelId && room.number == data.number && room.roomType == data.roomType
      && room.capacity == data.capacity && room.pricePerNight == data.pricePerNight
      && room.description == data.description && room.amenities == data.amenities
      && room.areaSqm.None? && room.bedType.None?
      && forall i :: 0 <= i < |db.rooms| ==> db.rooms[i].id != room.id
  {
    if !IsAdmin(caller) then Err(Forbidden)
    else if HotelIndex(db.hotels, data.hotelId).None? then Err(NotFound(HotelRecord))
    else if Tables.FirstIndex(db.rooms, (x: Room) => x.hotelId == data.hotelId && x.number == data.number).Some? then
      Err(Invalid(DuplicateRoomNumber))
    else
      var room := Room(Tables.NextKey(db.rooms, RoomKey), data.hotelId, data.number, data.roomType, data.capacity,
                       data.pricePerNight, data.description, data.amenities, true, None, None, None);
      Ok((db.(rooms := db.rooms + [room]), room))
  }

  /** Creating a room keeps room numbers unique within each hotel. */
  lemma CreateRoomKeepsNumbersUnique(db: Db, caller: User, data: NewRoom)
    requires RoomNumbersUnique(db.rooms)
    requires CreateRoom(db, caller, data).Ok?
    ensures RoomNumbersUnique(CreateRoom(db, caller, data).value.0.rooms)
  {
    var rooms' := CreateRoom(db, caller, data).value.0.rooms;
    forall i, j | 0 <= i < j < |rooms'|
      ensures !(rooms'[i].hotelId == rooms'[j].hotelId && rooms'[i].number == rooms'[j].number)
    {
      if j == |db.rooms| {
        assert rooms'[i] == db.rooms[i];
      } else {
        assert rooms'[i] == db.rooms[i] && rooms'[j] == db.rooms[j];
      }
    }
  }

  /** Fields a room update may carry (`RoomUpdate`); `None` leaves the field alone. */
  datatype RoomPatch = RoomPatch(
    hotelId: Option<int>,
    number: Option<string>,
    roomType: Option<RoomType>,
    capacity: Option<int>,
    pricePerNight: Option<Money>,
    description: Option<string>,
    amenities: Option<string>,
    isAvailable: Option<bool>,
    areaSqm: Option<int>,
    bedType: Option<string>)

  /** Every provided field replaces the stored one. */
  function ApplyRoomPatch(room: Room, p: RoomPatch, now: Instant): (r: Room)
    ensures r.id == room.id && r.updatedAt == Some(now)
    ensures Replaced(p.hotelId, room.hotelId, r.hotelId) && Replaced(p.number, room.number, r.number)
    ensures Replaced(p.roomType, room.roomType, r.roomType) && Replaced(p.capacity, room.capacity, r.capacity)
    ensures Replaced(p.pricePerNight, room.pricePerNight, r.pricePerNight)
    ensures Replaced(p.isAvailable, room.isAvailable, r.isAvailable)
    ensures ReplacedOptional(p.description, room.description, r.description)
    ensures ReplacedOptional(p.amenities, room.amenities, r.amenities)
    ensures ReplacedOptional(p.areaSqm, room.areaSqm, r.areaSqm)
    ensures ReplacedOptional(p.bedType, room.bedType, r.bedType)
  {
    room.(hotelId := Pick(p.hotelId, room.hotelId),
          number := Pick(p.number, room.number),
          roomType := Pick(p.roomType, room.roomType),
          capacity := Pick(p.capacity, room.capacity),
          pricePerNight := Pick(p.pricePerNight, room.pricePerNight),
          description := PickOptional(p.description, room.description),
          amenities := PickOptional(p.amenities, room.amenities),
          isAvailable := Pick(p.isAvailable, room.isAvailable),
          areaSqm := PickOptional(p.areaSqm, room.areaSqm),
          bedType := PickOptional(p.bedType, room.bedType),
          updatedAt := Some(now))
  }

  /** `update_room` as written: the duplicate-number check runs only when a
      non-empty number differs from the stored one, and looks in the room's
      current hotel even when the update moves it to another hotel.  A hotel
      id that names no hotel breaks the foreign key when the change is
      committed. */
  function UpdateRoom(db: Db, caller: User, roomId: int, p: RoomPatch, now: Instant): (r: Result<(Db, Room)>)
    ensures !IsAdmin(caller) ==> r == Err(Forbidden)
    ensures IsAdmin(caller) && RoomIndex(db.rooms, roomId).None? ==> r == Err(NotFound(RoomRecord))
    ensures r.Ok? <==>
      IsAdmin(caller) && RoomIndex(db.rooms, roomId).Some?
      && var stored := db.rooms[RoomIndex(db.rooms, roomId).value];
         && !(Truthy(p.number) && p.number.value != stored.number
              && NumberTaken(db.rooms, stored.hotelId, p.number.value, Some(roomId)))
         && HotelIndex(db.hotels, ApplyRoomPatch(stored, p, now).hotelId).Some?
    ensures IsAdmin(caller) && RoomIndex(db.rooms, roomId).Some? ==>
      var stored := db.rooms[RoomIndex(db.rooms, roomId).value];
      Truthy(p.number) && p.number.value != stored.number && NumberTaken(db.rooms, stored.hotelId, p.number.value, Some(roomId))
      ==> r == Err(Invalid(DuplicateRoomNumber))
    ensures r.Ok? ==>
      var k := RoomIndex(db.rooms, roomId).value;
      && r.value.1 == ApplyRoomPatch(db.rooms[k], p, now)
      && r.value.0 == db.(rooms := db.rooms[k := r.value.1])
      && HotelIndex(db.hotels, r.value.1.hotelId).Some?
    ensures r.Ok? ==>
      var stored := db.rooms[RoomIndex(db.rooms, roomId).value];
      Truthy(p.number) && p.number.value != stored.number ==> !NumberTaken(db.rooms, stored.hotelId, p.number.value, Some(roomId))
  {
    if !IsAdmin(caller) then Err(Forbidden)
    else match RoomIndex(db.rooms, roomId)
      case None => Err(NotFound(RoomRecord))
      case Some(k) =>
        var room := db.rooms[k];
        if Truthy(p.number) && p.number.value != room.number
           && Tables.FirstIndex(db.rooms, (x: Room) => x.hotelId == room.hotelId && x.number == p.number.value && x.id != roomId).Some?
        then Err(Invalid(DuplicateRoomNumber))
        else
          var room' := ApplyRoomPatch(room, p, now);
          if HotelIndex(db.hotels, room'.hotelId).None? then Err(Internal(DanglingForeignKey))
          else Ok((db.(rooms := db.rooms[k := room']), room'))
  }

  /** Moving a room to another hotel is not checked against that hotel's
      numbers, so an update can leave a hotel with two rooms numbered alike. */
  lemma UpdateRoomCanDuplicateNumbers()
    ensures exists db: Db, caller: User, p: RoomPatch ::
      RoomNumbersUnique(db.rooms) && UpdateRoom(db, caller, 2, p, 0).Ok?
      && !RoomNumbersUnique(UpdateRoom(db, caller, 2, p, 0).value.0.rooms)
  {
    var admin := User(1, "a@x", "a", "h", "A", "A", None, Admin, true);
    var h1 := Hotel(1, "H1", None, "", "C", "VN", None, None, None, 3, None, None);
    var h2 := Hotel(2, "H2", None, "", "C", "VN", None, None, None, 3, None, None);
    var r1 := Room(1, 1, "101", Single, 2, 100, None, None, true, None, None, None);
    var r2 := Room(2, 2, "101", Single, 2, 100, None, None, true, None, None, None);
    var db := Db([admin], [h1, h2], [r1, r2], [], []);
    var p := RoomPatch(Some(1), None, None, None, None, None, None, None, None, None);
    assert db.rooms[0].id == 1 && db.rooms[1].id == 2 && db.hotels[0].id == 1;
    assert RoomIndex(db.rooms, 2) == Some(1);
    assert HotelIndex(db.hotels, 1) == Some(0);
    var rooms' := UpdateRoom(db, admin, 2, p, 0).value.0.rooms;
    assert rooms'[0].hotelId == rooms'[1].hotelId && rooms'[0].number == rooms'[1].number;
  }

  /** `update_room` with the check the create path implies: whenever the
      room's hotel or number changes, the resulting (hotel, number) pair must
      be free in the target hotel. */
  function UpdateRoomChecked(db: Db, caller: User, roomId: int, p: RoomPatch, now: Instant): (r: Result<(Db, Room)>)
    ensures !IsAdmin(caller) ==> r == Err(Forbidden)
    ensures IsAdmin(caller) && RoomIndex(db.rooms, roomId).None? ==> r == Err(NotFound(RoomRecord))
    ensures r.Ok? <==>
      IsAdmin(caller) && RoomIndex(db.rooms, roomId).Some?
      && var room' := ApplyRoomPatch(db.rooms[RoomIndex(db.rooms, roomId).value], p, now);
         && !NumberTaken(db.rooms, room'.hotelId, room'.number, Some(roomId))
         && HotelIndex(db.hotels, room'.hotelId).Some?
    ensures IsAdmin(caller) && RoomIndex(db.rooms, roomId).Some? ==>
      var room' := ApplyRoomPatch(db.rooms[RoomIndex(db.rooms, roomId).value], p, now);
      NumberTaken(db.rooms, room'.hotelId, room'.number, Some(roomId)) ==> r == Err(Invalid(DuplicateRoomNumber))
    ensures r.Ok? ==>
      var k := RoomIndex(db.rooms, roomId).value;
      && r.value.1 == ApplyRoomPatch(db.rooms[k], p, now)
      && r.value.0 == db.(rooms := db.rooms[k := r.value.1])
      && HotelIndex(db.hotels, r.value.1.hotelId).Some?
      && !NumberTaken(db.rooms, r.value.1.hotelId, r.value.1.number, Some(roomId))
  {
    if !IsAdmin(caller) then Err(Forbidden)
    else match RoomIndex(db.rooms, roomId)
      case None => Err(NotFound(RoomRecord))
      case Some(k) =>
        var room' := ApplyRoomPatch(db.rooms[k], p, now);
        if Tables.FirstIndex(db.rooms, (x: Room) => x.hotelId == room'.hotelId && x.number == room'.number && x.id != roomId).Some?
        then Err(Invalid(DuplicateRoomNumber))
        else if HotelIndex(db.hotels, room'.hotelId).None? then Err(Internal(DanglingForeignKey))
        else Ok((db.(rooms := db.rooms[k := room']), room'))
  }

  /** The checked update keeps room numbers unique within each hotel. */
  lemma UpdateRoomCheckedKeepsNumbersUnique(db: Db, caller: User, roomId: int, p: RoomPatch, now: Instant)
    requires RoomNumbersUnique(db.rooms) && Tables.UniqueKeys(db.rooms, RoomKey)
    requires UpdateRoomChecked(db, caller, roomId, p, now).Ok?
    ensures RoomNumbersUnique(UpdateRoomChecked(db, caller, roomId, p, now).value.0.rooms)
  {
    var k := RoomIndex(db.rooms, roomId).value;
    var room' := UpdateRoomChecked(db, caller, roomId, p, now).value.1;
    var rooms' := db.rooms[k := room'];
    forall i, j | 0 <= i < j < |rooms'|
      ensures !(rooms'[i].hotelId == rooms'[j].hotelId && rooms'[i].number == rooms'[j].number)
    {
      if i == k {
        assert RoomKey(db.rooms[k]) != RoomKey(db.rooms[j]);
      } else if j == k {
        assert RoomKey(db.rooms[i]) != RoomKey(db.rooms[k]);
      } else {
        assert rooms'[i] == db.rooms[i] && rooms'[j] == db.rooms[j];
      }
    }
  }

  // ---------------------------------------------------------------------
  // Deletion and maintenance.

  /** A pending or confirmed booking of the room that checks out after the
      start of today (the stored datetime compared with today's date). */
  predicate ActiveBookingOf(b: Booking, roomId: int, now: Instant) {
    b.roomId == roomId && HoldsRoom(b.status) && b.checkOut > StartOf(DateOf(now))
  }

  /** `delete_room`: admin only; refused while the room has an active booking.
      Any other booking row of the room (a past or a cancelled stay) still
      points at it, and removing the room then breaks that reference. */
  function DeleteRoom(db: Db, caller: User, roomId: int, now: Instant): (r: Result<Db>)
    ensures !IsAdmin(caller) ==> r == Err(Forbidden)
    ensures IsAdmin(caller) && RoomIndex(db.rooms, roomId).None? ==> r == Err(NotFound(RoomRecord))
    ensures r == Err(Invalid(RoomHasActiveBookings)) <==>
      IsAdmin(caller) && RoomIndex(db.rooms, roomId).Some?
      && exists i :: 0 <= i < |db.bookings| && ActiveBookingOf(db.bookings[i], roomId, now)
    ensures r.Ok? <==>
      IsAdmin(caller) && RoomIndex(db.rooms, roomId).Some?
      && forall i :: 0 <= i < |db.bookings| ==> db.bookings[i].roomId != roomId
    ensures r.Ok? ==> r.value == db.(rooms := Tables.RemoveAt(db.rooms, RoomIndex(db.rooms, roomId).value))
  {
    if !IsAdmin(caller) then Err(Forbidden)
    else match RoomIndex(db.rooms, roomId)
      case None => Err(NotFound(RoomRecord))
      case Some(k) =>
        if Tables.Count(db.bookings, (b: Booking) => ActiveBookingOf(b, roomId, now)) > 0 then
          Err(Invalid(RoomHasActiveBookings))
        else if Tables.FirstIndex(db.bookings, (b: Booking) => b.roomId == roomId).Some? then
          Err(Internal(StillReferenced))
        else
          Ok(db.(rooms := Tables.RemoveAt(db.rooms, k)))
  }

  /** Once deleted, a room with a unique key can no longer be found. */
  lemma DeletedRoomIsGone(db: Db, caller: User, roomId: int, now: Instant)
    requires Tables.UniqueKeys(db.rooms, RoomKey)
    requires DeleteRoom(db, caller, roomId, now).Ok?
    ensures RoomIndex(DeleteRoom(db, caller, roomId, now).value.rooms, roomId).None?
  {
    var k := RoomIndex(db.rooms, roomId).value;
    var rooms' := Tables.RemoveAt(db.rooms, k);
    forall i | 0 <= i < |rooms'|
      ensures rooms'[i].id != roomId
    {
      if i < k {
        assert RoomKey(db.rooms[i]) != RoomKey(db.rooms[k]);
      } else {
        assert RoomKey(db.rooms[k]) != RoomKey(db.rooms[i + 1]);
      }
    }
  }

  /** `set_room_maintenance`: admin only; a room under maintenance is not
      available and a room out of maintenance is.  Nothing else about the
      room changes except its modification time. */
  function SetRoomMaintenance(db: Db, caller: User, roomId: int, isMaintenance: bool, now: Instant): (r: Result<(Db, Room)>)
    ensures !IsAdmin(caller) ==> r == Err(Forbidden)
    ensures r.Ok? <==> IsAdmin(caller) && RoomIndex(db.rooms, roomId).Some?
    ensures r.Err? && IsAdmin(caller) ==> r == Err(NotFound(RoomRecord))
    ensures r.Ok? ==>
      var k := RoomIndex(db.rooms, roomId).value;
      && r.value.1 == db.rooms[k].(isAvailable := !isMaintenance, updatedAt := Some(now))
      && r.value.0 == db.(rooms := db.rooms[k := r.value.1])
  {
    if !IsAdmin(caller) then Err(Forbidden)
    else match RoomIndex(db.rooms, roomId)
      case None => Err(NotFound(RoomRecord))
      case Some(k) =>
        var room' := db.rooms[k].(isAvailable := !isMaintenance, updatedAt := Some(now));
        Ok((db.(rooms := db.rooms[k := room']), room'))
  }

  /** A lookup finds the same row after that row is rewritten with its key kept. */
  lemma {:induction false} RoomIndexAfterRewrite(rooms: seq<Room>, k: nat, room': Room)
    requires k < |rooms| && RoomIndex(rooms, room'.id) == Some(k) && rooms[k].id == room'.id
    ensures RoomIndex(rooms[k := room'], room'.id) == Some(k)
  {
    var id := room'.id;
    var p := (x: Room) => x.id == id;
    if k > 0 {
      assert rooms[k := room'][1..] == rooms[1..][k - 1 := room'];
      assert !p(rooms[0]);
      assert RoomIndex(rooms[1..], id) == Some(k - 1);
      RoomIndexAfterRewrite(rooms[1..], k - 1, room');
    }
  }

  /** A room put under maintenance is reported unavailable for every stay,
      whatever its bookings. */
  lemma MaintenanceBlocksEveryStay(db: Db, caller: User, roomId: int, now: Instant, checkIn: Instant, checkOut: Instant)
    requires SetRoomMaintenance(db, caller, roomId, true, now).Ok?
    requires checkIn < checkOut
    ensures CheckRoomAvailability(SetRoomMaintenance(db, caller, roomId, true, now).value.0, roomId, checkIn, checkOut, None) == Ok(false)
  {
    var k := RoomIndex(db.rooms, roomId).value;
    RoomIndexAfterRewrite(db.rooms, k, SetRoomMaintenance(db, caller, roomId, true, now).value.1);
  }

  /** A room taken out of maintenance is available for any stay no active
      booking of it intersects. */
  lemma EndOfMaintenanceFreesRoom(db: Db, caller: User, roomId: int, now: Instant, checkIn: Instant, checkOut: Instant)
    requires SetRoomMaintenance(db, caller, roomId, false, now).Ok?
    requires checkIn < checkOut
    requires forall i :: 0 <= i < |db.bookings| ==> !Blocks(db.bookings[i], roomId, checkIn, checkOut, None)
    ensures CheckRoomAvailability(SetRoomMaintenance(db, caller, roomId, false, now).value.0, roomId, checkIn, checkOut, None) == Ok(true)
  {
    var k := RoomIndex(db.rooms, roomId).value;
    RoomIndexAfterRewrite(db.rooms, k, SetRoomMaintenance(db, caller, roomId, false, now).value.1);
  }

  // ---------------------------------------------------------------------
  // Statistics.

  datatype RoomStats = RoomStats(
    total: nat,
    available: nat,
    maintenance: int,
    single: nat,
    double: nat,
    suite: nat,
    deluxe: nat)

  /** The rooms a statistics request covers: one hotel's when a non-zero
      hotel id is given (`if hotel_id:`), all rooms otherwise. */
  function StatsScope(rooms: seq<Room>, hotelId: Option<int>): (s: seq<Room>)
    ensures hotelId.Some? && hotelId.value != 0 ==> forall i :: 0 <= i < |s| ==> s[i].hotelId == hotelId.value && s[i] in rooms
    ensures hotelId.Some? && hotelId.value != 0 ==>
              forall i :: 0 <= i < |rooms| && rooms[i].hotelId == hotelId.value ==> rooms[i] in s
    ensures !(hotelId.Some? && hotelId.value != 0) ==> s == rooms
  {
    if hotelId.Some? && hotelId.value != 0 then Tables.Filter(rooms, (r: Room) => r.hotelId == hotelId.value)
    else rooms
  }

  /** The number of rooms of type `t`. */
  function CountType(rooms: seq<Room>, t: RoomType): nat {
    Tables.Count(rooms, (r: Room) => r.roomType == t)
  }

  /** Every room has exactly one of the four types. */
  lemma {:induction false} TypeCountsCoverAll(rooms: seq<Room>)
    ensures CountType(rooms, Single) + CountType(rooms, Double) + CountType(rooms, Suite) + CountType(rooms, Deluxe) == |rooms|
  {
    if |rooms| > 0 {
      TypeCountsCoverAll(rooms[1..]);
    }
  }

  /** `get_room_stats`: rooms under maintenance are the rooms that are not
      available, and the per-type counts partition the rooms in scope. */
  function GetRoomStats(db: Db, hotelId: Option<int>): (r: RoomStats)
    ensures r.total == |StatsScope(db.rooms, hotelId)|
    ensures r.available <= r.total && r.maintenance == r.total - r.available
    ensures r.maintenance == Tables.Count(StatsScope(db.rooms, hotelId), (x: Room) => !x.isAvailable)
    ensures r.single + r.double + r.suite + r.deluxe == r.total
    ensures r.single == CountType(StatsScope(db.rooms, hotelId), Single)
    ensures r.double == CountType(StatsScope(db.rooms, hotelId), Double)
    ensures r.suite == CountType(StatsScope(db.rooms, hotelId), Suite)
    ensures r.deluxe == CountType(StatsScope(db.rooms, hotelId), Deluxe)
  {
    var scope := StatsScope(db.rooms, hotelId);
    var available := Tables.Count(scope, (x: Room) => x.isAvailable);
    Tables.CountSplit(scope, (x: Room) => x.isAvailable, (x: Room) => !x.isAvailable);
    TypeCountsCoverAll(scope);
    RoomStats(|scope|, available, |scope| - available,
              CountType(scope, Single), CountType(scope, Double), CountType(scope, Suite), CountType(scope, Deluxe))
  }
}

=== FILE: rooms_page.dfy ===
/** The room list page: opening the booking form, checking it, and the
    request it sends.  Dates are the milliseconds `new Date(...)` reads
    from the form's `YYYY-MM-DD` text (`None` for an invalid date) and the
    current instant is an input. */
module RoomsPage {
  import opened Outcome
  import opened Calendar
  import opened ApiClient

  /** The fields of a room the page uses. */
  datatype ClientRoom = ClientRoom(id: int, capacity: nat, pricePerNight: int, roomType: string)

  /** The booking form. */
  datatype BookingForm = BookingForm(checkIn: string, checkOut: string, guestCount: int, specialRequests: string)

  /** The page's own state. */
  datatype PageState = PageState(selected: Option<ClientRoom>, showModal: bool, error: string)

  /** Where `handleBookRoom` leaves the page. */
  datatype BookRoomStep = BookRoomStep(state: PageState, navigateTo: Option<string>, fromPath: Option<string>)

  /** `handleBookRoom`: a visitor who is not signed in is sent to the login
      page, remembering this page; otherwise the form opens for the room. */
  function HandleBookRoom(st: PageState, user: Option<Profile>, room: ClientRoom): (r: BookRoomStep)
    ensures user.None? <==> r.navigateTo.Some?
    ensures user.None? ==> r.state == st && r.navigateTo == Some("/login") && r.fromPath == Some("/rooms")
    ensures user.Some? ==> r.state.showModal && r.state.selected == Some(room) && r.state.error == ""
  {
    if user.None? then BookRoomStep(st, Some("/login"), Some("/rooms"))
    else BookRoomStep(PageState(Some(room), true, ""), None, None)
  }

  const PastCheckInMessage: string := "Ngày nhận phòng không thể là ngày đã qua"
  const DatesOrderMessage: string := "Ngày trả phòng phải sau ngày nhận phòng"

  /** The body of `POST /bookings/`; the displayed total is not part of it. */
  datatype BookingPayload = BookingPayload(
    roomId: int,
    checkInDate: string,
    checkOutDate: string,
    guestCount: int,
    specialRequests: Option<string>)

  /** What `handleBookingSubmit` does before the network. */
  datatype SubmitDecision =
    | Skip                       // no room selected or nobody signed in
    | Refuse(message: string)    // a date check failed; no request
    | Send(payload: BookingPayload, nights: Option<int>, total: Option<int>)

  /** `handleBookingSubmit` up to the request.  JavaScript comparisons with
      an invalid date are false, so such a date passes both checks. */
  function SubmitBooking(st: PageState, user: Option<Profile>, form: BookingForm,
                         checkIn: Option<int>, checkOut: Option<int>, now: int): (r: SubmitDecision)
    ensures r.Skip? <==> st.selected.None? || user.None?
    ensures r.Refuse? && checkIn.Some? && checkIn.value < now ==> r.message == PastCheckInMessage
    ensures r.Refuse? <==> !r.Skip? && checkIn.Some?
                           && (checkIn.value < now || (checkOut.Some? && checkOut.value <= checkIn.value))
    ensures r.Send? && checkIn.Some? && checkOut.Some? ==>
              now <= checkIn.value < checkOut.value && r.nights.Some? && r.nights.value >= 1
              && r.total == Some(st.selected.value.pricePerNight * r.nights.value)
    ensures r.Send? ==> r.payload.roomId == st.selected.value.id
                        && r.payload.checkInDate == form.checkIn && r.payload.checkOutDate == form.checkOut
                        && r.payload.guestCount == form.guestCount
    ensures r.Send? ==> (r.payload.specialRequests.None? <==> form.specialRequests == "")
    ensures r.Send? && form.specialRequests != "" ==> r.payload.specialRequests == Some(form.specialRequests)
  {
    if st.selected.None? || user.None? then Skip
    else if checkIn.Some? && checkIn.value < now then Refuse(PastCheckInMessage)
    else if checkIn.Some? && checkOut.Some? && checkOut.value <= checkIn.value then Refuse(DatesOrderMessage)
    else
      var room := st.selected.value;
      var nights := ClientNights(checkIn, checkOut);
      assert checkIn.Some? && checkOut.Some? ==> nights.value >= 1 by {
        if checkIn.Some? && checkOut.Some? {
          ClientNightsOfProperStay(checkIn.value, checkOut.value);
        }
      }
      var total := if nights.Some? then Some(room.pricePerNight * nights.value) else None;
      var requests := if form.specialRequests == "" then None else Some(form.specialRequests);
      Send(BookingPayload(room.id, form.checkIn, form.checkOut, form.guestCount, requests), nights, total)
  }

  /** A check-in on today's date is refused: the form's date is midnight
      and the current instant is later in the day. */
  lemma SameDayCheckInRefused(st: PageState, user: Profile, form: BookingForm, checkOut: Option<int>, now: int)
    requires st.selected.Some?
    requires now % MillisPerDay != 0
    ensures SubmitBooking(st, Some(user), form, Some(now / MillisPerDay * MillisPerDay), checkOut, now).Refuse?
  {
    assert now / MillisPerDay * MillisPerDay < now;
  }

  /** Invalid dates are not caught: the request is sent with no night count. */
  lemma InvalidDatesAreSent(st: PageState, user: Profile, form: BookingForm, now: int)
    requires st.selected.Some?
    ensures SubmitBooking(st, Some(user), form, None, None, now).Send?
    ensures SubmitBooking(st, Some(user), form, None, None, now).nights.None?
  {
  }

  /** The guest-count options: `1` to `capacity`. */
  function GuestChoices(capacity: nat): (r: seq<int>)
    ensures |r| == capacity
    ensures forall i :: 0 <= i < |r| ==> r[i] == i + 1
  {
    seq(capacity, i => i + 1)
  }

  /** A count is offered exactly when it is between 1 and the capacity. */
  lemma GuestChoicesAreOneToCapacity(capacity: nat, g: int)
    ensures g in GuestChoices(capacity) <==> 1 <= g <= capacity
  {
    var r := GuestChoices(capacity);
    if 1 <= g <= capacity {
      assert r[g - 1] == g;
    }
  }

  /** `getRoomTypeLabel`: the four labelled types, and the raw type for
      anything else, `deluxe` included. */
  function RoomTypeLabel(t: string): (r: string)
    ensures t == "deluxe" ==> r == t
    ensures r != t <==> t in {"single", "double", "suite", "family"}
  {
    if t == "single" then "Phòng Đơn"
    else if t == "double" then "Phòng Đôi"
    else if t == "suite" then "Phòng Suite"
    else if t == "family" then "Phòng Gia Đình"
    else t
  }
}

=== FILE: routers.dfy ===
/** The HTTP layer's own rules, beyond the services it calls: how the room
    search turns query strings into filters, how booking reads are scoped to
    the caller, and which uploaded files reach the file store. */
module Routers {
  import opened Outcome
  import opened Calendar
  import opened Model
  import Tables
  import Text
  import BookingService

  // ---------------------------------------------------------------------
  // Decimal integers, as Python's `int(s)` reads and `str(n)` writes them.

  /** `int(s)` for ASCII text: surrounding whitespace, an optional sign and
      at least one digit; `None` where Python raises `ValueError`. */
  function ParseInt(s: string): (r: Option<int>)
    ensures r.Some? ==> |Text.Trim(s, Text.IsPySpace)| > 0
  {
    ParseSigned(Text.Trim(s, Text.IsPySpace))
  }

  /** An optional sign followed by one or more digits, nothing else. */
  function ParseSigned(t: string): (r: Option<int>)
    ensures r.Some? ==> |t| > 0
  {
    if |t| > 0 && (t[0] == '-' || t[0] == '+') then
      if |t| > 1 && AllDigits(t[1..]) then
        Some(if t[0] == '-' then -DigitsValue(t[1..]) else DigitsValue(t[1..]))
      else None
    else if |t| > 0 && AllDigits(t) then Some(DigitsValue(t))
    else None
  }

  /** Number of decimal digits `str(n)` writes for `n >= 0`. */
  function NumDigits(n: nat): (w: nat)
    ensures w >= 1 && n < Power10(w)
  {
    if n < 10 then 1
    else
      var w := NumDigits(n / 10);
      assert n / 10 <= Power10(w) - 1;
      1 + w
  }

  /** `str(n)` */
  function FormatInt(n: int): (s: string)
    ensures |s| >= 1
  {
    if n < 0 then "-" + PadDigits(-n, NumDigits(-n)) else PadDigits(n, NumDigits(n))
  }

  /** A run of digits reads as its value. */
  lemma ParseDigits(t: string)
    requires |t| > 0 && AllDigits(t)
    ensures ParseInt(t) == Some(DigitsValue(t))
  {
    assert IsDigit(t[0]) && IsDigit(t[|t| - 1]);
    Text.TrimClean(t, Text.IsPySpace);
    assert ParseSigned(t) == Some(DigitsValue(t));
  }

  /** A minus sign before a run of digits negates it. */
  lemma ParseNegated(t: string)
    requires |t| > 0 && AllDigits(t)
    ensures ParseInt("-" + t) == Some(-DigitsValue(t))
  {
    NegatedIsClean(t);
    Text.TrimClean("-" + t, Text.IsPySpace);
    SignedNegated(t);
  }

  /** A signed run of digits has no surrounding whitespace to trim. */
  lemma NegatedIsClean(t: string)
    requires |t| > 0 && AllDigits(t)
    ensures Text.Clean("-" + t, Text.IsPySpace)
  {
    var s := "-" + t;
    assert s[0] == '-';
    assert s[|s| - 1] == t[|t| - 1] && IsDigit(t[|t| - 1]);
  }

  /** The sign is read off the front and the digits after it. */
  lemma SignedNegated(t: string)
    requires |t| > 0 && AllDigits(t)
    ensures ParseSigned("-" + t) == Some(-DigitsValue(t))
  {
    var s := "-" + t;
    assert s[0] == '-' && s[1..] == t;
  }

  /** Reading back what `str` wrote gives the number back. */
  lemma ParseFormatInt(n: int)
    ensures ParseInt(FormatInt(n)) == Some(n)
  {
    var m := if n < 0 then -n else n;
    PadDigitsValue(m, NumDigits(m));
    if n < 0 {
      ParseNegated(PadDigits(m, NumDigits(m)));
    } else {
      ParseDigits(PadDigits(m, NumDigits(m)));
    }
  }

  /** Whitespace around a number does not change what it reads as. */
  lemma ParseIntIgnoresLeadingSpace(s: string)
    ensures ParseInt(" " + s) == ParseInt(s)
  {
    assert (" " + s)[1..] == s;
    Text.TrimLeadingSpace(" " + s, Text.IsPySpace);
    assert Text.Trim(" " + s, Text.IsPySpace) == Text.Trim(s, Text.IsPySpace);
  }

  // ---------------------------------------------------------------------
  // The room search query (`GET /rooms/`).

  /** The raw query: paging as FastAPI has parsed it, every other field the
      text the client sent, if any. */
  datatype RoomQuery = RoomQuery(
    skip: int,
    limit: int,
    hotelId: Option<string>,
    roomType: Option<string>,
    minPrice: Option<string>,
    maxPrice: Option<string>,
    capacity: Option<string>,
    guests: Option<string>,
    availableOnly: bool,
    checkIn: Option<string>,
    checkOut: Option<string>)

  /** The filters handed to the room service. */
  datatype RoomFilters = RoomFilters(
    skip: int,
    limit: int,
    hotelId: Option<int>,
    roomType: Option<string>,
    minPrice: Option<int>,
    maxPrice: Option<int>,
    capacity: Option<int>,
    availableOnly: bool,
    checkIn: Option<CivilDate>,
    checkOut: Option<CivilDate>)

  /** Python truthiness of an optional integer: present and not zero. */
  predicate IntTruthy(v: Option<int>) {
    v.Some? && v.value != 0
  }

  /** `int(q) if q and q.strip() else None`: blank text is no filter, and
      text that is not a number makes the request fail with a 500. */
  function CoerceInt(q: Option<string>): (r: Result<Option<int>>)
    ensures (r.Ok? && r.value.None?) <==> (q.None? || forall i :: 0 <= i < |q.value| ==> Text.IsPySpace(q.value[i]))
    ensures r.Err? ==> r.failure == Internal(NotANumber)
    ensures q.Some? && ParseInt(q.value).Some? ==> r == Ok(ParseInt(q.value))
  {
    if q.None? then Ok(None)
    else
      Text.TrimEmpty(q.value, Text.IsPySpace);
      if |q.value| == 0 || |Text.Trim(q.value, Text.IsPySpace)| == 0 then Ok(None)
      else
        match ParseInt(q.value)
        case Some(n) => Ok(Some(n))
        case None => Err(Internal(NotANumber))
  }

  /** A date filter: `date.fromisoformat(q)` when `q` is not blank, and no
      filter when it is blank or malformed.  Only the exact ISO text of a
      date is read as that date. */
  function CoerceDate(q: Option<string>): (r: Option<CivilDate>)
    ensures r.Some? <==> q.Some? && ParseIsoDate(q.value).Some?
    ensures r.Some? ==> ValidDate(r.value)
    ensures r.Some? ==> q == Some(FormatIsoDate(r.value))
  {
    if q.Some? && |q.value| > 0 && |Text.Trim(q.value, Text.IsPySpace)| > 0 then
      var d := ParseIsoDate(q.value);
      if d.Some? then IsoDateCanonical(q.value); d else d
    else
      assert q.Some? ==> ParseIsoDate(q.value).None? by {
        if q.Some? && |q.value| > 0 {
          Text.TrimEmpty(q.value, Text.IsPySpace);
        }
      }
      None
  }

  /** The written form of a date is always read as that date. */
  lemma CoerceDateOfIsoText(d: CivilDate)
    requires ValidDate(d)
    ensures CoerceDate(Some(FormatIsoDate(d))) == Some(d)
  {
    IsoDateRoundTrip(d);
  }

  predicate PagingValid(q: RoomQuery) {
    q.skip >= 0 && 1 <= q.limit <= 100
  }

  /** The filters `get_rooms` derives from its query; `guests` stands in
      for the capacity filter when no (nonzero) capacity was given. */
  function CoerceRoomQuery(q: RoomQuery): (r: Result<RoomFilters>)
    ensures r == Err(Unprocessable) <==> !PagingValid(q)
    ensures r.Err? ==> r.failure == Unprocessable || r.failure == Internal(NotANumber)
    ensures r.Ok? <==> PagingValid(q)
                       && CoerceInt(q.hotelId).Ok? && CoerceInt(q.minPrice).Ok? && CoerceInt(q.maxPrice).Ok?
                       && CoerceInt(q.capacity).Ok? && CoerceInt(q.guests).Ok?
    ensures r.Ok? ==> 0 <= r.value.skip && 1 <= r.value.limit <= 100
    ensures r.Ok? && IntTruthy(CoerceInt(q.capacity).value) ==> r.value.capacity == CoerceInt(q.capacity).value
    ensures r.Ok? && !IntTruthy(CoerceInt(q.capacity).value) && IntTruthy(CoerceInt(q.guests).value)
            ==> r.value.capacity == CoerceInt(q.guests).value
    ensures r.Ok? && !IntTruthy(CoerceInt(q.guests).value) ==> r.value.capacity == CoerceInt(q.capacity).value
    ensures r.Ok? ==> r.value.hotelId == CoerceInt(q.hotelId).value && r.value.roomType == q.roomType
    ensures r.Ok? ==> r.value.checkIn == CoerceDate(q.checkIn) && r.value.checkOut == CoerceDate(q.checkOut)
  {
    if !PagingValid(q) then Err(Unprocessable)
    else
      var hotelId :- CoerceInt(q.hotelId);
      var minPrice :- CoerceInt(q.minPrice);
      var maxPrice :- CoerceInt(q.maxPrice);
      var capacity :- CoerceInt(q.capacity);
      var guests :- CoerceInt(q.guests);
      var capacity' := if IntTruthy(guests) && !IntTruthy(capacity) then guests else capacity;
      Ok(RoomFilters(q.skip, q.limit, hotelId, q.roomType, minPrice, maxPrice, capacity',
                     q.availableOnly, CoerceDate(q.checkIn), CoerceDate(q.checkOut)))
  }

  /** A malformed date never fails the search: it only drops that filter. */
  lemma MalformedDateIsIgnored(q: RoomQuery)
    requires q.checkIn.Some? && ParseIsoDate(q.checkIn.value).None?
    ensures CoerceRoomQuery(q).Ok? ==> CoerceRoomQuery(q).value.checkIn.None?
    ensures CoerceRoomQuery(q.(checkIn := None)) == CoerceRoomQuery(q)
  {
  }

  // ---------------------------------------------------------------------
  // Booking reads (`GET /bookings/...`).

  /** The filters `get_bookings` accepts. */
  datatype BookingFilters = BookingFilters(
    userId: Option<int>,
    roomId: Option<int>,
    hotelId: Option<int>,
    status: Option<BookingStatus>,
    startDate: Option<Day>,
    endDate: Option<Day>)

  const NoFilters := BookingFilters(None, None, None, None, None, None)

  /** A booking passes the filters.  An id filter of 0 is no filter, as
      Python's `if user_id:` reads it; the database compares a stored
      timestamp with a date by the date's midnight. */
  predicate Matches(db: Db, f: BookingFilters, b: Booking) {
    (IntTruthy(f.userId) ==> b.userId == f.userId.value)
    && (IntTruthy(f.roomId) ==> b.roomId == f.roomId.value)
    && (IntTruthy(f.hotelId) ==>
          var k := RoomIndex(db.rooms, b.roomId);
          k.Some? && db.rooms[k.value].hotelId == f.hotelId.value)
    && (f.status.Some? ==> b.status == f.status.value)
    && (f.startDate.Some? ==> b.checkIn >= StartOf(f.startDate.value))
    && (f.endDate.Some? ==> b.checkOut <= StartOf(f.endDate.value))
  }

  /** `BookingService.get_bookings` without ordering and paging: exactly the
      matching bookings, in table order. */
  function ListBookings(db: Db, f: BookingFilters): (r: seq<Booking>)
    ensures forall i :: 0 <= i < |r| ==> r[i] in db.bookings && Matches(db, f, r[i])
    ensures forall i :: 0 <= i < |db.bookings| && Matches(db, f, db.bookings[i]) ==> db.bookings[i] in r
  {
    Tables.Filter(db.bookings, (b: Booking) => Matches(db, f, b))
  }

  /** The filters a caller's listing really runs with: a non-admin's user
      filter is replaced by their own id. */
  function ScopeFilters(caller: User, f: BookingFilters): (g: BookingFilters)
    ensures !IsAdmin(caller) ==> g.userId == Some(caller.id)
    ensures IsAdmin(caller) ==> g == f
    ensures g.(userId := f.userId) == f
  {
    if IsAdmin(caller) then f else f.(userId := Some(caller.id))
  }

  /** `GET /bookings/` */
  function GetBookings(db: Db, caller: User, f: BookingFilters): (r: seq<Booking>)
    ensures !IsAdmin(caller) && caller.id != 0 ==> forall i :: 0 <= i < |r| ==> r[i].userId == caller.id
    ensures !IsAdmin(caller) ==>
              forall i :: (0 <= i < |db.bookings| && db.bookings[i].userId == caller.id
                           && Matches(db, f.(userId := None), db.bookings[i])) ==> db.bookings[i] in r
    ensures IsAdmin(caller) ==> r == ListBookings(db, f)
  {
    ListBookings(db, ScopeFilters(caller, f))
  }

  /** `GET /bookings/user/{user_id}` (`get_user_bookings`): someone else's
      bookings only for an admin. */
  function GetUserBookings(db: Db, caller: User, userId: int): (r: Result<seq<Booking>>)
    ensures r.Ok? <==> AdminOrOwner(caller, userId)
    ensures r.Err? ==> r.failure == Forbidden
    ensures r.Ok? && userId != 0 ==>
              (forall i :: 0 <= i < |r.value| ==> r.value[i].userId == userId)
              && (forall i :: 0 <= i < |db.bookings| && db.bookings[i].userId == userId ==> db.bookings[i] in r.value)
  {
    if !AdminOrOwner(caller, userId) then Err(Forbidden)
    else Ok(ListBookings(db, NoFilters.(userId := Some(userId))))
  }

  /** An admin asking for the bookings of user 0 gets every booking, since a
      zero id filters nothing. */
  lemma UserZeroListsEveryBooking(db: Db, admin: User)
    requires IsAdmin(admin)
    ensures GetUserBookings(db, admin, 0).Ok?
    ensures |GetUserBookings(db, admin, 0).value| == |db.bookings|
  {
    var f := NoFilters.(userId := Some(0));
    Tables.FilterKeepsAll(db.bookings, (b: Booking) => Matches(db, f, b));
  }

  /** `GET /bookings/my-bookings/`: the caller's own bookings, never refused. */
  function GetMyBookings(db: Db, caller: User): (r: seq<Booking>)
    ensures caller.id != 0 ==> forall i :: 0 <= i < |r| ==> r[i].userId == caller.id
    ensures forall i :: 0 <= i < |db.bookings| && db.bookings[i].userId == caller.id ==> db.bookings[i] in r
  {
    GetUserBookings(db, caller, caller.id).value
  }

  /** `GET /bookings/{booking_id}/` as it is meant to answer: 404 for a
      missing booking, 403 for a caller who is neither its owner nor an
      admin, and the booking otherwise. */
  function GetBooking(db: Db, caller: User, id: int): (r: Result<Booking>)
    ensures r.Ok? <==> BookingIndex(db.bookings, id).Some?
                       && AdminOrOwner(caller, db.bookings[BookingIndex(db.bookings, id).value].userId)
    ensures r.Ok? ==> r.value.id == id && r.value in db.bookings
    ensures BookingIndex(db.bookings, id).None? ==> r == Err(NotFound(BookingRecord))
    ensures r.Err? && BookingIndex(db.bookings, id).Some? ==> r.failure == Forbidden
  {
    match BookingIndex(db.bookings, id)
    case None => Err(NotFound(BookingRecord))
    case Some(k) =>
      if !AdminOrOwner(caller, db.bookings[k].userId) then Err(Forbidden) else Ok(db.bookings[k])
  }

  /** The same route as written: it declares a bare booking as its response
      model but returns the `{code, message, data}` envelope, so response
      validation refuses every read that passes the 404 and 403 guards, and
      the caller gets a 500. */
  function GetBookingAsWritten(db: Db, caller: User, id: int): (r: Result<Booking>)
    ensures r.Err?
    ensures GetBooking(db, caller, id).Err? ==> r == GetBooking(db, caller, id)
    ensures GetBooking(db, caller, id).Ok? ==> r == Err(Internal(ResponseShape))
  {
    match BookingIndex(db.bookings, id)
    case None => Err(NotFound(BookingRecord))
    case Some(k) =>
      if !AdminOrOwner(caller, db.bookings[k].userId) then Err(Forbidden) else Err(Internal(ResponseShape))
  }

  /** No one reads a booking through the route as written: an owner asking
      for their own booking gets a 500. */
  lemma OwnerReadOfOwnBookingFails(db: Db, owner: User, i: nat)
    requires Tables.UniqueKeys(db.bookings, BookingKey)
    requires i < |db.bookings| && owner.id == db.bookings[i].userId
    ensures GetBooking(db, owner, db.bookings[i].id).Ok?
    ensures GetBookingAsWritten(db, owner, db.bookings[i].id).failure.Status() == 500
  {
    BookingAt(db, i);
  }

  /** A booking's key finds that booking when keys are unique. */
  lemma BookingAt(db: Db, i: nat)
    requires Tables.UniqueKeys(db.bookings, BookingKey)
    requires i < |db.bookings|
    ensures BookingIndex(db.bookings, db.bookings[i].id) == Some(i)
  {
    var k := BookingIndex(db.bookings, db.bookings[i].id).value;
    assert BookingKey(db.bookings[k]) == BookingKey(db.bookings[i]);
  }

  /** Reading one booking and listing agree: a caller can read exactly the
      bookings their unfiltered listing shows. */
  lemma GetBookingAgreesWithListing(db: Db, caller: User, i: nat)
    requires Tables.UniqueKeys(db.bookings, BookingKey)
    requires i < |db.bookings| && caller.id != 0
    ensures GetBooking(db, caller, db.bookings[i].id).Ok? <==> db.bookings[i] in GetBookings(db, caller, NoFilters)
  {
    var b := db.bookings[i];
    BookingAt(db, i);
    var r := GetBookings(db, caller, NoFilters);
    if b in r {
      var j :| 0 <= j < |r| && r[j] == b;
      assert Matches(db, ScopeFilters(caller, NoFilters), r[j]);
    }
  }

  /** `PUT /bookings/{booking_id}` as it is meant to answer: the stored
      booking after the update, or the service's refusal with nothing
      stored. */
  function PutBooking(db: Db, caller: User, id: int, p: BookingService.BookingPatch, now: Instant): (r: (Db, Result<Booking>))
    ensures r.1.Ok? <==> BookingService.UpdateBooking(db, caller, id, p, now).Ok?
    ensures r.1.Err? ==> r.0 == db
    ensures r.1.Ok? ==> r.1.value.id == id && r.1.value in r.0.bookings
  {
    match BookingService.UpdateBooking(db, caller, id, p, now)
    case Err(e) => (db, Err(e))
    case Ok((db', b)) =>
      assert db'.bookings[BookingIndex(db.bookings, id).value] == b;
      (db', Ok(b))
  }

  /** The same route as written: it too declares a bare booking but returns
      the envelope, so an update the service accepts is committed and the
      caller still gets a 500. */
  function PutBookingAsWritten(db: Db, caller: User, id: int, p: BookingService.BookingPatch, now: Instant): (r: (Db, Result<Booking>))
    ensures r.1.Err?
    ensures r.0 == PutBooking(db, caller, id, p, now).0
    ensures PutBooking(db, caller, id, p, now).1.Ok? ==> r.1 == Err(Internal(ResponseShape))
    ensures PutBooking(db, caller, id, p, now).1.Err? ==> r.1 == PutBooking(db, caller, id, p, now).1
  {
    match BookingService.UpdateBooking(db, caller, id, p, now)
    case Err(e) => (db, Err(e))
    case Ok((db', _)) => (db', Err(Internal(ResponseShape)))
  }

  /** An accepted update is stored even though the caller is told it failed:
      the store holds the updated booking afterwards. */
  lemma AcceptedPutIsStoredYetFails(db: Db, caller: User, id: int, p: BookingService.BookingPatch, now: Instant)
    requires BookingService.UpdateBooking(db, caller, id, p, now).Ok?
    ensures PutBookingAsWritten(db, caller, id, p, now).1.failure.Status() == 500
    ensures BookingService.UpdateBooking(db, caller, id, p, now).value.1 in PutBookingAsWritten(db, caller, id, p, now).0.bookings
  {
  }

  // ---------------------------------------------------------------------
  // Room image uploads (`POST /rooms/{room_id}/upload-images`).

  /** One uploaded file: its length in bytes, and the link the file store
      returns for it, or `None` when storing it raises. */
  datatype Upload = Upload(size: nat, link: Option<string>)

  predicate NonEmpty(u: Upload) {
    u.size > 0
  }

  /** The links of the stored files: empty files are skipped before the
      store is called, and a store failure fails the whole request. */
  function StoreUploads(files: seq<Upload>): (r: Result<seq<string>>)
    ensures r.Err? <==> exists i :: 0 <= i < |files| && NonEmpty(files[i]) && files[i].link.None?
    ensures r.Err? ==> r.failure == Internal(DriveUploadFailed)
    ensures r.Ok? ==> |r.value| == Tables.Count(files, NonEmpty)
    ensures r.Ok? ==> forall i :: 0 <= i < |files| && NonEmpty(files[i]) ==> files[i].link.value in r.value
  {
    if |files| == 0 then Ok([])
    else
      assert forall i :: 1 <= i < |files| ==> files[i] == files[1..][i - 1];
      var rest := StoreUploads(files[1..]);
      if !NonEmpty(files[0]) then rest
      else if files[0].link.None? then Err(Internal(DriveUploadFailed))
      else if rest.Err? then rest
      else Ok([files[0].link.value] + rest.value)
  }

  /** `upload_room_images`: admin only, then the room must exist. */
  function UploadRoomImages(db: Db, caller: User, roomId: int, files: seq<Upload>): (r: Result<seq<string>>)
    ensures !IsAdmin(caller) ==> r == Err(Forbidden)
    ensures IsAdmin(caller) && RoomIndex(db.rooms, roomId).None? ==> r == Err(NotFound(RoomRecord))
    ensures IsAdmin(caller) && RoomIndex(db.rooms, roomId).Some? ==> r == StoreUploads(files)
  {
    if !IsAdmin(caller) then Err(Forbidden)
    else if RoomIndex(db.rooms, roomId).None? then Err(NotFound(RoomRecord))
    else StoreUploads(files)
  }

  /** Adding an empty file changes nothing, even when storing it would
      have failed. */
  lemma {:induction false} EmptyFilesAreSkipped(files: seq<Upload>, k: nat, link: Option<string>)
    requires k <= |files|
    ensures StoreUploads(files[..k] + [Upload(0, link)] + files[k..]) == StoreUploads(files)
  {
    var s := files[..k] + [Upload(0, link)] + files[k..];
    if k == 0 {
      assert s[1..] == files;
    } else {
      assert s[0] == files[0];
      assert s[1..] == files[1..][..k - 1] + [Upload(0, link)] + files[1..][k - 1..];
      EmptyFilesAreSkipped(files[1..], k - 1, link);
    }
  }
}

=== FILE: session.dfy ===
/** The client's session store (`AuthProvider`): the signed-in user and
    token held in memory, the loading flag, and the browser storage they
    are persisted to.  Every operation is a function from the session before
    to the session after; the server's answers are inputs. */
module Session {
  import opened Outcome
  import opened ApiClient

  datatype Session = Session(user: Option<Profile>, token: Option<string>, isLoading: bool, storage: Storage)

  /** The state a page load starts in, before `initAuth` runs. */
  function Initial(storage: Storage): Session {
    Session(None, None, true, storage)
  }

  /** `!!user && !!token`: an empty token does not count. */
  predicate IsAuthenticated(s: Session) {
    s.user.Some? && s.token.Some? && |s.token.value| > 0
  }

  /** Memory and storage hold the same session. */
  predicate Mirrored(s: Session) {
    s.storage == Storage(s.token, s.user)
  }

  /** The outcome of an operation that can throw: the session afterwards,
      on failure the status that was rethrown, and whether the response
      interceptor sent the browser to `/login`, a full page load that
      discards the session in memory. */
  datatype Attempt = Attempt(session: Session, result: Reply<()>, reloadToLogin: bool)

  /** `login(user, token)`: memory and storage hold exactly the pair. */
  function Login(s: Session, u: Profile, t: string): (r: Session)
    ensures r.user == Some(u) && r.token == Some(t) && Mirrored(r)
    ensures r.isLoading == s.isLoading
    ensures |t| > 0 <==> IsAuthenticated(r)
  {
    Session(Some(u), Some(t), s.isLoading, Storage(Some(t), Some(u)))
  }

  /** `logout()`: everything cleared, whatever the state was. */
  function Logout(s: Session): (r: Session)
    ensures !IsAuthenticated(r) && Mirrored(r)
    ensures r.storage == EmptyStorage
    ensures r.isLoading == s.isLoading
  {
    Session(None, None, s.isLoading, AuthLogout(s.storage))
  }

  /** `initAuth` acts only when both keys are present. */
  predicate StoredSession(storage: Storage) {
    storage.token.Some? && |storage.token.value| > 0 && storage.user.Some?
  }

  /** `initAuth`: with a stored session, the profile fetch decides; its
      answer replaces the stored user, and any failure clears both keys.
      Without one, nothing but the loading flag changes. */
  function InitAuth(storage: Storage, profile: Reply<Profile>): (r: Session)
    ensures !r.isLoading
    ensures !StoredSession(storage) ==> r == Initial(storage).(isLoading := false)
    ensures StoredSession(storage) ==> Mirrored(r)
    ensures StoredSession(storage) && profile.Answered? ==>
              IsAuthenticated(r) && r.user == Some(profile.value) && r.token == storage.token
    ensures StoredSession(storage) && profile.Rejected? ==>
              r.user.None? && r.token.None? && r.storage == EmptyStorage
  {
    if !StoredSession(storage) then Session(None, None, false, storage)
    else
      var fetched := Through(storage, profile);
      match profile
      case Answered(p) => Session(Some(p), storage.token, false, fetched.storage.(user := Some(p)))
      case Rejected(_) => Session(None, None, false, EmptyStorage)
  }

  /** A reload after `login` restores the same session once the server
      confirms the user. */
  lemma ReloadRestoresLogin(s: Session, u: Profile, t: string)
    requires |t| > 0
    ensures InitAuth(Login(s, u, t).storage, Answered(u)) == Login(s, u, t).(isLoading := false)
  {
  }

  /** `loginWithCredentials`: the grant is held in memory and storage on
      success; a failure is rethrown with memory untouched, although the
      response interceptor may have cleared storage and started a reload. */
  function LoginWithCredentials(s: Session, reply: Reply<LoginGrant>): (r: Attempt)
    ensures !r.session.isLoading
    ensures r.result.Answered? <==> reply.Answered?
    ensures reply.Answered? ==> r.session == Login(s, reply.value.user, reply.value.token).(isLoading := false)
    ensures reply.Rejected? ==> r.result == Rejected(reply.status)
                                && r.session.user == s.user && r.session.token == s.token
                                && r.session.storage == OnError(s.storage, reply.status).storage
    ensures r.reloadToLogin <==> reply.Rejected? && reply.status == Some(401)
  {
    var call := AuthLogin(s.storage, reply);
    match reply
    case Answered(g) =>
      Attempt(Session(Some(g.user), Some(g.token), false, call.storage.(token := Some(g.token), user := Some(g.user))),
              Answered(()), false)
    case Rejected(status) =>
      Attempt(s.(isLoading := false, storage := call.storage), Rejected(status), call.reloadToLogin)
  }

  /** The credentials `register` logs in with. */
  datatype Credentials = Credentials(username: string, password: string)

  /** `register`: create the account, then log in with the same username
      and password; a failure of either step is rethrown. */
  function Register(s: Session, data: Credentials, created: Reply<Profile>,
                    server: Credentials -> Reply<LoginGrant>): (r: Attempt)
    ensures !r.session.isLoading
    ensures r.result.Answered? <==> created.Answered? && server(data).Answered?
    ensures created.Answered? ==> r == LoginWithCredentials(s.(isLoading := true), server(data))
    ensures created.Rejected? ==> r.session.user == s.user && r.session.token == s.token
                                  && r.result == Rejected(created.status)
                                  && (r.reloadToLogin <==> created.status == Some(401))
  {
    match created
    case Rejected(status) =>
      var call := Through(s.storage, created);
      Attempt(s.(isLoading := false, storage := call.storage), Rejected(status), call.reloadToLogin)
    case Answered(_) =>
      LoginWithCredentials(s.(isLoading := true), server(Credentials(data.username, data.password)))
  }

  /** `updateProfile`: the answer replaces the user in memory and storage;
      a failure is rethrown with the user unchanged.  The provider defines
      it but leaves it out of the context value it shares, so no page can
      call it; the profile page calls the API and `login` instead. */
  function UpdateProfile(s: Session, reply: Reply<Profile>): (r: Attempt)
    ensures r.result.Answered? <==> reply.Answered?
    ensures reply.Answered? ==> r.session.user == Some(reply.value) && r.session.storage.user == Some(reply.value)
    ensures r.session.token == s.token && r.session.isLoading == s.isLoading
    ensures reply.Rejected? ==> r.session.user == s.user && r.result == Rejected(reply.status)
    ensures r.reloadToLogin <==> reply.Rejected? && reply.status == Some(401)
  {
    var call := Through(s.storage, reply);
    match reply
    case Answered(p) => Attempt(s.(user := Some(p), storage := call.storage.(user := Some(p))), Answered(()), false)
    case Rejected(status) => Attempt(s.(storage := call.storage), Rejected(status), call.reloadToLogin)
  }

  /** Every operation keeps memory and storage in step, except a failure
      the interceptor answers by clearing storage. */
  lemma OperationsKeepMirror(s: Session, u: Profile, t: string, grant: Reply<LoginGrant>, profile: Reply<Profile>)
    requires Mirrored(s)
    ensures Mirrored(Login(s, u, t)) && Mirrored(Logout(s))
    ensures grant.Answered? || grant.status != Some(401) ==> Mirrored(LoginWithCredentials(s, grant).session)
    ensures profile.Answered? || profile.status != Some(401) ==> Mirrored(UpdateProfile(s, profile).session)
  {
  }

  /** A signed-in user who mistypes the password on a second login keeps the
      session in memory while storage is cleared, but only until the reload
      the interceptor starts: the page load that follows finds no stored
      session and comes up signed out, whatever the profile fetch would say. */
  lemma FailedReloginSplitsMemoryFromStorage(s: Session, profile: Reply<Profile>)
    requires IsAuthenticated(s) && Mirrored(s)
    ensures IsAuthenticated(LoginWithCredentials(s, Rejected(Some(401))).session)
    ensures !Mirrored(LoginWithCredentials(s, Rejected(Some(401))).session)
    ensures LoginWithCredentials(s, Rejected(Some(401))).reloadToLogin
    ensures InitAuth(LoginWithCredentials(s, Rejected(Some(401))).session.storage, profile)
            == Initial(EmptyStorage).(isLoading := false)
  {
  }
}

=== FILE: tables.dfy ===
/** Database tables as sequences of rows, and the query shapes the services
    use on them: the first row matching a filter (`query(...).filter(...).first()`),
    all matching rows, their count, and a sum over them. */
module Tables {
  import opened Outcome

  /** Index of the first row satisfying `p`, in table order. */
  function FirstIndex<T>(s: seq<T>, p: T -> bool): (r: Option<nat>)
    ensures r.Some? ==> r.value < |s| && p(s[r.value])
    ensures r.Some? ==> forall j :: 0 <= j < r.value ==> !p(s[j])
    ensures r.None? <==> forall j :: 0 <= j < |s| ==> !p(s[j])
  {
    if |s| == 0 then None
    else if p(s[0]) then Some(0)
    else
      match FirstIndex(s[1..], p)
      case None => None
      case Some(k) => Some(k + 1)
  }

  /** The first index is the one that matches with nothing matching before it. */
  lemma {:induction false} FirstIndexAt<T>(s: seq<T>, p: T -> bool, k: nat)
    requires k < |s| && p(s[k]) && forall j :: 0 <= j < k ==> !p(s[j])
    ensures FirstIndex(s, p) == Some(k)
  {
    if k > 0 {
      FirstIndexAt(s[1..], p, k - 1);
    }
  }

  /** True when some row satisfies `p` (the `.first()` of a query is not None). */
  predicate Exists<T>(s: seq<T>, p: T -> bool) {
    exists i :: 0 <= i < |s| && p(s[i])
  }

  /** The rows satisfying `p`, in table order. */
  function Filter<T>(s: seq<T>, p: T -> bool): (r: seq<T>)
    ensures |r| <= |s|
    ensures forall i :: 0 <= i < |r| ==> r[i] in s && p(r[i])
    ensures forall i :: 0 <= i < |s| && p(s[i]) ==> s[i] in r
  {
    if |s| == 0 then []
    else if p(s[0]) then [s[0]] + Filter(s[1..], p)
    else Filter(s[1..], p)
  }

  /** Filtering a concatenation filters each part and keeps their order. */
  lemma {:induction false} FilterAppend<T>(a: seq<T>, b: seq<T>, p: T -> bool)
    ensures Filter(a + b, p) == Filter(a, p) + Filter(b, p)
  {
    if |a| == 0 {
      assert a + b == b;
    } else {
      assert (a + b)[1..] == a[1..] + b;
      FilterAppend(a[1..], b, p);
    }
  }

  /** Nothing is dropped exactly when every row passes. */
  lemma {:induction false} FilterKeepsAll<T>(s: seq<T>, p: T -> bool)
    ensures |Filter(s, p)| == |s| <==> forall i :: 0 <= i < |s| ==> p(s[i])
  {
    if |s| > 0 {
      FilterKeepsAll(s[1..], p);
      assert forall i :: 1 <= i < |s| ==> s[i] == s[1..][i - 1];
      if !p(s[0]) {
        assert |Filter(s, p)| <= |s[1..]|;
      }
    }
  }

  /** `query.filter(p).count()` */
  function Count<T>(s: seq<T>, p: T -> bool): (n: nat)
    ensures n <= |s|
    ensures n == 0 <==> forall i :: 0 <= i < |s| ==> !p(s[i])
  {
    if |s| == 0 then 0
    else (if p(s[0]) then 1 else 0) + Count(s[1..], p)
  }

  /** Appending a row adds one to the count exactly when the row matches. */
  lemma {:induction false} CountAppend<T>(s: seq<T>, x: T, p: T -> bool)
    ensures Count(s + [x], p) == Count(s, p) + (if p(x) then 1 else 0)
  {
    if |s| > 0 {
      assert (s + [x])[1..] == s[1..] + [x];
      CountAppend(s[1..], x, p);
    }
  }

  /** When `q` holds exactly where `p` fails, every row is counted by
      exactly one of them. */
  lemma {:induction false} CountSplit<T>(s: seq<T>, p: T -> bool, q: T -> bool)
    requires forall i :: 0 <= i < |s| ==> (q(s[i]) <==> !p(s[i]))
    ensures Count(s, p) + Count(s, q) == |s|
  {
    if |s| > 0 {
      assert forall i :: 1 <= i < |s| ==> s[1..][i - 1] == s[i];
      CountSplit(s[1..], p, q);
    }
  }

  /** Sum of `f` over the rows satisfying `p` (`sum(f(x) for x in rows if p(x))`). */
  function SumWhere<T>(s: seq<T>, p: T -> bool, f: T -> int): int {
    if |s| == 0 then 0
    else (if p(s[0]) then f(s[0]) else 0) + SumWhere(s[1..], p, f)
  }

  /** Appending a row adds its share to the sum. */
  lemma {:induction false} SumWhereAppend<T>(s: seq<T>, x: T, p: T -> bool, f: T -> int)
    ensures SumWhere(s + [x], p, f) == SumWhere(s, p, f) + (if p(x) then f(x) else 0)
  {
    if |s| > 0 {
      assert (s + [x])[1..] == s[1..] + [x];
      SumWhereAppend(s[1..], x, p, f);
    }
  }

  /** Replacing one row changes the sum by the difference of its shares. */
  lemma {:induction false} SumWhereUpdate<T>(s: seq<T>, i: nat, x: T, p: T -> bool, f: T -> int)
    requires i < |s|
    ensures SumWhere(s[i := x], p, f)
         == SumWhere(s, p, f) - (if p(s[i]) then f(s[i]) else 0) + (if p(x) then f(x) else 0)
  {
    if i > 0 {
      assert s[i := x][1..] == s[1..][i - 1 := x];
      SumWhereUpdate(s[1..], i - 1, x, p, f);
    }
  }

  /** The table with row `i` deleted. */
  function RemoveAt<T>(s: seq<T>, i: nat): (r: seq<T>)
    requires i < |s|
    ensures |r| == |s| - 1
    ensures forall j :: 0 <= j < i ==> r[j] == s[j]
    ensures forall j :: i <= j < |r| ==> r[j] == s[j + 1]
  {
    s[..i] + s[i + 1..]
  }

  /** Deleting one row takes its share out of the sum. */
  lemma {:induction false} SumWhereRemove<T>(s: seq<T>, i: nat, p: T -> bool, f: T -> int)
    requires i < |s|
    ensures SumWhere(RemoveAt(s, i), p, f) == SumWhere(s, p, f) - (if p(s[i]) then f(s[i]) else 0)
  {
    if i == 0 {
      assert RemoveAt(s, 0) == s[1..];
    } else {
      assert RemoveAt(s, i)[1..] == RemoveAt(s[1..], i - 1);
      SumWhereRemove(s[1..], i - 1, p, f);
    }
  }

  /** No two rows share a key. */
  predicate UniqueKeys<T>(s: seq<T>, key: T -> int) {
    forall i, j :: 0 <= i < j < |s| ==> key(s[i]) != key(s[j])
  }

  /** The key the database hands out next: larger than every key in use. */
  function NextKey<T>(s: seq<T>, key: T -> int): (k: int)
    ensures k >= 1
    ensures forall i :: 0 <= i < |s| ==> key(s[i]) < k
  {
    if |s| == 0 then 1
    else
      var rest := NextKey(s[1..], key);
      assert forall i :: 1 <= i < |s| ==> s[i] == s[1..][i - 1];
      if key(s[0]) + 1 > rest then key(s[0]) + 1 else rest
  }
}

=== FILE: text.dfy ===
/** String operations both halves of the system lean on: trimming with
    JavaScript's or Python's notion of whitespace, prefixes and suffixes,
    and splitting on and joining with a one-character separator. */
module Text {

  /** Whitespace as `String.prototype.trim` sees it, limited to ASCII. */
  predicate IsJsSpace(c: char) {
    c == ' ' || c == '\t' || c == '\n' || c == '\U{B}' || c == '\U{C}' || c == '\r'
  }

  /** Whitespace as Python's `str.strip()` sees it (`str.isspace`). */
  predicate IsPySpace(c: char) {
    ('\U{9}' <= c <= '\U{D}') || ('\U{1C}' <= c <= '\U{20}') || c == '\U{85}' || c == '\U{A0}'
    || c == '\U{1680}' || ('\U{2000}' <= c <= '\U{200A}') || c == '\U{2028}' || c == '\U{2029}'
    || c == '\U{202F}' || c == '\U{205F}' || c == '\U{3000}'
  }

  /** Every JavaScript whitespace character is Python whitespace too. */
  lemma JsSpaceIsPySpace(c: char)
    ensures IsJsSpace(c) ==> IsPySpace(c)
  {
  }

  // ---------------------------------------------------------------------
  // Trimming.

  /** Length of the run of `ws` characters that starts `s`. */
  function LeadingCount(s: string, ws: char -> bool): (k: nat)
    ensures k <= |s|
    ensures forall i :: 0 <= i < k ==> ws(s[i])
    ensures k < |s| ==> !ws(s[k])
  {
    if |s| == 0 || !ws(s[0]) then 0
    else
      var k := LeadingCount(s[1..], ws);
      assert forall i :: 1 <= i < k + 1 ==> s[i] == s[1..][i - 1];
      1 + k
  }

  /** Length of the run of `ws` characters that ends `s`. */
  function TrailingCount(s: string, ws: char -> bool): (k: nat)
    ensures k <= |s|
    ensures forall i :: |s| - k <= i < |s| ==> ws(s[i])
    ensures k < |s| ==> !ws(s[|s| - 1 - k])
  {
    if |s| == 0 || !ws(s[|s| - 1]) then 0
    else
      var k := TrailingCount(s[..|s| - 1], ws);
      assert forall i :: |s| - 1 - k <= i < |s| - 1 ==> s[i] == s[..|s| - 1][i];
      1 + k
  }

  /** `s` neither starts nor ends with a `ws` character. */
  predicate Clean(s: string, ws: char -> bool) {
    |s| == 0 || (!ws(s[0]) && !ws(s[|s| - 1]))
  }

  /** `s` with its leading and trailing `ws` characters removed: the slice
      between them, which is clean. */
  function Trim(s: string, ws: char -> bool): (r: string)
    ensures Clean(r, ws)
    ensures exists i, j :: 0 <= i <= j <= |s| && r == s[i..j]
              && (forall k :: 0 <= k < i ==> ws(s[k])) && (forall k :: j <= k < |s| ==> ws(s[k]))
  {
    var front := LeadingCount(s, ws);
    var t := s[front..];
    var back := TrailingCount(t, ws);
    var r := t[..|t| - back];
    assert r == s[front..|s| - back];
    assert forall k :: |s| - back <= k < |s| ==> s[k] == t[k - front];
    assert |r| > 0 ==> r[0] == t[0] && r[|r| - 1] == t[|t| - 1 - back];
    r
  }

  /** A clean string is its own trim. */
  lemma TrimClean(s: string, ws: char -> bool)
    requires Clean(s, ws)
    ensures Trim(s, ws) == s
  {
    assert LeadingCount(s, ws) == 0;
    assert s[0..] == s;
    assert TrailingCount(s, ws) == 0;
  }

  /** A leading `ws` character is trimmed away. */
  lemma TrimLeadingSpace(s: string, ws: char -> bool)
    requires |s| > 0 && ws(s[0])
    ensures Trim(s, ws) == Trim(s[1..], ws)
  {
    var k := LeadingCount(s[1..], ws);
    assert LeadingCount(s, ws) == 1 + k;
    assert s[1 + k..] == s[1..][k..];
  }

  /** A string that starts with exactly one `ws` character and does not end
      with one trims to all but its first character. */
  lemma TrimOneLeadingSpace(s: string, ws: char -> bool)
    requires |s| >= 2 && ws(s[0]) && !ws(s[1]) && !ws(s[|s| - 1])
    ensures Trim(s, ws) == s[1..]
  {
    TrimLeadingSpace(s, ws);
    TrimClean(s[1..], ws);
  }

  /** Trimming twice is trimming once. */
  lemma TrimIdempotent(s: string, ws: char -> bool)
    ensures Trim(Trim(s, ws), ws) == Trim(s, ws)
  {
    TrimClean(Trim(s, ws), ws);
  }

  /** A string made only of `ws` characters trims to nothing, and only such
      a string does. */
  lemma TrimEmpty(s: string, ws: char -> bool)
    ensures |Trim(s, ws)| == 0 <==> forall i :: 0 <= i < |s| ==> ws(s[i])
  {
    var front := LeadingCount(s, ws);
    if front < |s| {
      var t := s[front..];
      assert !ws(t[0]);
      assert TrailingCount(t, ws) < |t|;
    }
  }

  // ---------------------------------------------------------------------
  // Prefixes and suffixes.

  predicate StartsWith(s: string, prefix: string) {
    |prefix| <= |s| && s[..|prefix|] == prefix
  }

  predicate EndsWith(s: string, suffix: string) {
    |suffix| <= |s| && s[|s| - |suffix|..] == suffix
  }

  // ---------------------------------------------------------------------
  // Splitting and joining on one character.

  /** `s.split(sep)`: the pieces between occurrences of `sep`; there is
      always at least one. */
  function Split(s: string, sep: char): (r: seq<string>)
    ensures |r| >= 1
    ensures forall i :: 0 <= i < |r| ==> sep !in r[i]
  {
    if |s| == 0 then [""]
    else
      var rest := Split(s[1..], sep);
      if s[0] == sep then [""] + rest
      else [[s[0]] + rest[0]] + rest[1..]
  }

  /** `pieces.join(sep)` */
  function Join(pieces: seq<string>, sep: char): string {
    if |pieces| == 0 then ""
    else if |pieces| == 1 then pieces[0]
    else pieces[0] + [sep] + Join(pieces[1..], sep)
  }

  /** Occurrences of `c` in `s`. */
  function Occurrences(s: string, c: char): nat {
    if |s| == 0 then 0 else (if s[0] == c then 1 else 0) + Occurrences(s[1..], c)
  }

  /** There is one more piece than there are separators. */
  lemma {:induction false} SplitCount(s: string, sep: char)
    ensures |Split(s, sep)| == Occurrences(s, sep) + 1
  {
    if |s| > 0 {
      SplitCount(s[1..], sep);
    }
  }

  /** Extending the first piece extends the joined string. */
  lemma JoinExtendFirst(a: string, pieces: seq<string>, sep: char)
    requires |pieces| >= 1
    ensures Join([a + pieces[0]] + pieces[1..], sep) == a + Join(pieces, sep)
  {
    var ps := [a + pieces[0]] + pieces[1..];
    if |pieces| > 1 {
      assert ps[1..] == pieces[1..];
    }
  }

  /** Joining the pieces gives back the string that was split. */
  lemma {:induction false} JoinSplit(s: string, sep: char)
    ensures Join(Split(s, sep), sep) == s
  {
    if |s| > 0 {
      var rest := Split(s[1..], sep);
      JoinSplit(s[1..], sep);
      if s[0] == sep {
        assert ([""] + rest)[1..] == rest;
        assert s == [sep] + s[1..];
      } else {
        JoinExtendFirst([s[0]], rest, sep);
        assert s == [s[0]] + s[1..];
      }
    }
  }

  /** A string without the separator is a single piece. */
  lemma {:induction false} SplitWithout(s: string, sep: char)
    requires sep !in s
    ensures Split(s, sep) == [s]
  {
    if |s| > 0 {
      assert sep !in s[1..];
      SplitWithout(s[1..], sep);
      assert s == [s[0]] + s[1..];
    }
  }

  /** A separator-free head splits off as the first piece. */
  lemma {:induction false} SplitAfterHead(head: string, tail: string, sep: char)
    requires sep !in head
    ensures Split(head + [sep] + tail, sep) == [head] + Split(tail, sep)
  {
    var s := head + [sep] + tail;
    if |head| == 0 {
      assert s == [sep] + tail;
      assert s[1..] == tail;
    } else {
      assert s[1..] == head[1..] + [sep] + tail;
      assert sep !in head[1..];
      SplitAfterHead(head[1..], tail, sep);
      assert [head[0]] + head[1..] == head;
    }
  }

  /** Splitting a join of separator-free pieces gives the pieces back. */
  lemma {:induction false} SplitJoin(pieces: seq<string>, sep: char)
    requires |pieces| >= 1
    requires forall i :: 0 <= i < |pieces| ==> sep !in pieces[i]
    ensures Split(Join(pieces, sep), sep) == pieces
  {
    if |pieces| == 1 {
      SplitWithout(pieces[0], sep);
    } else {
      SplitJoin(pieces[1..], sep);
      SplitAfterHead(pieces[0], Join(pieces[1..], sep), sep);
      assert [pieces[0]] + pieces[1..] == pieces;
    }
  }

  /** Trimming each piece. */
  function TrimEach(pieces: seq<string>, ws: char -> bool): (r: seq<string>)
    ensures |r| == |pieces|
    ensures forall i :: 0 <= i < |r| ==> r[i] == Trim(pieces[i], ws)
  {
    seq(|pieces|, i requires 0 <= i < |pieces| => Trim(pieces[i], ws))
  }

  /** A trimmed piece contains no character the untrimmed one lacked. */
  lemma TrimKeepsOut(s: string, ws: char -> bool, c: char)
    requires c !in s
    ensures c !in Trim(s, ws)
  {
  }
}

=== FILE: user_service.dfy ===
/** The user service: registration, login lookup, profile updates, soft
    deletion, password changes and user counts.

    Password hashing is bcrypt's business: a hash is handed in as a value,
    and the check of a password against a hash is a function parameter. */
module UserService {
  import opened Outcome
  import opened Model
  import Tables

  /** `verify_password(plain, hashed)` */
  type Verifier = (string, string) -> bool

  /** Some user other than `self` has this email. */
  predicate EmailInUse(users: seq<User>, email: string, self: Option<int>) {
    exists i :: 0 <= i < |users| && users[i].email == email && self != Some(users[i].id)
  }

  /** Some user other than `self` has this username. */
  predicate UsernameInUse(users: seq<User>, username: string, self: Option<int>) {
    exists i :: 0 <= i < |users| && users[i].username == username && self != Some(users[i].id)
  }

  /** Emails and usernames are each unique, as the table's constraints demand. */
  predicate IdentitiesUnique(users: seq<User>) {
    forall i, j :: 0 <= i < j < |users| ==> users[i].email != users[j].email && users[i].username != users[j].username
  }

  // ---------------------------------------------------------------------
  // Registration and login.

  /** Fields of a registration (`UserCreate`). */
  datatype NewUser = NewUser(
    email: string,
    username: string,
    password: string,
    firstName: string,
    lastName: string,
    phone: Option<string>,
    role: Role)

  function NewUserRecord(users: seq<User>, data: NewUser, hashed: string): (u: User)
    ensures u.isActive && u.hashedPassword == hashed && u.role == data.role
    ensures u.email == data.email && u.username == data.username
    ensures forall i :: 0 <= i < |users| ==> users[i].id != u.id
  {
    User(Tables.NextKey(users, UserKey), data.email, data.username, hashed, data.firstName, data.lastName,
         data.phone, data.role, true)
  }

  /** `create_user`, with `get_password_hash(password)` as a parameter.  The
      first user with the email or the username decides the message: the
      email one when that user has the email. */
  function CreateUser(db: Db, data: NewUser, hashed: string): (r: Result<(Db, User)>)
    ensures r.Ok? <==> !EmailInUse(db.users, data.email, None) && !UsernameInUse(db.users, data.username, None)
    ensures r.Err? ==> r == Err(Invalid(EmailTaken)) || r == Err(Invalid(UsernameTaken))
    ensures EmailInUse(db.users, data.email, None) && !UsernameInUse(db.users, data.username, None) ==> r == Err(Invalid(EmailTaken))
    ensures UsernameInUse(db.users, data.username, None) && !EmailInUse(db.users, data.email, None) ==> r == Err(Invalid(UsernameTaken))
    ensures r.Ok? ==>
      var (db', u) := r.value;
      && db' == db.(users := db.users + [u])
      && u == NewUserRecord(db.users, data, hashed)
  {
    match Tables.FirstIndex(db.users, (u: User) => u.email == data.email || u.username == data.username)
    case Some(k) =>
      if db.users[k].email == data.email then Err(Invalid(EmailTaken)) else Err(Invalid(UsernameTaken))
    case None =>
      var u := NewUserRecord(db.users, data, hashed);
      Ok((db.(users := db.users + [u]), u))
  }

  /** Registration keeps emails and usernames unique. */
  lemma CreateUserKeepsIdentitiesUnique(db: Db, data: NewUser, hashed: string)
    requires IdentitiesUnique(db.users)
    requires CreateUser(db, data, hashed).Ok?
    ensures IdentitiesUnique(CreateUser(db, data, hashed).value.0.users)
  {
    var users' := CreateUser(db, data, hashed).value.0.users;
    forall i, j | 0 <= i < j < |users'|
      ensures users'[i].email != users'[j].email && users'[i].username != users'[j].username
    {
      assert users'[i] == db.users[i];
      if j < |db.users| {
        assert users'[j] == db.users[j];
      }
    }
  }

  /** `authenticate_user`: the first user whose username or email is the
      login name, if the password checks out against that user's hash.
      Whether the account is active is not looked at. */
  function Authenticate(users: seq<User>, login: string, password: string, verify: Verifier): (r: Option<User>)
    ensures r.Some? ==>
      && (exists i :: 0 <= i < |users| && users[i] == r.value)
      && (r.value.username == login || r.value.email == login)
      && verify(password, r.value.hashedPassword)
    ensures (forall i :: 0 <= i < |users| ==> users[i].username != login && users[i].email != login) ==> r.None?
  {
    match Tables.FirstIndex(users, (u: User) => u.username == login || u.email == login)
    case None => None
    case Some(k) => if verify(password, users[k].hashedPassword) then Some(users[k]) else None
  }

  /** The login endpoint: a failed authentication and a deactivated account
      are both 401. */
  function Login(users: seq<User>, login: string, password: string, verify: Verifier): (r: Result<User>)
    ensures r.Ok? <==> Authenticate(users, login, password, verify).Some? && Authenticate(users, login, password, verify).value.isActive
    ensures r.Err? ==> r == Err(Unauthorized)
    ensures r.Ok? ==> r.value == Authenticate(users, login, password, verify).value
  {
    match Authenticate(users, login, password, verify)
    case None => Err(Unauthorized)
    case Some(u) => if !u.isActive then Err(Unauthorized) else Ok(u)
  }

  /** A user who has just registered can log in with their username, unless
      an earlier user's email is that username, and with their email, unless
      an earlier user's username is that email. */
  lemma RegisteredUserCanLogIn(db: Db, data: NewUser, hashed: string, verify: Verifier)
    requires verify(data.password, hashed)
    requires CreateUser(db, data, hashed).Ok?
    ensures var (db', u) := CreateUser(db, data, hashed).value;
      && (!EmailInUse(db.users, data.username, None) ==> Login(db'.users, data.username, data.password, verify) == Ok(u))
      && (!UsernameInUse(db.users, data.email, None) ==> Login(db'.users, data.email, data.password, verify) == Ok(u))
  {
    var (db', u) := CreateUser(db, data, hashed).value;
    var n := |db.users|;
    assert db'.users[n] == u;
    forall i | 0 <= i < n
      ensures db'.users[i] == db.users[i]
    {
    }
  }

  /** Login looks usernames and emails up together but registration checks
      them apart, so a new user whose email is an earlier user's username
      cannot log in with that email. */
  lemma LoginByEmailCanFindAnotherUser()
    ensures exists db: Db, data: NewUser, hashed: string, verify: Verifier ::
      && verify(data.password, hashed)
      && CreateUser(db, data, hashed).Ok?
      && Login(CreateUser(db, data, hashed).value.0.users, data.email, data.password, verify) == Err(Unauthorized)
  {
    var verify: Verifier := (p: string, h: string) => h == "#" + p;
    var a := User(1, "a@x", "b@x", "#a", "A", "A", None, Guest, true);
    var db := Db([a], [], [], [], []);
    var data := NewUser("b@x", "b", "b", "B", "B", None, Guest);
    assert db.users[0].email != data.email && db.users[0].username != data.username;
    assert CreateUser(db, data, "#b").Ok?;
    var users' := CreateUser(db, data, "#b").value.0.users;
    assert users'[0] == a;
    assert "#" + "b" == "#b";
    assert "#a"[1] != "#b"[1];
    assert !verify("b", "#a") && verify("b", "#b");
    Tables.FirstIndexAt(users', (u: User) => u.username == "b@x" || u.email == "b@x", 0);
    assert Authenticate(users', "b@x", "b", verify).None?;
    assert verify(data.password, "#b") && CreateUser(db, data, "#b").Ok?;
  }

  /** Registration that keeps the login namespace unambiguous: an email may
      not be an existing username and a username may not be an existing
      email either. */
  function CreateUserChecked(db: Db, data: NewUser, hashed: string): (r: Result<(Db, User)>)
    ensures r.Ok? <==>
      && !EmailInUse(db.users, data.email, None) && !UsernameInUse(db.users, data.email, None)
      && !UsernameInUse(db.users, data.username, None) && !EmailInUse(db.users, data.username, None)
    ensures r.Ok? ==> r == CreateUser(db, data, hashed)
  {
    if Tables.FirstIndex(db.users, (u: User) => u.username == data.email).Some? then Err(Invalid(EmailTaken))
    else if Tables.FirstIndex(db.users, (u: User) => u.email == data.username).Some? then Err(Invalid(UsernameTaken))
    else CreateUser(db, data, hashed)
  }

  /** After a checked registration, both the username and the email log the
      new user in. */
  lemma CheckedRegistrationCanLogIn(db: Db, data: NewUser, hashed: string, verify: Verifier)
    requires verify(data.password, hashed)
    requires CreateUserChecked(db, data, hashed).Ok?
    ensures var (db', u) := CreateUserChecked(db, data, hashed).value;
      && Login(db'.users, data.username, data.password, verify) == Ok(u)
      && Login(db'.users, data.email, data.password, verify) == Ok(u)
  {
    RegisteredUserCanLogIn(db, data, hashed, verify);
  }

  // ---------------------------------------------------------------------
  // Updates, deletion and passwords.

  /** Fields a profile update may carry (`UserUpdate`); `None` leaves the
      field alone. */
  datatype UserPatch = UserPatch(
    email: Option<string>,
    username: Option<string>,
    firstName: Option<string>,
    lastName: Option<string>,
    phone: Option<string>,
    role: Option<Role>,
    isActive: Option<bool>)

  function ApplyUserPatch(u: User, p: UserPatch): (r: User)
    ensures r.id == u.id && r.hashedPassword == u.hashedPassword
    ensures Replaced(p.email, u.email, r.email) && Replaced(p.username, u.username, r.username)
    ensures Replaced(p.firstName, u.firstName, r.firstName) && Replaced(p.lastName, u.lastName, r.lastName)
    ensures ReplacedOptional(p.phone, u.phone, r.phone)
    ensures Replaced(p.role, u.role, r.role) && Replaced(p.isActive, u.isActive, r.isActive)
  {
    u.(email := Pick(p.email, u.email),
       username := Pick(p.username, u.username),
       firstName := Pick(p.firstName, u.firstName),
       lastName := Pick(p.lastName, u.lastName),
       phone := PickOptional(p.phone, u.phone),
       role := Pick(p.role, u.role),
       isActive := Pick(p.isActive, u.isActive))
  }

  /** `update_user` as written: the owner or an admin may change any field,
      the role included.  Only a changed non-empty email is checked; a
      username or email that still clashes breaks the table's unique
      constraints when the change is committed. */
  function UpdateUser(db: Db, caller: User, userId: int, p: UserPatch): (r: Result<(Db, User)>)
    ensures UserIndex(db.users, userId).None? ==> r == Err(NotFound(UserRecord))
    ensures UserIndex(db.users, userId).Some? && !AdminOrOwner(caller, userId) ==> r == Err(Forbidden)
    ensures r.Ok? <==>
      UserIndex(db.users, userId).Some? && AdminOrOwner(caller, userId)
      && var u' := ApplyUserPatch(db.users[UserIndex(db.users, userId).value], p);
         !EmailInUse(db.users, u'.email, Some(userId)) && !UsernameInUse(db.users, u'.username, Some(userId))
    ensures UserIndex(db.users, userId).Some? && AdminOrOwner(caller, userId) ==>
      var u := db.users[UserIndex(db.users, userId).value];
      var emailClash := Truthy(p.email) && p.email.value != u.email && EmailInUse(db.users, p.email.value, Some(userId));
      && (emailClash ==> r == Err(Invalid(EmailTaken)))
      && (!emailClash && r.Err? ==> r == Err(Internal(UniqueViolation)))
    ensures r.Ok? ==>
      var k := UserIndex(db.users, userId).value;
      && AdminOrOwner(caller, userId)
      && r.value.1 == ApplyUserPatch(db.users[k], p)
      && r.value.0 == db.(users := db.users[k := r.value.1])
      && !EmailInUse(db.users, r.value.1.email, Some(userId))
      && !UsernameInUse(db.users, r.value.1.username, Some(userId))
  {
    match UserIndex(db.users, userId)
    case None => Err(NotFound(UserRecord))
    case Some(k) =>
      var u := db.users[k];
      if !AdminOrOwner(caller, userId) then Err(Forbidden)
      else if Truthy(p.email) && p.email.value != u.email
              && Tables.FirstIndex(db.users, (x: User) => x.email == p.email.value && x.id != userId).Some?
      then Err(Invalid(EmailTaken))
      else
        var u' := ApplyUserPatch(u, p);
        if Tables.FirstIndex(db.users, (x: User) => (x.email == u'.email || x.username == u'.username) && x.id != userId).Some?
        then Err(Internal(UniqueViolation))
        else Ok((db.(users := db.users[k := u']), u'))
  }

  /** A guest may update their own record, and the role is one of its
      fields: a guest can make themself an admin. */
  lemma GuestCanPromoteThemself()
    ensures exists db: Db, guest: User, p: UserPatch ::
      && !IsAdmin(guest) && UserIndex(db.users, guest.id) == Some(0) && db.users[0] == guest
      && UpdateUser(db, guest, guest.id, p).Ok?
      && IsAdmin(UpdateUser(db, guest, guest.id, p).value.1)
  {
    var guest := User(7, "g@x", "g", "#g", "G", "G", None, Guest, true);
    var db := Db([guest], [], [], [], []);
    var p := UserPatch(None, None, None, None, None, Some(Admin), None);
    assert UserIndex(db.users, 7) == Some(0);
    assert UpdateUser(db, guest, 7, p).Ok?;
  }

  /** `update_user` with the role reserved to admins: anyone else who asks
      for a different role is refused. */
  function UpdateUserChecked(db: Db, caller: User, userId: int, p: UserPatch): (r: Result<(Db, User)>)
    ensures r.Ok? ==> r == UpdateUser(db, caller, userId, p)
    ensures r.Ok? && !IsAdmin(caller) ==> r.value.1.role == db.users[UserIndex(db.users, userId).value].role
    ensures UpdateUser(db, caller, userId, p).Ok? && (IsAdmin(caller) || p.role.None?) ==> r.Ok?
  {
    match UserIndex(db.users, userId)
    case None => Err(NotFound(UserRecord))
    case Some(k) =>
      if !AdminOrOwner(caller, userId) then Err(Forbidden)
      else if !IsAdmin(caller) && p.role.Some? && p.role.value != db.users[k].role then Err(Forbidden)
      else UpdateUser(db, caller, userId, p)
  }

  /** Under the checked update, whoever is an admin afterwards was one
      before unless an admin made the change. */
  lemma CheckedUpdateGrantsNoAdmin(db: Db, caller: User, userId: int, p: UserPatch)
    requires !IsAdmin(caller)
    requires UpdateUserChecked(db, caller, userId, p).Ok?
    ensures var users' := UpdateUserChecked(db, caller, userId, p).value.0.users;
      |users'| == |db.users| && forall i :: 0 <= i < |users'| ==> users'[i].role == db.users[i].role
  {
  }

  /** Updates keep emails and usernames unique. */
  lemma UpdateUserKeepsIdentitiesUnique(db: Db, caller: User, userId: int, p: UserPatch)
    requires IdentitiesUnique(db.users) && Tables.UniqueKeys(db.users, UserKey)
    requires UpdateUser(db, caller, userId, p).Ok?
    ensures IdentitiesUnique(UpdateUser(db, caller, userId, p).value.0.users)
  {
    var k := UserIndex(db.users, userId).value;
    var u' := UpdateUser(db, caller, userId, p).value.1;
    var users' := db.users[k := u'];
    forall i, j | 0 <= i < j < |users'|
      ensures users'[i].email != users'[j].email && users'[i].username != users'[j].username
    {
      if i == k {
        assert UserKey(db.users[k]) != UserKey(db.users[j]);
      } else if j == k {
        assert UserKey(db.users[i]) != UserKey(db.users[k]);
      } else {
        assert users'[i] == db.users[i] && users'[j] == db.users[j];
      }
    }
  }

  /** `delete_user`: admin only, never an admin account, and the record is
      kept with `is_active` cleared. */
  function DeleteUser(db: Db, caller: User, userId: int): (r: Result<Db>)
    ensures !IsAdmin(caller) ==> r == Err(Forbidden)
    ensures IsAdmin(caller) && UserIndex(db.users, userId).None? ==> r == Err(NotFound(UserRecord))
    ensures r.Ok? <==> IsAdmin(caller) && UserIndex(db.users, userId).Some? && !IsAdmin(db.users[UserIndex(db.users, userId).value])
    ensures r.Ok? ==>
      var k := UserIndex(db.users, userId).value;
      r.value == db.(users := db.users[k := db.users[k].(isActive := false)])
  {
    if !IsAdmin(caller) then Err(Forbidden)
    else match UserIndex(db.users, userId)
      case None => Err(NotFound(UserRecord))
      case Some(k) =>
        if IsAdmin(db.users[k]) then Err(Invalid(AdminNotDeletable))
        else Ok(db.(users := db.users[k := db.users[k].(isActive := false)]))
  }

  /** A deactivated user can no longer log in, whatever name and password
      they try. */
  lemma DeletedUserCannotLogIn(db: Db, caller: User, userId: int, login: string, password: string, verify: Verifier)
    requires Tables.UniqueKeys(db.users, UserKey)
    requires DeleteUser(db, caller, userId).Ok?
    ensures var users' := DeleteUser(db, caller, userId).value.users;
      Login(users', login, password, verify).Ok? ==> Login(users', login, password, verify).value.id != userId
  {
    var k := UserIndex(db.users, userId).value;
    var users' := DeleteUser(db, caller, userId).value.users;
    if Login(users', login, password, verify).Ok? {
      var u := Login(users', login, password, verify).value;
      var j :| 0 <= j < |users'| && users'[j] == u;
      if j != k {
        assert users'[j] == db.users[j];
        if j < k {
          assert UserKey(db.users[j]) != UserKey(db.users[k]);
        } else {
          assert UserKey(db.users[k]) != UserKey(db.users[j]);
        }
      }
    }
  }

  /** `change_password`: the user or an admin, with the old password checked
      for anyone but an admin; `get_password_hash(new)` is a parameter. */
  function ChangePassword(db: Db, caller: User, userId: int, oldPassword: string, newHash: string, verify: Verifier): (r: Result<Db>)
    ensures !AdminOrOwner(caller, userId) ==> r == Err(Forbidden)
    ensures AdminOrOwner(caller, userId) && UserIndex(db.users, userId).None? ==> r == Err(NotFound(UserRecord))
    ensures r.Ok? <==>
      && AdminOrOwner(caller, userId) && UserIndex(db.users, userId).Some?
      && (IsAdmin(caller) || verify(oldPassword, db.users[UserIndex(db.users, userId).value].hashedPassword))
    ensures r.Ok? ==>
      var k := UserIndex(db.users, userId).value;
      r.value == db.(users := db.users[k := db.users[k].(hashedPassword := newHash)])
  {
    if !AdminOrOwner(caller, userId) then Err(Forbidden)
    else match UserIndex(db.users, userId)
      case None => Err(NotFound(UserRecord))
      case Some(k) =>
        if !IsAdmin(caller) && !verify(oldPassword, db.users[k].hashedPassword) then Err(Invalid(WrongOldPassword))
        else Ok(db.(users := db.users[k := db.users[k].(hashedPassword := newHash)]))
  }

  /** After a password change, any login name that found the user before
      logs them in with the new password. */
  lemma NewPasswordLogsIn(db: Db, caller: User, userId: int, oldPassword: string, newPassword: string, newHash: string,
                          verify: Verifier, login: string)
    requires verify(newPassword, newHash)
    requires ChangePassword(db, caller, userId, oldPassword, newHash, verify).Ok?
    requires Tables.FirstIndex(db.users, (u: User) => u.username == login || u.email == login) == UserIndex(db.users, userId)
    ensures var users' := ChangePassword(db, caller, userId, oldPassword, newHash, verify).value.users;
      Authenticate(users', login, newPassword, verify) == Some(users'[UserIndex(db.users, userId).value])
  {
    var k := UserIndex(db.users, userId).value;
    var users' := ChangePassword(db, caller, userId, oldPassword, newHash, verify).value.users;
    var p := (u: User) => u.username == login || u.email == login;
    assert forall j :: 0 <= j < k ==> users'[j] == db.users[j];
    assert p(users'[k]);
    assert Tables.FirstIndex(users', p) == Some(k) by {
      Tables.FirstIndexAt(users', p, k);
    }
  }

  // ---------------------------------------------------------------------
  // Statistics.

  datatype UserStats = UserStats(total: nat, active: nat, inactive: int, admins: nat, guests: nat)

  /** Users with the given role. */
  function HasRole(role: Role): User -> bool {
    (u: User) => u.role == role
  }

  /** Users whose account is active. */
  function Active(): User -> bool {
    (u: User) => u.isActive
  }

  /** `get_user_stats`: the inactive users are the users that are not
      active, and every user is an admin or a guest. */
  function GetUserStats(users: seq<User>): (r: UserStats)
    ensures r.total == |users|
    ensures r.active == Tables.Count(users, Active())
    ensures r.inactive == Tables.Count(users, (u: User) => !u.isActive)
    ensures r.active + r.inactive == r.total
    ensures r.admins == Tables.Count(users, HasRole(Admin))
    ensures r.guests == Tables.Count(users, HasRole(Guest))
    ensures r.admins + r.guests == r.total
  {
    var active := Tables.Count(users, Active());
    Tables.CountSplit(users, Active(), (u: User) => !u.isActive);
    Tables.CountSplit(users, HasRole(Admin), HasRole(Guest));
    UserStats(|users|, active, |users| - active,
              Tables.Count(users, HasRole(Admin)), Tables.Count(users, HasRole(Guest)))
  }

  /** A registration shows in the statistics: one more user, one more
      active user, and one more user of the role the new account asked for. */
  lemma CreateUserCountsInStats(db: Db, data: NewUser, hashed: string)
    requires CreateUser(db, data, hashed).Ok?
    ensures var before := GetUserStats(db.users);
            var after := GetUserStats(CreateUser(db, data, hashed).value.0.users);
            && after.total == before.total + 1
            && after.active == before.active + 1
            && after.inactive == before.inactive
            && after.admins == before.admins + (if data.role == Admin then 1 else 0)
            && after.guests == before.guests + (if data.role == Guest then 1 else 0)
  {
    var u := CreateUser(db, data, hashed).value.1;
    Tables.CountAppend(db.users, u, Active());
    Tables.CountAppend(db.users, u, HasRole(Admin));
    Tables.CountAppend(db.users, u, HasRole(Guest));
  }
}
